=== FILE: README.md ===
# Zip: selective extraction with media-type checking, in Dafny

The PHP library `masterpuppet/Zip` wraps `ZipArchive`. It extracts only some entries of
an archive into a temporary staging directory. It then copies each extracted file to a
destination directory, but only when the media type sniffed from the file's content is one
the library accepts.

This project models the library's decision logic and proves properties of it:

- the registry of accepted media types per extension, and its acceptance test;
- the planners that choose which entries to extract;
- the move from the staging directory to the destination;
- the helpers around them: base-path normalisation, the libzip error table, the key search
  and recursive unset over the registry, and the removal of a directory tree.

The repository holds three versions of the library, and they disagree in places. Each
version is modelled as its own set of modules, each faithful to its own text:

- `src/abimaelrc/Zip/*`, the current version: modules `SrcZip`, `SrcMime`, `SrcExtract`
  and `Relocation`;
- `Vendor/Zip/*`, an older snapshot: modules `VendorZip`, `VendorMime` and `VendorExtract`;
- `Zip.php`, the original single class: module `LegacyZip`.

Shared modules define each concept once:

- `Php`: `empty()`, exceptions and `Result`;
- `Paths`: `basename`, `dirname`, `pathinfo`, `rtrim`/`ltrim`, and the separator `preg_replace`;
- `Registry`: the registry as an ordered PHP array from extension to one media type or a list of them;
- `KeySearch`: `arrayKeysRecursive` and `recursiveUnset`;
- `Disk`: the file system, as a map from path to node, with a `FileSystem` object changed in place;
- `DirTree`: the self-first directory walk;
- `Archive`: the archive as its entry names in index order, with `locateName` and `extractTo`;
- `ZipErrors`: the two libzip error-message tables;
- `Naming`: `addSuffix`;
- `Seqs`: sequence helpers.

Objects whose fields the PHP code updates are classes: `SrcZip.Zip`, `SrcMime.Mime`,
`SrcExtract.Extract`, `VendorZip.Zip`, `VendorExtract.Extract`, `LegacyZip.Zip` and
`Disk.FileSystem`. The static state of `Mime` is modelled as one `Mime` object, which the
extraction methods receive. `Extract extends Zip` is modelled as an `Extract` holding its
`Zip` part.

Every loop of the source is a method with loop invariants, except the loops that only collect
what a directory iterator yields (`iterateDir` and `listFiles`): those are the `Listing`
function over the tree parameter. Each method is proved equal to a
specification function, and the properties are proved about those functions.

The model treats the outside world as parameters:

- the content sniffer `finfo::file` is a function from path to reported type, where "" means failure;
- `microtime(true)` is a clock that gives a token for each turn of a loop;
- `ZipArchive::open` is an opener function;
- the directory tree the iterator walks is passed in as a tree value.

## Model

| member | source | states |
|---|---|---|
| Paths.TrimRight | src/abimaelrc/Zip/Zip.php:129 | `rtrim` leaves a prefix of the input that does not end in the character |
| Paths.TrimRightDropsOnly | src/abimaelrc/Zip/Zip.php:129 | what `rtrim` cuts off the end consists of that character only |
| Paths.TrimLeft | src/abimaelrc/Zip/Extract.php:500 | `ltrim` leaves a suffix of the input that does not start with the character |
| Paths.TrimLeftDropsOnly | src/abimaelrc/Zip/Extract.php:500 | what `ltrim` cuts off the front consists of that character only |
| Paths.ReplaceSeparators | src/abimaelrc/Zip/Zip.php:129 | the rewrite of `(\+)\|(/+)` leaves no '+', keeps every other character in order, and leaves no doubled '/' in a string without '+'; the same rewrite is applied to a listed directory at src/abimaelrc/Zip/Extract.php:500 |
| Paths.ReplaceSeparatorsEndsInSlash | src/abimaelrc/Zip/Extract.php:500 | a prefix with '/' appended still ends in '/' after the rewrite |
| Paths.BaseName | src/abimaelrc/Zip/Extract.php:374 | `basename` never contains '/' |
| Paths.Extension | src/abimaelrc/Zip/Extract.php:449-450 | the `pathinfo` extension is absent exactly when the base name has no '.', and it contains neither '.' nor '/' |
| Paths.FileName | src/abimaelrc/Zip/Extract.php:238-240 | the `pathinfo` file name contains no '/' |
| Paths.FileNameAndExtension | Vendor/Zip/Extract.php:434-437 | the file name, '.' and the extension together give back the base name |
| Paths.ExtensionOfDotted | src/abimaelrc/Zip/Extract.php:232-241 | a name that ends in ".e" has extension e and file name equal to what precedes ".e" |
| Registry.Lookup | src/abimaelrc/Zip/Mime.php:65-69 | the lookup is absent exactly when the key is not in the array, and otherwise it is a binding of that key |
| Registry.AcceptsValues | src/abimaelrc/Zip/Mime.php:65-69 | a rule accepts a media type exactly when the type is one of its values: membership for a list, equality for a string |
| Registry.Put | src/abimaelrc/Zip/Mime.php:92 | an assignment gives the key the new rule and leaves every other key's rule alone; an existing key keeps its place and a new key goes last |
| Registry.PutKeepsUnique | src/abimaelrc/Zip/Mime.php:92 | an assignment never makes a key appear twice |
| Registry.LookupPutAll | src/abimaelrc/Zip/Mime.php:110-112 | after the merge loop, a given key has the given rule and every other key keeps its old rule |
| Registry.PutAllKeepsUnique | src/abimaelrc/Zip/Mime.php:110-112 | the merge never makes a key appear twice |
| Registry.RemoveKey | src/abimaelrc/Zip/Mime.php:185-187 | `unset` removes exactly that key and changes nothing else |
| Registry.RemoveKeyKeepsUnique | src/abimaelrc/Zip/Mime.php:185-187 | `unset` never makes a key appear twice |
| Registry.LookupRemoveKeys | src/abimaelrc/Zip/Mime.php:182-189 | after the loop over the keys, exactly the listed keys are gone and every other key looks up as before |
| Registry.LeavesMembers | src/abimaelrc/Zip/Mime.php:138-142 | the media types `array_walk_recursive` visits are exactly those held by some binding |
| Registry.MediaType | src/abimaelrc/Zip/Mime.php:60 | `explode(';')[0]` is the longest prefix without ';' |
| SrcMime.IsValidMime | src/abimaelrc/Zip/Mime.php:50-72 | with checking off every file passes; with it on, an empty media type or an extension that is not a key fails, and otherwise the file passes exactly when the extension's rule accepts the media type; the same code, in the older copies, sits at Vendor/Zip/Mime.php:48-70 |
| SrcMime.StripRule | src/abimaelrc/Zip/Mime.php:200-214 | removing a value from a rule keeps the rule's kind and exactly the other media types; the key goes exactly when the rule accepts nothing else |
| SrcMime.StripValueKeys | src/abimaelrc/Zip/Mime.php:199-215 | one pass of `unsetMimeByValue` only ever removes keys |
| SrcMime.StripValueKeepsUnique | src/abimaelrc/Zip/Mime.php:199-215 | one pass never makes a key appear twice |
| SrcMime.LookupStripValue | src/abimaelrc/Zip/Mime.php:199-215 | after one pass, each key looks up as its old rule with the value removed |
| SrcMime.LookupStripValues | src/abimaelrc/Zip/Mime.php:196-217 | after `unsetMimeByValue`, a key that is left keeps its kind and exactly its media types outside the list |
| SrcMime.StripValuesDropsKey | src/abimaelrc/Zip/Mime.php:196-217 | for a non-empty list, a key is left exactly when its rule accepted some media type outside the list |
| SrcMime.Mime.constructor | src/abimaelrc/Zip/Mime.php:39-44 | the registry starts empty with checking off |
| SrcMime.Mime.SetMimeFile | src/abimaelrc/Zip/Mime.php:82-95 | an empty extension or rule throws `InvalidArgumentException` and changes nothing; otherwise only that key is set and checking is switched on; the same code, in the older copies, sits at Vendor/Zip/Mime.php:114-127 |
| SrcMime.Mime.SetMimeFiles | src/abimaelrc/Zip/Mime.php:104-115 | an empty array throws and changes nothing; otherwise the given bindings are merged over the registry and checking is switched on; the same code, in the older copies, sits at Vendor/Zip/Mime.php:136-147 |
| SrcMime.Mime.ValidateMime | src/abimaelrc/Zip/Mime.php:120-123 | the switch takes the given value and the registry is unchanged |
| SrcMime.Mime.GetMimeFiles | src/abimaelrc/Zip/Mime.php:133-148 | the nested view is the registry itself; the flat view is each media type once, in first-seen order; the same code, in the older copies, sits at Vendor/Zip/Mime.php:165-180 |
| SrcMime.Mime.AddUnseen | src/abimaelrc/Zip/Mime.php:138-142 | the `in_array`-guarded append extends the list of first-seen media types |
| SrcMime.Mime.UnsetMimeByKey | src/abimaelrc/Zip/Mime.php:182-189 | exactly the listed keys that are present are removed, and the switch is unchanged |
| SrcMime.Mime.DropValue | src/abimaelrc/Zip/Mime.php:201-205 | the inner loop leaves the list's entries that differ from the value, in order |
| SrcMime.Mime.StripPass | src/abimaelrc/Zip/Mime.php:199-215 | one pass of the middle loop over a snapshot of the registry equals the pass function |
| SrcMime.Mime.UnsetMimeByValue | src/abimaelrc/Zip/Mime.php:196-217 | the registry becomes the value-by-value strip of the old one, and the switch is unchanged |
| SrcMime.Mime.UnsetAllMime | src/abimaelrc/Zip/Mime.php:222-225 | the registry is emptied and the switch is unchanged; the same code, in the older copies, sits at Vendor/Zip/Mime.php:268-271 |
| SrcMime.AcceptedAfterSet | src/abimaelrc/Zip/Mime.php:50-72 | after a successful `setMimeFile` (checking on, the extension bound to the new rule), a file with that extension passes `isValidMime` exactly when its sniffed media type is non-empty and the new rule accepts it, whatever the old binding was; files with other extensions are judged as under the old registry |
| SrcMime.StrippedValueRejected | src/abimaelrc/Zip/Mime.php:196-217 | a removed media type is no longer accepted for any extension |
| SrcMime.RemovedKeyRejected | src/abimaelrc/Zip/Mime.php:182-189 | a removed extension has no rule left |
| KeySearch.PositionsOf | Vendor/Zip/Mime.php:81-104 | the positions recorded for a list are exactly those holding the value, in increasing order |
| KeySearch.KeepUnless | Vendor/Zip/Mime.php:218-238 | unsetting positions of a list keeps the other entries in order |
| KeySearch.KeepUnlessPositionsOf | Vendor/Zip/Mime.php:218-238 | unsetting the positions the search found for a value is removing that value from the list |
| KeySearch.UnsetOne | Vendor/Zip/Mime.php:218-238 | one key of the key tree unsets that key, or positions inside its list, and touches no other key |
| KeySearch.UnsetTreeKeepsUnique | Vendor/Zip/Mime.php:218-238 | the unset by key tree never adds a key |
| KeySearch.LookupUnsetTree | Vendor/Zip/Mime.php:218-238 | the rule left under a key depends only on the parts of the key tree about that key |
| KeySearch.HitsForFindKeys | Vendor/Zip/Mime.php:81-104 | the search reports, for a key, one entry when its string rule equals the value, one for any list, and none otherwise |
| KeySearch.UnsetFoundKeys | Vendor/Zip/Mime.php:258-263 | unsetting what the search found removes a string rule equal to the value, removes the value from every list and keeps a list that becomes empty |
| KeySearch.LookupUnsetNames | Vendor/Zip/Mime.php:218-238 | the unset by name removes a listed key, and inside a list only the positions whose decimal spelling is listed |
| KeySearch.UnsetNamesKeepsUnique | Vendor/Zip/Mime.php:218-238 | the unset by name never adds a key |
| KeySearch.ArrayKeysRecursive | Vendor/Zip/Mime.php:81-104 | the loop over the bindings returns the key tree the search function describes; the same code, in the older copies, sits at Vendor/Zip/Zip.php:81-104, Zip.php:146-169 |
| KeySearch.ListKeys | Vendor/Zip/Mime.php:94-96 | the recursive call on a list returns the positions holding the value |
| KeySearch.UnsetSpecific | Vendor/Zip/Mime.php:218-238 | the walk over the key tree gives the key-tree unset; the same code, in the older copies, sits at Vendor/Zip/Zip.php:115-125, Zip.php:180-200 |
| KeySearch.UnsetAnywhere | Vendor/Zip/Zip.php:126-134 | the walk over the array gives the unset by name; the `Mime` class's non-specific mode at Vendor/Zip/Mime.php:218-238 behaves the same way |
| VendorMime.UnsetMimeByKey | Vendor/Zip/Mime.php:248-251 | without `specific`, every listed key and every listed position inside a list is unset, and the switch is unchanged |
| VendorMime.UnsetMimeByKeyTree | Vendor/Zip/Mime.php:248-251 | with `specific`, the leaves of the key tree are unset |
| VendorMime.LookupUnsetValues | Vendor/Zip/Mime.php:258-263 | after `unsetMimeByValue`, a string rule is gone exactly when its media type is listed, and a list keeps its key and exactly its media types outside the list |
| VendorMime.ListKeysSurvive | Vendor/Zip/Mime.php:258-263 | unlike the current version, a key that holds a list is never removed, even when the list becomes empty |
| VendorMime.UnsetMimeByValue | Vendor/Zip/Mime.php:258-263 | the loop of search-then-unset gives the value-by-value unset |
| Naming.AddSuffixKeepsExtension | src/abimaelrc/Zip/Extract.php:232-241 | a suffix goes between the file name and the extension: the extension is kept and the file name gains exactly the suffix, which is the separator and a clock token when none is set; the same code, in the older copies, sits at Vendor/Zip/Extract.php:226-235 |
| Naming.AddSuffixWithoutExtension | src/abimaelrc/Zip/Extract.php:232-241 | a name without an extension gets the suffix and an empty extension after a '.' |
| ZipErrors.CurrentMessagesCoverLibzip | src/abimaelrc/Zip/Zip.php:35-59 | the table explains exactly the libzip codes 1 to 23 |
| ZipErrors.CurrentMessagesDistinct | src/abimaelrc/Zip/Zip.php:35-59 | different codes have different messages |
| ZipErrors.EarlyMessagesAgree | Vendor/Zip/Zip.php:27-37 | the older nine-entry table gives each of its codes the current table's message; the same code, in the older copies, sits at Zip.php:50-60 |
| ZipErrors.EarlyZipError | Vendor/Zip/Zip.php:63-70 | a known non-zero code returns its message; any other code throws `UnexpectedValueException` with the code in the message |
| SrcZip.NormaliseBasePath | src/abimaelrc/Zip/Zip.php:129 | the normalised base path never ends in '/', holds no '+', keeps every other character, and has no doubled '/' when the input had no '+' |
| SrcZip.CurrentZipError | src/abimaelrc/Zip/Zip.php:111-118 | `getZipError` never returns: a known non-zero code throws `RuntimeException` with its message, and anything else `UnexpectedValueException` |
| SrcZip.CurrentZipErrorInjective | src/abimaelrc/Zip/Zip.php:111-118 | two different libzip failure codes throw two different `RuntimeException`s |
| SrcZip.Zip.Init | src/abimaelrc/Zip/Zip.php:66-77 | a new object holds its base path and name and no open archive |
| SrcZip.Zip.New | src/abimaelrc/Zip/Zip.php:66-77 | an empty base path throws `InvalidArgumentException`; otherwise the normalised path is created when missing and stored, and a non-empty name is stored; the path handling is that of `setBasePath` at src/abimaelrc/Zip/Zip.php:124-138 |
| SrcZip.Zip.ArchivePath | src/abimaelrc/Zip/Zip.php:85-93 | the given name wins over the stored one, and the file opened is below the base path; there is none when both names are empty |
| SrcZip.Zip.Open | src/abimaelrc/Zip/Zip.php:85-103 | without a name it throws `RuntimeException`; a failure code throws what `getZipError` throws; success stores the archive |
| SrcZip.Zip.IterateDir | src/abimaelrc/Zip/Zip.php:201-221 | an empty path gives nothing; otherwise every path lies below the given one, none repeats, and each directory is listed before what it holds |
| SrcZip.Zip.RemoveFiles | src/abimaelrc/Zip/Zip.php:201-251 | a missing path gives false and changes nothing; a path that is a file makes `RecursiveDirectoryIterator` throw `UnexpectedValueException` and changes nothing; a directory is removed with everything below it, children before their directory, the result is true, and nothing else changes |
| DirTree.ListingParentsFirst | src/abimaelrc/Zip/Zip.php:207-210 | the self-first walk never lists a path after one that lies below it |
| DirTree.InListing | src/abimaelrc/Zip/Zip.php:207-210 | every walked path lies below the walked directory, under one of its entries |
| SrcZip.RemovalStep | src/abimaelrc/Zip/Zip.php:241-248 | walking the listing backwards, each entry is still there when its turn comes, is a file or an empty directory, and its removal leaves the volume without the entries from it on |
| SrcZip.RemovalDone | src/abimaelrc/Zip/Zip.php:241-250 | once every listed entry is gone the path is an empty directory, and removing it leaves exactly what lay neither at nor below it |
| DirTree.BelowIsLater | src/abimaelrc/Zip/Zip.php:241-248 | whatever lies below a walked path comes later in the walk, so the reversed walk meets it first |
| DirTree.ParentsFirstNoDuplicates | src/abimaelrc/Zip/Zip.php:207-218 | the walk lists no path twice |
| Disk.AfterCopy | src/abimaelrc/Zip/Extract.php:401 | `copy` gives the target the source's content when it may, and otherwise changes nothing |
| Disk.AfterMkdir | src/abimaelrc/Zip/Zip.php:131-133 | `mkdir` creates a missing directory and leaves an existing path alone |
| Disk.AfterUnlink | src/abimaelrc/Zip/Zip.php:246 | `unlink` removes a file and nothing else |
| Disk.AfterRmdir | src/abimaelrc/Zip/Zip.php:244 | `rmdir` removes an empty directory and nothing else |
| Disk.FileSystem.Copy | src/abimaelrc/Zip/Extract.php:401 | the call reports success exactly when the copy may happen, and the volume changes as `copy` does |
| Disk.FileSystem.Mkdir | src/abimaelrc/Zip/Extract.php:408 | the call reports success exactly when the path was missing |
| Disk.FileSystem.Unlink | src/abimaelrc/Zip/Zip.php:246 | the call reports success exactly when the path is a file |
| Disk.FileSystem.Rmdir | src/abimaelrc/Zip/Zip.php:244 | the call reports success exactly when the path is an empty directory |
| Archive.LocateName | src/abimaelrc/Zip/Extract.php:501 | `locateName` finds the first entry with that name, and nothing exactly when no entry has it |
| Archive.LeadingRun | src/abimaelrc/Zip/Extract.php:435 | the names `extractTo` gets through are the leading ones the archive holds |
| Archive.LeadingRunAll | src/abimaelrc/Zip/Extract.php:435 | names all held by the archive are all extracted |
| Archive.Extracted | src/abimaelrc/Zip/Extract.php:435 | `extractTo` with names removes nothing, and each extracted name exists below the directory |
| Archive.ExtractedAll | src/abimaelrc/Zip/Extract.php:535 | `extractTo` without names removes nothing, and every entry exists below the directory |
| Archive.ExtractTo | src/abimaelrc/Zip/Extract.php:435 | the call leaves the volume the extraction function describes |
| SrcExtract.ByExtension | src/abimaelrc/Zip/Extract.php:445-463 | exactly the entries whose extension is a registry key are added, in archive order; entries without an extension never are |
| SrcExtract.EmptyRegistrySelectsNothing | src/abimaelrc/Zip/Extract.php:455-457 | an empty registry selects nothing |
| SrcExtract.SelectByExtension | src/abimaelrc/Zip/Extract.php:447-461 | the loop over the archive indices gives the selection function |
| SrcExtract.Specifics | src/abimaelrc/Zip/Extract.php:471-490 | an entry is selected, in archive order, exactly when its full name is listed, or `greedy` is on and its base name is listed |
| SrcExtract.GreedyWidens | src/abimaelrc/Zip/Extract.php:482-485 | switching `greedy` on only adds entries |
| SrcExtract.SelectSpecifics | src/abimaelrc/Zip/Extract.php:474-487 | the loop over the archive indices gives the selection function |
| SrcExtract.DirPrefix | src/abimaelrc/Zip/Extract.php:500 | a listed directory becomes empty or a relative name ending in '/', with no '+' and its other characters kept |
| SrcExtract.DirPrefixOfDocs | src/abimaelrc/Zip/Extract.php:500 | the listed directory "docs" is looked for as "docs/" |
| SrcExtract.RunFrom | src/abimaelrc/Zip/Extract.php:502-508 | the scan from an index stays within the archive and stops at the first entry that does not begin with the prefix |
| SrcExtract.RunFromSlice | src/abimaelrc/Zip/Extract.php:502-508 | what the scan collects is the stretch of consecutive entries from its starting index |
| SrcExtract.RunFromMembers | src/abimaelrc/Zip/Extract.php:502-507 | every collected entry is an archive entry that begins with the prefix |
| SrcExtract.RunFromStep | src/abimaelrc/Zip/Extract.php:502-508 | one more entry that begins with the prefix moves the scan one index on |
| SrcExtract.DirRunAsWrittenHangs | src/abimaelrc/Zip/Extract.php:499-509 | a listed directory that is not an entry of its own, in an archive whose first entry lies below it, never ends the scan: entry 0 is appended on every turn, so PHP stops only when `$files` exhausts `memory_limit` with a fatal error |
| SrcExtract.DirRun | src/abimaelrc/Zip/Extract.php:499-509 | the scan for one prefix collects nothing for a prefix that is not an entry, and otherwise starts with the prefix's own entry |
| SrcExtract.DirRunMembers | src/abimaelrc/Zip/Extract.php:499-509 | every entry of that run is an archive entry that begins with the prefix |
| SrcExtract.DirRunContiguous | src/abimaelrc/Zip/Extract.php:501-508 | for a prefix that is an entry, that run is the scan from `locateName`'s index: a stretch of consecutive entries starting there |
| SrcExtract.RunsSnoc | src/abimaelrc/Zip/Extract.php:498-510 | one more listed directory adds its run at the end of what was collected |
| SrcExtract.DirRunAgrees | src/abimaelrc/Zip/Extract.php:499-509 | wherever the scan as written ends, it collects what the corrected scan does, and it fails to end exactly in the case above |
| SrcExtract.DirStructureSound | src/abimaelrc/Zip/Extract.php:496-513 | every collected entry begins with one of the normalised prefixes |
| SrcExtract.DirStructureComplete | src/abimaelrc/Zip/Extract.php:496-513 | every normalised prefix that is an entry has that entry collected |
| SrcExtract.CollectRun | src/abimaelrc/Zip/Extract.php:502-508 | the inner loop gives the run function |
| SrcExtract.SelectDirStructure | src/abimaelrc/Zip/Extract.php:498-510 | the outer loop gives the collection function |
| SrcExtract.Extract.Init | src/abimaelrc/Zip/Extract.php:38-83 | a new object has no files to extract, `greedy`, `sameStructure` and `sameName` on, no suffix, the '_' separator and `overwrite` off |
| SrcExtract.Extract.New | src/abimaelrc/Zip/Extract.php:92-103 | an empty base path throws; otherwise the `Zip` part is built and the temporary directory and then the destination are created when missing and stored; the directories are made by `setDestinationDir` and `setTmpDestinationDir` at src/abimaelrc/Zip/Extract.php:147-183 |
| SrcExtract.Extract.SetFileToExtract | src/abimaelrc/Zip/Extract.php:111-116 | one name is appended and the other settings are kept |
| SrcExtract.Extract.SetFilesToExtract | src/abimaelrc/Zip/Extract.php:124-129 | the list is replaced and the other settings are kept |
| SrcExtract.Extract.SetSuffix | src/abimaelrc/Zip/Extract.php:250-260 | the stored suffix is the given separator, or the current one when none is given, followed by the suffix, and `sameName` is switched off |
| SrcExtract.Extract.MoveValidFiles | src/abimaelrc/Zip/Extract.php:351-422 | no staging directory, then no destination, throws `InvalidArgumentException` and changes nothing; otherwise every listed file is moved as the move function describes and the reported paths are returned |
| SrcExtract.Extract.MoveFile | src/abimaelrc/Zip/Extract.php:366-418 | one turn of the loop gives the one-file move function |
| SrcExtract.Extract.PlaceFile | src/abimaelrc/Zip/Extract.php:392-416 | the copy-or-create decision gives the placement function |
| SrcExtract.Extract.ExtractFiles | src/abimaelrc/Zip/Extract.php:427-438 | no staging directory throws; otherwise the files are extracted there and the same list is moved. Before `open` the archive is `null`, so after the staging check `extractTo` throws `Error` with nothing changed |
| SrcExtract.Extract.ExtractByExtension | src/abimaelrc/Zip/Extract.php:445-464 | the selected entries are appended to the files to extract, and that whole list is extracted and moved. Before `open` the archive is `null`: the `numFiles` loop sees no entry, and `extractTo` throws `Error` with nothing changed |
| SrcExtract.Extract.ExtractSpecificsFiles | src/abimaelrc/Zip/Extract.php:471-491 | the entries selected by name are extracted and moved. Before `open` the archive is `null`: the `numFiles` loop sees no entry, and `extractTo` throws `Error` with nothing changed |
| SrcExtract.Extract.ExtractSpecificDirStructure | src/abimaelrc/Zip/Extract.php:496-514 | the entries collected by directory are extracted and moved. Before `open`, a non-empty list makes `locateName` throw `Error` with nothing changed, and an empty one reaches `extractTo`, which throws |
| SrcExtract.Extract.ExtractAllFiles | src/abimaelrc/Zip/Extract.php:522-538 | no destination throws and changes nothing; before `open`, `extractTo` then throws `Error` and changes nothing; otherwise the whole archive is extracted there and every entry name is returned in index order |
| Relocation.TargetsUnderDest | src/abimaelrc/Zip/Extract.php:373-386 | every target directory and target path lies below the destination |
| Relocation.PlaceOnlyTarget | src/abimaelrc/Zip/Extract.php:392-416 | placing a file changes no path but its target |
| Relocation.MoveOneOutsideDest | src/abimaelrc/Zip/Extract.php:366-418 | one turn leaves every path outside the destination as it was |
| Relocation.MoveAllOutsideDest | src/abimaelrc/Zip/Extract.php:365-419 | the whole move leaves every path outside the destination as it was |
| Relocation.AdmittedStable | src/abimaelrc/Zip/Extract.php:365-419 | when neither directory lies inside the other, whether a file passes does not change along the loop |
| Relocation.MoveAllReportsPlanned | src/abimaelrc/Zip/Extract.php:351-422 | the reported paths are the targets of files that exist in staging and pass, in list order: a subsequence of the plan made before the loop |
| Relocation.MoveOneChanges | src/abimaelrc/Zip/Extract.php:366-418 | one turn removes nothing, replaces only a writable file and only with `overwrite` on, and leaves what it reports in place |
| Relocation.PlaceChanges | src/abimaelrc/Zip/Extract.php:392-416 | placing removes nothing, replaces only a writable file, and leaves what it reports in place |
| Relocation.MoveAllChanges | src/abimaelrc/Zip/Extract.php:351-422 | the whole move removes nothing, replaces only writable files and only with `overwrite` on, and every reported path exists at the end |
| Relocation.NoOverwriteKeepsExisting | src/abimaelrc/Zip/Extract.php:392-403 | with `overwrite` off, no node that existed before is changed |
| Relocation.MoveOneConflicts | src/abimaelrc/Zip/Extract.php:392-416 | for a target that already exists, a file is copied and reported only with `overwrite` on and a writable target, and a directory is reported exactly when `overwrite` is on |
| VendorZip.OpenError | Vendor/Zip/Zip.php:63-70 | a failed `open` throws `RuntimeException` with the message of a known code, and `UnexpectedValueException` for any other; the same code, in the older copies, sits at Zip.php:128-135 |
| VendorZip.OpenErrorAgainstCurrent | Vendor/Zip/Zip.php:63-70 | on a libzip failure code the older class throws what the current one throws exactly when the code is one of the nine it knows |
| VendorZip.AnyListed | Vendor/Zip/Zip.php:198 | the array `array_map` returns is non-empty exactly when `glob` lists some entry |
| VendorZip.SweepInside | Vendor/Zip/Zip.php:189-199 | `rrmdir` removes nothing that is not the path or below it, and changes nothing it keeps |
| VendorZip.SweepAllInside | Vendor/Zip/Zip.php:198 | the `array_map` over the listed entries removes only what lies below the directory |
| VendorZip.SweepRemoves | Vendor/Zip/Zip.php:189-199 | on an existing path whose tree has no hidden names, `rrmdir` removes exactly that path and everything below it |
| VendorZip.SweepAllRemoves | Vendor/Zip/Zip.php:198 | the `array_map` removes exactly what lies below the directory |
| VendorZip.EmptyDirReportsFalse | Vendor/Zip/Zip.php:198 | an empty directory is removed, yet `rrmdir` reports false, because an empty array does not equal `true` |
| VendorZip.MissingPathSweepsRoot | Vendor/Zip/Zip.php:189-199 | asked to remove a missing path, `rrmdir` as written removes what lies at the root of the file system |
| VendorZip.Zip.Init | Vendor/Zip/Zip.php:44-55 | a new object holds its base path and name and no open archive |
| VendorZip.Zip.New | Vendor/Zip/Zip.php:44-55 | an empty base path throws `InvalidArgumentException`; otherwise the path is created when missing and kept as given, and a non-empty name is stored below it; the path handling is that of `setBasePath` at Vendor/Zip/Zip.php:142-149 |
| VendorZip.Zip.OpenPath | Vendor/Zip/Zip.php:208-213 | the given name wins over the stored one and is not prefixed; there is none when both are empty |
| VendorZip.Zip.Open | Vendor/Zip/Zip.php:206-222 | without a name it throws `RuntimeException`; a failure code throws what `getZipError` gives; success stores the archive |
| VendorZip.Zip.Rrmdir | Vendor/Zip/Zip.php:189-199 | a missing path gives false and changes nothing; an existing one is removed depth first, every child before the directory holding it; the same code, in the older copies, sits at Zip.php:453-460 |
| VendorZip.Zip.RemoveTree | Vendor/Zip/Zip.php:196-198 | the recursion gives the sweep function and its reported result |
| VendorExtract.GreedyPicks | Vendor/Zip/Extract.php:429-452 | the selection keeps archive order |
| VendorExtract.PickedByBaseName | Vendor/Zip/Extract.php:434-445 | the loop's test is: `greedy` on, a non-empty extension, and the base name listed |
| VendorExtract.GreedyPicksMembers | Vendor/Zip/Extract.php:429-452 | an entry is selected exactly when `greedy` is on, its extension is not empty and its base name is listed; a listed full path selects nothing by itself |
| VendorExtract.NothingWithoutGreedy | Vendor/Zip/Extract.php:443 | with `greedy` off nothing is selected, because the full-path test compares a stat array with strings |
| VendorExtract.GreedyPicksWithinCurrent | Vendor/Zip/Extract.php:429-452 | the older selection is part of the current one, in the same order |
| VendorExtract.SelectGreedy | Vendor/Zip/Extract.php:431-449 | the loop over the archive indices gives the selection function |
| VendorExtract.Extract.Init | Vendor/Zip/Extract.php:37-63 | a new object has no files to extract, `greedy`, `sameStructure` and `sameName` on, no suffix and the '_' separator |
| VendorExtract.Extract.New | Vendor/Zip/Extract.php:86-97 | an empty base path throws; otherwise the base path is created when missing, and then a given staging or destination directory that does not exist makes the setter call the undefined `getMode()` (Vendor/Zip/Extract.php:141-149, 168-176), which throws `Error`; the object is returned exactly when every given directory exists, and no directory beyond the base path is ever created |
| VendorExtract.Extract.SetFileToExtract | Vendor/Zip/Extract.php:105-110 | one name is appended and the other settings are kept |
| VendorExtract.Extract.SetFilesToExtract | Vendor/Zip/Extract.php:118-123 | the list is replaced and the other settings are kept |
| VendorExtract.Extract.SetSuffix | Vendor/Zip/Extract.php:244-254 | the stored suffix is the separator followed by the suffix, and `sameName` is switched off |
| VendorExtract.Extract.MoveValidFiles | Vendor/Zip/Extract.php:332-378 | no destination, then no staging directory, throws `InvalidArgumentException`; otherwise the result is empty, because the acceptance test indexes a boolean and never passes |
| VendorExtract.Extract.ExtractFiles | Vendor/Zip/Extract.php:383-394 | no staging directory throws; otherwise the files are extracted there and the move reports nothing. Before `open` the archive is `null`, so after the staging check `extractTo` throws `Error` with nothing changed |
| VendorExtract.Extract.ExtractByExtension | Vendor/Zip/Extract.php:402-421 | the entries whose extension is a key are appended to the files to extract, and that whole list is extracted. Before `open` the archive is `null`: the `numFiles` loop sees no entry, and `extractTo` throws `Error` with nothing changed |
| VendorExtract.Extract.ExtractSpecificsFiles | Vendor/Zip/Extract.php:429-452 | the entries picked by base name are extracted. Before `open` the archive is `null`: the `numFiles` loop sees no entry, and `extractTo` throws `Error` with nothing changed |
| VendorExtract.Extract.ExtractAllFiles | Vendor/Zip/Extract.php:460-476 | no destination throws and changes nothing; before `open`, `extractTo` then throws `Error` and changes nothing; otherwise the whole archive is extracted there and every entry name is returned in index order |
| VendorExtract.ExtractionMovesNothing | Vendor/Zip/Extract.php:346-375 | whatever is asked for, an extraction returns no moved file and changes nothing beyond what `extractTo` writes into staging, and nothing at all before `open` |
| LegacyZip.DefaultKeysUnique | Zip.php:65-77 | the default registry has eight distinct extensions |
| LegacyZip.DefaultLeaves | Zip.php:65-77 | the flat view of the default registry lists nine media types, with repeats |
| LegacyZip.LeavesAccept | Zip.php:369-382 | a media type is in the flat view exactly when some binding accepts it |
| LegacyZip.IsValidMime | Zip.php:536-547 | a directory is recognised by its media type; a file passes when the registry is empty or any binding holds its media type, whatever its extension |
| LegacyZip.CurrentAcceptanceImpliesLegacy | Zip.php:536-547 | whatever the current version accepts with checking on, the original accepts too |
| LegacyZip.ExtensionIgnored | Zip.php:536-547 | with the default registry, a PNG image whose name ends in ".txt" passes the original's test but not the current one |
| LegacyZip.CurrentRejectsPngAsTxt | Zip.php:65-77 | with the default registry, the current test rejects a PNG image whose extension is "txt" |
| LegacyZip.DefaultTxt | Zip.php:65-77 | the default registry binds "txt" to its two text media types |
| LegacyZip.ListPairsSnoc | Zip.php:570-594 | every pair a list move can report, one file after another |
| LegacyZip.ListStepMoved | Zip.php:570-594 | one file of the list reports nothing, or its own pair when it passed |
| LegacyZip.ListMoveReports | Zip.php:570-594 | a list move reports some of the listed files, in list order, each with its staged path and its target below the destination's copy of its directory, and only files that passed |
| LegacyZip.ListMoveOverwrites | Zip.php:584-588 | a list move replaces a writable file already at the target, because there is no existence check |
| LegacyZip.WalkTargetFlat | Zip.php:603-606 | a walk target is a single name straight below the destination when the stamp holds no '/' |
| LegacyZip.WalkStepMoved | Zip.php:595-615 | one walked path reports nothing, or its own pair when it passed |
| LegacyZip.WalkMoveReports | Zip.php:595-615 | a walk reports some of the walked paths, in walk order, only ones that passed, and every target sits straight below the destination |
| LegacyZip.ByExtension | Zip.php:635-649 | exactly the entries with an extension that is a key, or with any extension when the registry is empty, are added in archive order |
| LegacyZip.ByExtensionAgainstCurrent | Zip.php:635-649 | with some extension registered the original selects what the current version selects; with none it selects every entry with an extension, and the current version selects nothing |
| LegacyZip.SelectByExtension | Zip.php:635-649 | the loop over the archive indices gives the selection function |
| LegacyZip.Zip.Init | Zip.php:40-77 | a new object starts with the default registry, no files to extract, and `greedy` and `sameStructure` on |
| LegacyZip.Zip.New | Zip.php:101-120 | an empty base path throws; otherwise the base path is created when missing, the name is stored below it, and the temporary directory and then the destination are created when missing; the directories are made by `setBasePath`, `setDestinationDir` and `setTmpDestinationDir` at Zip.php:207-302 |
| LegacyZip.Zip.Open | Zip.php:486-496 | with no stored name, `open('')` returns `false` and `getZipError(false)` throws `UnexpectedValueException` whose message ends in ": " with no code (Zip.php:128-135), and nothing changes; otherwise the stored name is opened, and a failure code throws what the nine-entry table gives |
| LegacyZip.Zip.SetFilesToExtract | Zip.php:251-254 | one name is appended and the rest is kept |
| LegacyZip.Zip.SetMimeFiles | Zip.php:356-359 | the key gets the rule without any check, and every other key keeps its rule |
| LegacyZip.Zip.GetMimeFiles | Zip.php:369-382 | the nested view is the registry; the flat view is the media types in the order `array_walk_recursive` visits them, repeats kept; it holds exactly the accepted media types, and for the default registry nine with a repeat |
| LegacyZip.Zip.UnsetMimeByValue | Zip.php:430-435 | the registry becomes the older version's value-by-value unset, so a list that becomes empty keeps its key |
| LegacyZip.Zip.UnsetEach | Zip.php:430-435 | the loop over the values gives the value-by-value unset and keeps keys unique |
| LegacyZip.Zip.UnsetAllMime | Zip.php:440-443 | the registry is emptied and the rest is kept |
| LegacyZip.Zip.MoveValidMime | Zip.php:555-619 | no destination, then no staging directory, throws; a non-empty list is moved file by file and an empty one walks the staging directory |
| LegacyZip.Zip.MoveListed | Zip.php:570-594 | the loop over the list gives the list move |
| LegacyZip.Zip.MoveWalked | Zip.php:595-615 | the loop over the walk gives the walk move |
| LegacyZip.Zip.ExtractByExtension | Zip.php:627-654 | no staging directory throws; otherwise the selected entries are appended, the whole list is extracted into staging, and the staging directory is walked and moved. Before `open` nothing is selected and `extractTo` throws `Error` with the volume unchanged |
| LegacyZip.Zip.ExtractSpecificsFiles | Zip.php:662-714 | no destination throws; with `sameStructure` the picked entries are staged and moved as a list, and otherwise they are extracted straight into the destination, where nothing is unlinked. Before `open` nothing is picked and `extractTo` throws `Error` after the directory checks, with the volume unchanged |
| LegacyZip.Zip.ExtractAllFiles | Zip.php:722-733 | no destination throws; before `open`, `extractTo` then throws `Error` and changes nothing; otherwise the whole archive is extracted there and the walk of the destination is returned |
| LegacyZip.MovingReports | Zip.php:555-619 | a throw leaves the volume alone, and every reported pair passed the acceptance test |
| LegacyZip.NothingPickedWalksTmp | Zip.php:688-697 | when nothing is picked and the structure is kept, the move gets an empty list and walks the whole staging directory |

## Left out

- `ZipArchive` is not modelled: the archive is its entry names, and `extractTo` writes one node per extracted name. Extraction stops at the first name the archive does not hold. The ZIP format, entry data and `statIndex` records are not modelled.
- Content sniffing (`finfo`, `setMagicMime`, `getMagicMime`) is a function parameter from path to reported type.
- `realpath` is not applied. A path is its own canonical name, so "a/./b" and "a/b" are different paths. `realpath`'s `false` is modelled only in `VendorZip.Resolved`, which belongs to the rrmdir finding.
- `mkdir`, recursive or not, succeeds exactly on a missing path and creates only the named directory, not missing parents. File modes are not modelled.
- `copy` can fail only by the rule in `Disk.CanCopy`. Disk full, permissions beyond the writable set, and races are not modelled.
- `microtime(true)` is an opaque token from a clock parameter, one token per turn of a loop.
- The walk that `RecursiveDirectoryIterator` performs is a tree parameter. The model does not re-read the disk while walking.
- PHP 7 is assumed. Under PHP 8, `VendorMime.UnsetMimeByKey`, `VendorMime.UnsetMimeByKeyTree` and `VendorMime.UnsetMimeByValue` throw `Error` instead: the static `unsetMimeByKey` and `unsetMimeByValue` call the non-static `recursiveUnset` through `self::` (Vendor/Zip/Mime.php:250, :261). PHP 7 only reports a deprecation and runs the call.
- PHP's loose `==` and `in_array` comparisons are modelled as string equality. A list position matches a listed key only by its decimal spelling. PHP 7's rule, under which position 0 equals any non-numeric string, is not modelled.
- DIRECTORY_SEPARATOR is '/'. Backslashes are ordinary characters.
- `unsetMimeByKey` of Zip.php:419-423 dumps its argument and ends the process. The removal it was meant to do is `KeySearch.UnsetSpecific` and `KeySearch.UnsetAnywhere`.
- The `var_dump` at src/abimaelrc/Zip/Extract.php:511 is output only and is not modelled.
- Every `__destruct` (removing the archive file and the staging directory) is not modelled. The older one calls a `removeFiles` that its `Zip` class does not define.
- `__call` forwarding at src/abimaelrc/Zip/Zip.php:256-268 is not modelled.
- `listFiles`, `removeZipFile`, `removeTmpDir`, `setMode` and the plain getters are not modelled. The setters `greedy`, `sameStructure`, `sameName`, `overwrite`, `setSeparator`, `setGreedy` and `setSameStructure` are modelled as fields the operations read.
- `iterateDir` without `$toArray` returns an iterator. Only the array form is modelled.
- Archive creation (src/abimaelrc/Zip/Create.php, Vendor/Zip/Create.php) and the example script index.php are not part of this model.
- KeySearch.UnsetOne: in specific mode, a key tree that names positions under a key the registry lacks, or under a key bound to a single media type, leaves the registry alone. PHP passes `$values[$key]` by reference to an `array` parameter there, which creates a null entry and throws `TypeError`. The docblock demands that the key tree have the registry's own structure, and the trees `unsetMimeByValue` builds always have it (`KeySearch.HitsForFindKeys`).
- KeySearch.LookupUnsetNames: a list is renumbered after positions are removed from it, where PHP leaves holes in its integer keys. A later unset by position name can therefore hit a different element than PHP would. The same holds for `KeySearch.UnsetOne`; `unsetMimeByValue` is not affected, because it searches the list it then changes.
- KeySearch.HitsForFindKeys: `array_merge` renumbers integer keys, so an extension made only of digits (such as "123") is named by position in the key tree PHP builds. The model keeps every extension as written.
- SrcZip.Zip.RemoveFiles: the message of the iterator's `UnexpectedValueException` follows PHP 7's wording; PHP 8 words it differently.
- SrcExtract.DirRun: a listed directory that is not an entry of its own is skipped; as written, the scan does not end, and `SrcExtract.DirRunAsWrittenHangs` records that case.
- VendorZip.Zip.Rrmdir: a missing path gives false and changes nothing; as written it resolves to the root, and `VendorZip.MissingPathSweepsRoot` records that case.
- LegacyZip.Zip.ExtractSpecificsFiles: without `sameStructure`, the names are returned and nothing is unlinked, because `isValidMime` returns an array that never equals `false`.

## Findings

| source | as written | input that shows it | evidently intended | confidence | as-written member | corrected member |
|---|---|---|---|---|---|---|
| Vendor/Zip/Zip.php:189-199 (the same code is at Zip.php:453-460) | `realpath` of a missing path is `false`, which prints as "", so `glob` lists the entries of "/" and they are removed | `rrmdir("missing")` on a volume that holds "/etc" | a missing path is left alone and `false` is returned | not executed | VendorZip.MissingPathSweepsRoot | VendorZip.Zip.Rrmdir |
| src/abimaelrc/Zip/Extract.php:499-509 | when the prefix is not an entry, `locateName` gives `false`, `false++` stays `false`, and entry 0 is read on every turn | listed directory "docs" with the archive ["docs/a.txt"]: the loop appends "docs/a.txt" on every turn until PHP dies on `memory_limit` | a prefix that is not an entry is skipped | not executed | SrcExtract.DirRunAsWrittenHangs | SrcExtract.DirRun |

=== FILE: archive.dfy ===
/**
 * What the library sees of `ZipArchive`: the entry names in index order, `locateName`,
 * the outcome of `open`, and what `extractTo` leaves on disk.
 */
module Archive {
  import opened Php
  import opened Disk

  /** The result of `ZipArchive::open`: `true` with the archive's entry names, or a libzip error code. */
  datatype OpenResult = Opened(entries: seq<string>) | OpenFailed(code: int)

  /** `ZipArchive::locateName`: the index of the first entry with that name, `false` when there is none. */
  function LocateName(entries: seq<string>, name: string): (r: Option<nat>)
    ensures r.None? <==> name !in entries
    ensures r.Some? ==> r.value < |entries| && entries[r.value] == name && name !in entries[..r.value]
  {
    if entries == [] then None
    else if entries[0] == name then Some(0)
    else
      match LocateName(entries[1..], name)
      case None => None
      case Some(i) =>
        assert entries[..i + 1] == [entries[0]] + entries[1..][..i];
        Some(i + 1)
  }

  /**
   * The entries the `numFiles` loops see: those of the opened archive, and none before
   * `open`, because `numFiles` read on `null` is `null` and `0 < null` is false.
   */
  function EntriesOf(archive: Option<seq<string>>): seq<string>
  {
    if archive.Some? then archive.value else []
  }

  /** The message of the `Error` PHP throws for a method called on `null`, the archive before `open`. */
  function NullCall(name: string): string
  {
    "Call to a member function " + name + "() on null"
  }

  /** A directory entry of an archive ends in '/'. */
  predicate IsDirEntry(name: string)
  {
    |name| > 0 && name[|name| - 1] == '/'
  }

  /** The node an entry becomes once extracted: a directory, or a file holding that entry's data. */
  function EntryNode(name: string): Node
  {
    if IsDirEntry(name) then Dir else File(name)
  }

  /** How many names, from the front of the list, the archive holds. */
  function LeadingRun(entries: seq<string>, names: seq<string>): (n: nat)
    ensures n <= |names|
    ensures forall i :: 0 <= i < n ==> names[i] in entries
    ensures n < |names| ==> names[n] !in entries
  {
    if names == [] || names[0] !in entries then 0 else 1 + LeadingRun(entries, names[1..])
  }

  /**
   * `extractTo($dir, $names)`: the named entries are written below dir, in list order;
   * the call stops at the first name the archive does not hold.
   */
  function Extracted(v: Volume, dir: string, entries: seq<string>, names: seq<string>): (w: Volume)
    ensures forall p :: p in v.nodes ==> p in w.nodes
    ensures forall i :: 0 <= i < LeadingRun(entries, names) ==> Exists(w, dir + "/" + names[i])
    decreases |names|
  {
    if names == [] || names[0] !in entries then v
    else
      var p := dir + "/" + names[0];
      Extracted(Volume(v.nodes[p := EntryNode(names[0])], v.writable + {p}), dir, entries, names[1..])
  }

  /** Names the archive all holds are all extracted. */
  lemma {:induction false} LeadingRunAll(entries: seq<string>, names: seq<string>)
    requires forall i :: 0 <= i < |names| ==> names[i] in entries
    ensures LeadingRun(entries, names) == |names|
    decreases |names|
  {
    if names != [] {
      LeadingRunAll(entries, names[1..]);
    }
  }

  /** `extractTo($dir)` with no names: every entry. */
  function ExtractedAll(v: Volume, dir: string, entries: seq<string>): (w: Volume)
    ensures forall p :: p in v.nodes ==> p in w.nodes
    ensures forall i :: 0 <= i < |entries| ==> Exists(w, dir + "/" + entries[i])
  {
    LeadingRunAll(entries, entries);
    Extracted(v, dir, entries, entries)
  }

  /** `ZipArchive::extractTo`, run against the file system. */
  method ExtractTo(fs: FileSystem, dir: string, entries: seq<string>, names: seq<string>)
    modifies fs
    ensures fs.vol == Extracted(old(fs.vol), dir, entries, names)
  {
    var i := 0;
    while i < |names| && names[i] in entries
      invariant i <= |names|
      invariant forall j :: 0 <= j < i ==> names[j] in entries
      invariant Extracted(fs.vol, dir, entries, names[i..]) == Extracted(old(fs.vol), dir, entries, names)
    {
      var p := dir + "/" + names[i];
      assert names[i..][1..] == names[i + 1..];
      fs.vol := Volume(fs.vol.nodes[p := EntryNode(names[i])], fs.vol.writable + {p});
      i := i + 1;
    }
  }
}

=== FILE: dir_tree.dfy ===
/**
 * A directory as `RecursiveDirectoryIterator` walks it (dots skipped), and the order in
 * which `RecursiveIteratorIterator::SELF_FIRST` lists the paths below it: each directory
 * comes before everything it holds.
 */
module DirTree {
  import opened Php
  import opened Disk

  /** One name in a directory; a sub-directory carries what it holds. */
  datatype Entry = Entry(name: string, kids: seq<Entry>)

  /** `$dir . DIRECTORY_SEPARATOR . $name` */
  function Child(dir: string, name: string): string
  {
    dir + "/" + name
  }

  /** The paths below dir, each directory listed just before its own contents. */
  function Listing(dir: string, es: seq<Entry>): seq<string>
    decreases es
  {
    if es == [] then []
    else
      var p := Child(dir, es[0].name);
      [p] + Listing(p, es[0].kids) + Listing(dir, es[1..])
  }

  /** What a real directory guarantees: non-empty names without '/', no name twice in one directory. */
  predicate WellNamed(es: seq<Entry>)
    decreases es
  {
    && (forall k :: 0 <= k < |es| ==> es[k].name != "" && '/' !in es[k].name)
    && (forall a, b :: 0 <= a < b < |es| ==> es[a].name != es[b].name)
    && (forall k :: 0 <= k < |es| ==> WellNamed(es[k].kids))
  }

  /** No path of the list lies at or below a path listed after it. */
  predicate ParentsFirst(l: seq<string>)
  {
    forall i, j :: 0 <= i < j < |l| ==> !AtOrUnder(l[i], l[j])
  }

  lemma AtOrUnderChar(x: string, p: string)
    ensures AtOrUnder(x, p) <==> StartsWith(x, p) && (|x| == |p| || x[|p|] == '/')
  {
    if StartsWith(x, p) && |x| > |p| && x[|p|] == '/' {
      assert x[..|p| + 1] == x[..|p|] + [x[|p|]];
    }
    if StartsWith(x, p + "/") {
      assert x[..|p|] == (p + "/")[..|p|];
    }
  }

  lemma AtOrUnderTrans(x: string, y: string, z: string)
    requires AtOrUnder(x, y) && AtOrUnder(y, z)
    ensures AtOrUnder(x, z)
  {
    if x != y && y != z {
      assert x[..|z| + 1] == y[..|z| + 1];
    }
  }

  lemma ChildUnder(p: string, n: string)
    ensures AtOrUnder(Child(p, n), p) && |Child(p, n)| > |p|
  {
    assert Child(p, n)[..|p| + 1] == p + "/";
  }

  /** A path lies below at most one of the entries of a directory. */
  lemma SegmentsAgree(x: string, d: string, n: string, n': string)
    requires '/' !in n && '/' !in n'
    requires AtOrUnder(x, Child(d, n)) && AtOrUnder(x, Child(d, n'))
    ensures n == n'
  {
    var o := |d| + 1;
    AtOrUnderChar(x, Child(d, n));
    AtOrUnderChar(x, Child(d, n'));
    if |n| == |n'| {
      assert Child(d, n) == x[..o + |n|] == Child(d, n');
      assert n == Child(d, n)[o..];
    }
  }

  /** Every listed path lies at or below one of the directory's own entries. */
  lemma {:induction false} InListing(dir: string, es: seq<Entry>, x: string)
    requires x in Listing(dir, es)
    ensures exists k :: 0 <= k < |es| && AtOrUnder(x, Child(dir, es[k].name))
    ensures AtOrUnder(x, dir) && |x| > |dir|
    decreases es
  {
    var p := Child(dir, es[0].name);
    ChildUnder(dir, es[0].name);
    if x == p {
    } else if x in Listing(p, es[0].kids) {
      InListing(p, es[0].kids, x);
      AtOrUnderTrans(x, p, dir);
    } else {
      InListing(dir, es[1..], x);
      var k :| 0 <= k < |es[1..]| && AtOrUnder(x, Child(dir, es[1..][k].name));
      assert es[1..][k] == es[k + 1];
    }
  }

  lemma ParentsFirstConcat(a: seq<string>, b: seq<string>)
    requires ParentsFirst(a) && ParentsFirst(b)
    requires forall x, y :: x in a && y in b ==> !AtOrUnder(x, y)
    ensures ParentsFirst(a + b)
  {
    var l := a + b;
    forall i, j | 0 <= i < j < |l|
      ensures !AtOrUnder(l[i], l[j])
    {
      if j < |a| {
        assert l[i] == a[i] && l[j] == a[j];
      } else if i < |a| {
        assert l[i] in a && l[j] in b;
      } else {
        assert l[i] == b[i - |a|] && l[j] == b[j - |a|];
      }
    }
  }

  /**
   * The SELF_FIRST listing of a well-named directory never lists a path after one
   * that lies below it; in particular no path is listed twice.
   */
  lemma {:induction false} ListingParentsFirst(dir: string, es: seq<Entry>)
    requires WellNamed(es)
    ensures ParentsFirst(Listing(dir, es))
    decreases es
  {
    if es != [] {
      var n := es[0].name;
      var p := Child(dir, n);
      var inner := Listing(p, es[0].kids);
      var rest := Listing(dir, es[1..]);
      assert WellNamed(es[0].kids);
      assert WellNamed(es[1..]) by {
        forall a, b | 0 <= a < b < |es[1..]|
          ensures es[1..][a].name != es[1..][b].name
        {
          assert es[1..][a] == es[a + 1] && es[1..][b] == es[b + 1];
        }
      }
      ListingParentsFirst(p, es[0].kids);
      ListingParentsFirst(dir, es[1..]);
      ChildUnder(dir, n);
      forall y | y in inner
        ensures !AtOrUnder(p, y)
      {
        InListing(p, es[0].kids, y);
      }
      ParentsFirstConcat([p], inner);
      forall x, y | x in [p] + inner && y in rest
        ensures !AtOrUnder(x, y)
      {
        if x in inner {
          InListing(p, es[0].kids, x);
        }
        assert AtOrUnder(x, p);
        if AtOrUnder(x, y) {
          InListing(dir, es[1..], y);
          var k :| 0 <= k < |es[1..]| && AtOrUnder(y, Child(dir, es[1..][k].name));
          assert es[1..][k] == es[k + 1];
          AtOrUnderTrans(x, y, Child(dir, es[k + 1].name));
          SegmentsAgree(x, dir, n, es[k + 1].name);
        }
      }
      ParentsFirstConcat([p] + inner, rest);
    }
  }

  /**
   * The tree is what the iterator sees below root in v: a directory (if root exists at all)
   * whose listing is exactly the paths of v below it.
   */
  ghost predicate Mirrors(v: Volume, root: string, tree: seq<Entry>)
  {
    && WellNamed(tree)
    && (Exists(v, root) ==> IsDir(v, root))
    && forall x :: (x in v.nodes && StartsWith(x, root + "/")) <==> x in Listing(root, tree)
  }

  /** Whatever lies below a listed path is listed after it. */
  lemma BelowIsLater(v: Volume, root: string, tree: seq<Entry>, i: nat, x: string)
    requires Mirrors(v, root, tree)
    requires i < |Listing(root, tree)|
    requires x in v.nodes && StartsWith(x, Listing(root, tree)[i] + "/")
    ensures x in Listing(root, tree)[i + 1..]
  {
    var l := Listing(root, tree);
    ListingParentsFirst(root, tree);
    InListing(root, tree, l[i]);
    assert AtOrUnder(x, l[i]);
    AtOrUnderTrans(x, l[i], root);
    assert StartsWith(x, root + "/");
    var m :| 0 <= m < |l| && l[m] == x;
    assert m > i;
    assert l[i + 1..][m - i - 1] == x;
  }

  lemma ParentsFirstNoDuplicates(l: seq<string>)
    requires ParentsFirst(l)
    ensures NoDuplicates(l)
  {
  }
}

=== FILE: disk.dfy ===
/**
 * The file system the library works on, as a map from textual path to node. Paths are
 * the strings the code builds; `realpath` canonicalisation is not applied, so a path is
 * its own canonical name.
 */
module Disk {
  import opened Php

  /** A regular file (with what it holds) or a directory. */
  datatype Node = File(data: string) | Dir

  /** The whole file system: its nodes and the paths the process may write. */
  datatype Volume = Volume(nodes: map<string, Node>, writable: set<string>)

  /** `file_exists()` */
  predicate Exists(v: Volume, p: string)
  {
    p in v.nodes
  }

  /** `is_file()`, `SplFileInfo::isFile()` */
  predicate IsFile(v: Volume, p: string)
  {
    p in v.nodes && v.nodes[p].File?
  }

  /** `is_dir()`, `SplFileInfo::isDir()` */
  predicate IsDir(v: Volume, p: string)
  {
    p in v.nodes && v.nodes[p].Dir?
  }

  /** `SplFileInfo::isWritable()`: false for a path that does not exist. */
  predicate IsWritable(v: Volume, p: string)
  {
    p in v.nodes && p in v.writable
  }

  /** x is the path p itself or lies somewhere below it. */
  predicate AtOrUnder(x: string, p: string)
  {
    x == p || StartsWith(x, p + "/")
  }

  /** `copy($src, $dst)` succeeds when the source is a file and the target is a new path or a writable file. */
  predicate CanCopy(v: Volume, src: string, dst: string)
  {
    IsFile(v, src) && (!Exists(v, dst) || (IsFile(v, dst) && IsWritable(v, dst)))
  }

  function AfterCopy(v: Volume, src: string, dst: string): (w: Volume)
    ensures CanCopy(v, src, dst) ==> w.nodes == v.nodes[dst := v.nodes[src]] && dst in w.writable
    ensures !CanCopy(v, src, dst) ==> w == v
  {
    if CanCopy(v, src, dst) then Volume(v.nodes[dst := v.nodes[src]], v.writable + {dst}) else v
  }

  /** `mkdir($p)`, recursive or not, succeeds on a path that does not exist yet. */
  function AfterMkdir(v: Volume, p: string): (w: Volume)
    ensures !Exists(v, p) ==> w.nodes == v.nodes[p := Dir]
    ensures Exists(v, p) ==> w == v
  {
    if Exists(v, p) then v else Volume(v.nodes[p := Dir], v.writable + {p})
  }

  /** `unlink($p)` succeeds on a file. */
  function AfterUnlink(v: Volume, p: string): (w: Volume)
    ensures IsFile(v, p) ==> w.nodes == v.nodes - {p}
    ensures !IsFile(v, p) ==> w == v
  {
    if IsFile(v, p) then Volume(v.nodes - {p}, v.writable) else v
  }

  /** `rmdir($p)` succeeds on a directory with nothing below it. */
  predicate CanRmdir(v: Volume, p: string)
  {
    IsDir(v, p) && forall x :: x in v.nodes ==> !StartsWith(x, p + "/")
  }

  function AfterRmdir(v: Volume, p: string): (w: Volume)
    ensures CanRmdir(v, p) ==> w.nodes == v.nodes - {p}
    ensures !CanRmdir(v, p) ==> w == v
  {
    if CanRmdir(v, p) then Volume(v.nodes - {p}, v.writable) else v
  }

  /** The process-wide file system, changed in place by the calls below. */
  class FileSystem {
    var vol: Volume

    constructor(v: Volume)
      ensures vol == v
    {
      vol := v;
    }

    method Copy(src: string, dst: string) returns (ok: bool)
      modifies this
      ensures ok == CanCopy(old(vol), src, dst)
      ensures vol == AfterCopy(old(vol), src, dst)
    {
      ok := CanCopy(vol, src, dst);
      vol := AfterCopy(vol, src, dst);
    }

    method Mkdir(p: string) returns (ok: bool)
      modifies this
      ensures ok == !Exists(old(vol), p)
      ensures vol == AfterMkdir(old(vol), p)
    {
      ok := !Exists(vol, p);
      vol := AfterMkdir(vol, p);
    }

    method Unlink(p: string) returns (ok: bool)
      modifies this
      ensures ok == IsFile(old(vol), p)
      ensures vol == AfterUnlink(old(vol), p)
    {
      ok := IsFile(vol, p);
      vol := AfterUnlink(vol, p);
    }

    method Rmdir(p: string) returns (ok: bool)
      modifies this
      ensures ok == CanRmdir(old(vol), p)
      ensures vol == AfterRmdir(old(vol), p)
    {
      ok := CanRmdir(vol, p);
      vol := AfterRmdir(vol, p);
    }
  }
}

=== FILE: key_search.dfy ===
/**
 * `arrayKeysRecursive` and `recursiveUnset`, the key search and the unset by key tree
 * or by key name that the older versions run over the registry. The registry has two
 * levels (extension => media type, or extension => list of media types), so a key tree
 * over it is a sequence of hits, one per top-level key.
 */
module KeySearch {
  import opened Php
  import opened Seqs
  import opened Registry

  /**
   * One top-level entry of a key tree: `ext => null` names the whole key,
   * `ext => array(p => null, ...)` names positions inside the list under ext.
   */
  datatype KeyHit = WholeKey(ext: string) | InList(ext: string, positions: seq<nat>)

  /** The positions of ms that hold v, in increasing order. */
  function PositionsOf(ms: seq<string>, v: string): (r: seq<nat>)
    ensures forall p: nat :: p in r <==> p < |ms| && ms[p] == v
    ensures forall i, j :: 0 <= i < j < |r| ==> r[i] < r[j]
    ensures forall i :: 0 <= i < |r| ==> r[i] < |ms|
  {
    if ms == [] then []
    else
      var init := PositionsOf(ms[..|ms| - 1], v);
      if ms[|ms| - 1] == v then init + [|ms| - 1] else init
  }

  /** What the search reports for one binding. */
  function HitsOf(b: Binding, v: string): seq<KeyHit>
  {
    match b.rule
    case Single(m) => if m == v then [WholeKey(b.ext)] else []
    case Many(ms) => [InList(b.ext, PositionsOf(ms, v))]
  }

  /**
   * The key tree `arrayKeysRecursive($t, $v)` returns: in table order, each key whose
   * string rule equals v, and each key holding a list (whether or not v occurs in it)
   * with the positions of v in that list.
   */
  function FindKeys(t: Table, v: string): seq<KeyHit>
  {
    if t == [] then [] else FindKeys(t[..|t| - 1], v) + HitsOf(t[|t| - 1], v)
  }

  /** The list without the elements at the positions drop selects, in order. */
  function KeepUnless(ms: seq<string>, drop: nat -> bool): (r: seq<string>)
    ensures |r| <= |ms|
    ensures IsSubsequence(r, ms)
  {
    if ms == [] then []
    else
      var init := KeepUnless(ms[..|ms| - 1], drop);
      assert ms == ms[..|ms| - 1] + [ms[|ms| - 1]];
      if drop(|ms| - 1) then init
      else
        assert (init + [ms[|ms| - 1]])[..|init|] == init;
        init + [ms[|ms| - 1]]
  }

  lemma {:induction false} KeepUnlessCongruent(ms: seq<string>, d1: nat -> bool, d2: nat -> bool)
    requires forall p: nat :: p < |ms| ==> d1(p) == d2(p)
    ensures KeepUnless(ms, d1) == KeepUnless(ms, d2)
  {
    if ms != [] {
      KeepUnlessCongruent(ms[..|ms| - 1], d1, d2);
    }
  }

  /** Dropping the positions that hold v is filtering v out. */
  lemma {:induction false} KeepUnlessPositionsOf(ms: seq<string>, v: string)
    ensures KeepUnless(ms, p => p in PositionsOf(ms, v)) == Filter(ms, Unequal(v))
  {
    if ms != [] {
      var init := ms[..|ms| - 1];
      KeepUnlessCongruent(init, p => p in PositionsOf(ms, v), p => p in PositionsOf(init, v));
      KeepUnlessPositionsOf(init, v);
    }
  }

  /** The key a hit is about. */
  function HitKey(h: KeyHit): string
  {
    match h
    case WholeKey(e) => e
    case InList(e, _) => e
  }

  /** What one hit does to the rule under its key; a hit with positions leaves a string rule or a missing key alone. */
  function ApplyHit(r: Option<Rule>, h: KeyHit): Option<Rule>
  {
    match h
    case WholeKey(_) => None
    case InList(_, ps) =>
      if r.Some? && r.value.Many? then Some(Many(KeepUnless(r.value.mimes, p => p in ps))) else r
  }

  /** One step of `recursiveUnset($keys, $values, true)`: the hit's key is unset, or positions are unset inside its list. */
  function UnsetOne(t: Table, h: KeyHit): (r: Table)
    ensures forall k :: Lookup(r, k) == if k == HitKey(h) then ApplyHit(Lookup(t, k), h) else Lookup(t, k)
    ensures forall k :: HasKey(r, k) ==> HasKey(t, k)
    ensures UniqueKeys(t) ==> UniqueKeys(r)
  {
    match h
    case WholeKey(e) =>
      if UniqueKeys(t) then RemoveKeyKeepsUnique(t, e); RemoveKey(t, e) else RemoveKey(t, e)
    case InList(e, ps) =>
      match Lookup(t, e)
      case Some(Many(ms)) => Put(t, e, Many(KeepUnless(ms, p => p in ps)))
      case _ => t
  }

  /** `recursiveUnset($keys, $values, true)`: the hits applied in order. */
  function UnsetTree(t: Table, hits: seq<KeyHit>): Table
    decreases |hits|
  {
    if hits == [] then t else UnsetTree(UnsetOne(t, hits[0]), hits[1..])
  }

  /** The key-tree unset never adds a key, so a PHP array stays one. */
  lemma {:induction false} UnsetTreeKeepsUnique(t: Table, hits: seq<KeyHit>)
    requires UniqueKeys(t)
    ensures UniqueKeys(UnsetTree(t, hits))
    decreases |hits|
  {
    if hits != [] {
      UnsetTreeKeepsUnique(UnsetOne(t, hits[0]), hits[1..]);
    }
  }

  /** The hits of a tree that concern key k, in order. */
  function HitsFor(hits: seq<KeyHit>, k: string): seq<KeyHit>
  {
    if hits == [] then []
    else (if HitKey(hits[0]) == k then [hits[0]] else []) + HitsFor(hits[1..], k)
  }

  function ApplyHits(r: Option<Rule>, hits: seq<KeyHit>): Option<Rule>
    decreases |hits|
  {
    if hits == [] then r else ApplyHits(ApplyHit(r, hits[0]), hits[1..])
  }

  /** The rule left under k depends only on the hits about k. */
  lemma {:induction false} LookupUnsetTree(t: Table, hits: seq<KeyHit>, k: string)
    ensures Lookup(UnsetTree(t, hits), k) == ApplyHits(Lookup(t, k), HitsFor(hits, k))
    decreases |hits|
  {
    if hits != [] {
      LookupUnsetTree(UnsetOne(t, hits[0]), hits[1..], k);
      var rest := HitsFor(hits[1..], k);
      if HitKey(hits[0]) == k {
        assert HitsFor(hits, k) == [hits[0]] + rest;
        assert ([hits[0]] + rest)[1..] == rest;
      } else {
        assert HitsFor(hits, k) == [] + rest == rest;
      }
    }
  }

  lemma {:induction false} HitsForAppend(a: seq<KeyHit>, b: seq<KeyHit>, k: string)
    ensures HitsFor(a + b, k) == HitsFor(a, k) + HitsFor(b, k)
  {
    if a == [] {
      assert a + b == b;
    } else {
      var head := if HitKey(a[0]) == k then [a[0]] else [];
      assert (a + b)[0] == a[0];
      assert (a + b)[1..] == a[1..] + b;
      HitsForAppend(a[1..], b, k);
      assert HitsFor(a + b, k) == head + (HitsFor(a[1..], k) + HitsFor(b, k));
      AppendAssoc(head, HitsFor(a[1..], k), HitsFor(b, k));
    }
  }

  lemma HitsForHitsOf(b: Binding, v: string, k: string)
    ensures HitsFor(HitsOf(b, v), k) == if b.ext == k then HitsOf(b, v) else []
  {
    var h := HitsOf(b, v);
    if h != [] {
      assert h[1..] == [];
    }
  }

  /** The hits a search reports about a key whose rule is r. */
  function ExpectedHits(r: Option<Rule>, k: string, v: string): seq<KeyHit>
  {
    match r
    case None => []
    case Some(Single(m)) => if m == v then [WholeKey(k)] else []
    case Some(Many(ms)) => [InList(k, PositionsOf(ms, v))]
  }

  /** The hits a search reports about one key: one hit for a string rule equal to v, one for any list, none otherwise. */
  lemma {:induction false} HitsForFindKeys(t: Table, v: string, k: string)
    requires UniqueKeys(t)
    ensures HitsFor(FindKeys(t, v), k) == ExpectedHits(Lookup(t, k), k, v)
  {
    if t != [] {
      var init, last := t[..|t| - 1], t[|t| - 1];
      assert t == init + [last];
      UniqueKeysSnoc(init, last);
      assert FindKeys(t, v) == FindKeys(init, v) + HitsOf(last, v);
      HitsForAppend(FindKeys(init, v), HitsOf(last, v), k);
      HitsForFindKeys(init, v, k);
      HitsForHitsOf(last, v, k);
      LookupAppend(init, [last], k);
      LookupSingle(last, k);
      if last.ext == k {
        assert Lookup(t, k) == Some(last.rule);
        assert HitsFor(FindKeys(init, v), k) == [];
      } else {
        assert Lookup(t, k) == Lookup(init, k);
      }
    }
  }

  /**
   * Unsetting what the search found for v: a string rule equal to v loses its key, a list
   * loses every occurrence of v and stays even when it becomes empty, everything else is kept.
   */
  lemma UnsetFoundKeys(t: Table, v: string, k: string)
    requires UniqueKeys(t)
    ensures Lookup(UnsetTree(t, FindKeys(t, v)), k) ==
      match Lookup(t, k)
      case None => None
      case Some(Single(m)) => if m == v then None else Some(Single(m))
      case Some(Many(ms)) => Some(Many(Filter(ms, Unequal(v))))
  {
    LookupUnsetTree(t, FindKeys(t, v), k);
    HitsForFindKeys(t, v, k);
    match Lookup(t, k)
    case None =>
    case Some(Single(m)) =>
    case Some(Many(ms)) =>
      var ps := PositionsOf(ms, v);
      assert ApplyHits(Some(Many(ms)), [InList(k, ps)]) == Some(Many(KeepUnless(ms, p => p in ps)));
      KeepUnlessPositionsOf(ms, v);
  }

  /** `in_array($p, $keys)` for a list position p: it matches the decimal spelling of p. */
  predicate PositionNamed(p: nat, names: seq<string>)
  {
    IntToString(p) in names
  }

  /** What `recursiveUnset($keys, $values, false)` leaves of one binding. */
  function UnsetNamedIn(b: Binding, names: seq<string>): seq<Binding>
  {
    if b.ext in names then []
    else match b.rule
      case Single(_) => [b]
      case Many(ms) => [Binding(b.ext, Many(KeepUnless(ms, (p: nat) => PositionNamed(p, names))))]
  }

  /** `recursiveUnset($keys, $values, false)`: every binding whose key is listed goes, and inside lists every listed position goes. */
  function UnsetNames(t: Table, names: seq<string>): Table
  {
    if t == [] then [] else UnsetNames(t[..|t| - 1], names) + UnsetNamedIn(t[|t| - 1], names)
  }

  /** A listed key is gone; any other key keeps its rule, a list losing only its named positions. */
  lemma {:induction false} LookupUnsetNames(t: Table, names: seq<string>, k: string)
    ensures Lookup(UnsetNames(t, names), k) ==
      if k in names then None
      else match Lookup(t, k)
        case Some(Many(ms)) => Some(Many(KeepUnless(ms, (p: nat) => PositionNamed(p, names))))
        case r => r
  {
    if t != [] {
      var init, last := t[..|t| - 1], t[|t| - 1];
      assert t == init + [last];
      var u := UnsetNames(init, names);
      LookupAppend(init, [last], k);
      LookupAppend(u, UnsetNamedIn(last, names), k);
      LookupUnsetNames(init, names, k);
      KeysAppend(init, [last]);
      assert Keys([last]) == [last.ext];
      var tail := UnsetNamedIn(last, names);
      assert tail == [] || Keys(tail) == [last.ext];
      if HasKey(init, k) {
        assert HasKey(u, k) <==> k !in names;
      } else if k !in names {
        assert HasKey(u, k) == false;
      }
    }
  }

  /** The unset by key name never adds a key, so a PHP array stays one. */
  lemma {:induction false} UnsetNamesKeepsUnique(t: Table, names: seq<string>)
    requires UniqueKeys(t)
    ensures UniqueKeys(UnsetNames(t, names))
  {
    if t != [] {
      var init, last := t[..|t| - 1], t[|t| - 1];
      assert t == init + [last];
      UniqueKeysSnoc(init, last);
      UnsetNamesKeepsUnique(init, names);
      var u := UnsetNames(init, names);
      var tail := UnsetNamedIn(last, names);
      if tail == [] {
        assert u + tail == u;
      } else {
        assert tail == [tail[0]] && tail[0].ext == last.ext;
        LookupUnsetNames(init, names, last.ext);
        UniqueKeysSnoc(u, tail[0]);
      }
    }
  }

  /**
   * `arrayKeysRecursive($t, $v)`: a loop over the bindings. For a list the recursive call
   * collects the positions holding v; `array_merge` of string keys appends each new key,
   * so the hits come out in table order.
   */
  method ArrayKeysRecursive(t: Table, v: string) returns (found: seq<KeyHit>)
    ensures found == FindKeys(t, v)
  {
    found := [];
    var i := 0;
    while i < |t|
      invariant i <= |t|
      invariant found == FindKeys(t[..i], v)
    {
      var b := t[i];
      assert t[..i + 1][..i] == t[..i];
      match b.rule {
        case Single(m) =>
          if m == v {
            found := found + [WholeKey(b.ext)];
          }
        case Many(ms) =>
          var ps := ListKeys(ms, v);
          found := found + [InList(b.ext, ps)];
      }
      i := i + 1;
    }
    assert t[..|t|] == t;
  }

  /** The recursive call of `arrayKeysRecursive` on a list: the positions whose value equals v. */
  method ListKeys(ms: seq<string>, v: string) returns (ps: seq<nat>)
    ensures ps == PositionsOf(ms, v)
  {
    ps := [];
    var i := 0;
    while i < |ms|
      invariant i <= |ms|
      invariant ps == PositionsOf(ms[..i], v)
    {
      assert ms[..i + 1][..i] == ms[..i];
      if ms[i] == v {
        ps := ps + [i];
      }
      i := i + 1;
    }
    assert ms[..|ms|] == ms;
  }

  /** `recursiveUnset($keys, $values, true)`: walks the key tree, unsetting its leaves. */
  method UnsetSpecific(hits: seq<KeyHit>, values: Table) returns (r: Table)
    ensures r == UnsetTree(values, hits)
  {
    r := values;
    var i := 0;
    while i < |hits|
      invariant i <= |hits|
      invariant UnsetTree(r, hits[i..]) == UnsetTree(values, hits)
    {
      assert hits[i..][1..] == hits[i + 1..];
      match hits[i] {
        case WholeKey(e) =>
          r := RemoveKey(r, e);
        case InList(e, ps) =>
          match Lookup(r, e) {
            case Some(Many(ms)) =>
              r := Put(r, e, Many(KeepUnless(ms, p => p in ps)));
            case _ =>
          }
      }
      i := i + 1;
    }
  }

  /** `recursiveUnset($keys, $values, false)`: walks the array, unsetting every entry whose key is listed. */
  method UnsetAnywhere(names: seq<string>, values: Table) returns (r: Table)
    ensures r == UnsetNames(values, names)
  {
    r := [];
    var i := 0;
    while i < |values|
      invariant i <= |values|
      invariant r == UnsetNames(values[..i], names)
    {
      var b := values[i];
      assert values[..i + 1][..i] == values[..i];
      if b.ext in names {
      } else if b.rule.Many? {
        r := r + [Binding(b.ext, Many(KeepUnless(b.rule.mimes, (p: nat) => PositionNamed(p, names))))];
      } else {
        r := r + [b];
      }
      i := i + 1;
    }
    assert values[..|values|] == values;
  }
}

=== FILE: legacy_zip.dfy ===
/**
 * The original single `Zip` class: archive, registry and extraction in one object. Its
 * acceptance test ignores the extension, its registry view keeps repeated media types, and
 * its move step copies into the destination, keeping the directory part (a list of files) or
 * flattening every name with a clock stamp (a walk of the temporary directory).
 */
module LegacyZip {
  import opened Php
  import opened Seqs
  import opened Paths
  import opened Registry
  import opened KeySearch
  import opened Disk
  import opened DirTree
  import opened Archive
  import SrcMime
  import SrcExtract
  import VendorZip
  import VendorMime
  import VendorExtract
  import ZipErrors

  const NoBasePathMessage := VendorZip.NoBasePathMessage
  const NoTmpMessage := SrcExtract.NoTmpMessage
  const NoDestMessage := SrcExtract.NoDestMessage

  /** The registry a new object starts with. */
  const DefaultMimeFiles: Table := [
    Binding("jpg", Single("image/jpeg")),
    Binding("jpeg", Single("image/jpeg")),
    Binding("gif", Single("image/gif")),
    Binding("png", Single("image/png")),
    Binding("bmp", Single("image/bmp")),
    Binding("tiff", Single("image/tiff")),
    Binding("tif", Single("image/tiff")),
    Binding("txt", Many(["text/plain", "application/x-empty"]))
  ]

  /** The default registry's keys, in order. */
  const DefaultKeys: seq<string> := ["jpg", "jpeg", "gif", "png", "bmp", "tiff", "tif", "txt"]

  /** The default registry's keys are eight distinct extensions. */
  lemma DefaultKeysUnique()
    ensures UniqueKeys(DefaultMimeFiles)
  {
    assert Keys(DefaultMimeFiles) == DefaultKeys;
    DefaultKeysDistinct();
  }

  lemma DefaultKeysDistinct()
    ensures NoDuplicates(DefaultKeys)
  {
    NoDuplicatesCons("txt", []);
    NoDuplicatesCons("tif", ["txt"]);
    NoDuplicatesCons("tiff", ["tif", "txt"]);
    NoDuplicatesCons("bmp", ["tiff", "tif", "txt"]);
    NoDuplicatesCons("png", ["bmp", "tiff", "tif", "txt"]);
    NoDuplicatesCons("gif", ["png", "bmp", "tiff", "tif", "txt"]);
    NoDuplicatesCons("jpeg", ["gif", "png", "bmp", "tiff", "tif", "txt"]);
    NoDuplicatesCons("jpg", ["jpeg", "gif", "png", "bmp", "tiff", "tif", "txt"]);
  }

  /**
   * The flat view of the default registry lists "image/jpeg" and "image/tiff" twice each,
   * so it holds a repeat, where the current version's flat view never does.
   */
  lemma DefaultLeaves()
    ensures Leaves(DefaultMimeFiles) == ["image/jpeg", "image/jpeg", "image/gif", "image/png", "image/bmp",
                                         "image/tiff", "image/tiff", "text/plain", "application/x-empty"]
    ensures !NoDuplicates(Leaves(DefaultMimeFiles))
  {
    var t := DefaultMimeFiles;
    DefaultLeavesImages();
    DefaultLeavesRest();
    assert t[..8] == t;
    var l := Leaves(t);
    assert l[0] == l[1];
  }

  /** The last four bindings of the default registry add five media types, "image/tiff" twice. */
  lemma DefaultLeavesRest()
    ensures Leaves(DefaultMimeFiles[..8]) ==
      Leaves(DefaultMimeFiles[..4]) + ["image/bmp", "image/tiff", "image/tiff", "text/plain", "application/x-empty"]
  {
    var t := DefaultMimeFiles;
    LeavesSnoc(t, 4);
    LeavesSnoc(t, 5);
    LeavesSnoc(t, 6);
    LeavesSnoc(t, 7);
  }

  /** The first four bindings of the default registry hold four media types, "image/jpeg" twice. */
  lemma DefaultLeavesImages()
    ensures Leaves(DefaultMimeFiles[..4]) == ["image/jpeg", "image/jpeg", "image/gif", "image/png"]
  {
    var t := DefaultMimeFiles;
    assert t[..0] == [];
    LeavesSnoc(t, 0);
    LeavesSnoc(t, 1);
    LeavesSnoc(t, 2);
    LeavesSnoc(t, 3);
  }

  /* ---------- isValidMime ---------- */

  /** The array `isValidMime` returns. */
  datatype Verdict = Verdict(isDir: bool, isFile: bool, isValid: bool)

  /** A media type is one of the registry's leaves iff some binding accepts it. */
  lemma LeavesAccept(t: Table, m: string)
    ensures m in Leaves(t) <==> exists i :: 0 <= i < |t| && Accepts(t[i].rule, m)
  {
    LeavesMembers(t, m);
    forall i | 0 <= i < |t|
      ensures Accepts(t[i].rule, m) <==> m in Values(t[i].rule)
    {
      AcceptsValues(t[i].rule, m);
    }
  }

  lemma LeavesAcceptAll(t: Table)
    ensures forall m :: m in Leaves(t) <==> exists i :: 0 <= i < |t| && Accepts(t[i].rule, m)
  {
    forall m {
      LeavesAccept(t, m);
    }
  }

  /**
   * `isValidMime($fileName)`, given what the sniffer reports for the file: a directory is
   * recognised by its media type, and a file is accepted when the registry is empty or any
   * binding holds its media type, whatever the file's extension.
   */
  function IsValidMime(t: Table, sniffed: string): (r: Verdict)
    ensures r.isDir <==> MediaType(sniffed) == "directory"
    ensures r.isFile <==> !r.isDir
    ensures r.isValid <==> t == [] || exists i :: 0 <= i < |t| && Accepts(t[i].rule, MediaType(sniffed))
  {
    var m := MediaType(sniffed);
    LeavesAccept(t, m);
    Verdict(m == "directory", m != "directory", t == [] || m in Leaves(t))
  }

  /** Whatever the current version accepts with checking on, the original accepts too. */
  lemma CurrentAcceptanceImpliesLegacy(t: Table, fileName: string, sniffed: string)
    requires SrcMime.IsValidMime(true, t, fileName, sniffed)
    ensures IsValidMime(t, sniffed).isValid
  {
    var k := ExtensionOrEmpty(fileName);
    var rule := Lookup(t, k).value;
    LookupFound(t, k);
    var i :| 0 <= i < |t| && t[i] == Binding(k, rule);
    assert Accepts(t[i].rule, MediaType(sniffed));
  }

  /** A media type without parameters is its own media type. */
  lemma {:induction false} MediaTypePlain(s: string)
    requires ';' !in s
    ensures MediaType(s) == s
  {
    if s != [] {
      assert s[0] != ';' && s == [s[0]] + s[1..];
      MediaTypePlain(s[1..]);
    }
  }

  /**
   * The converse fails: with the default registry, a PNG image whose name ends in ".txt"
   * passes the original but not the current version.
   */
  lemma ExtensionIgnored(name: string, sniffed: string)
    requires ExtensionOrEmpty(name) == "txt" && MediaType(sniffed) == "image/png"
    ensures IsValidMime(DefaultMimeFiles, sniffed).isValid
    ensures !SrcMime.IsValidMime(true, DefaultMimeFiles, name, sniffed)
  {
    LegacyAcceptsPng(sniffed);
    CurrentRejectsPngAsTxt(name, sniffed);
  }

  /** The original finds "image/png" among the default registry's media types. */
  lemma LegacyAcceptsPng(sniffed: string)
    requires MediaType(sniffed) == "image/png"
    ensures IsValidMime(DefaultMimeFiles, sniffed).isValid
  {
    assert DefaultMimeFiles[3].rule == Single("image/png");
    LegacyAccepts(DefaultMimeFiles, sniffed, 3);
  }

  /** A binding that holds the sniffed media type makes the original accept the file. */
  lemma LegacyAccepts(t: Table, sniffed: string, i: nat)
    requires i < |t| && Accepts(t[i].rule, MediaType(sniffed))
    ensures IsValidMime(t, sniffed).isValid
  {
  }

  /** The current version looks up the "txt" binding, which does not hold "image/png". */
  lemma CurrentRejectsPngAsTxt(name: string, sniffed: string)
    requires ExtensionOrEmpty(name) == "txt" && MediaType(sniffed) == "image/png"
    ensures !SrcMime.IsValidMime(true, DefaultMimeFiles, name, sniffed)
  {
    var rule := Many(["text/plain", "application/x-empty"]);
    assert !Accepts(rule, "image/png");
    DefaultTxt();
    CurrentRejects(DefaultMimeFiles, name, sniffed, rule);
  }

  /** The default registry binds "txt" to its two text media types. */
  lemma DefaultTxt()
    ensures Lookup(DefaultMimeFiles, "txt") == Some(Many(["text/plain", "application/x-empty"]))
  {
    DefaultKeysUnique();
    LookupAt(DefaultMimeFiles, 7);
  }

  lemma CurrentRejects(t: Table, name: string, sniffed: string, rule: Rule)
    requires Lookup(t, ExtensionOrEmpty(name)) == Some(rule) && !Accepts(rule, MediaType(sniffed))
    ensures !SrcMime.IsValidMime(true, t, name, sniffed)
  {
  }

  /* ---------- moveValidMime ---------- */

  /** One `array('original' => ..., 'destination' => ...)` entry of the returned list. */
  datatype Moved = Moved(original: string, destination: string)

  /** The volume and the pairs reported so far. */
  datatype Run = Run(vol: Volume, moved: seq<Moved>)

  /** `copy($src, $dst)`, recording the pair when the copy succeeds. */
  function CopyStep(r: Run, src: string, dst: string): Run
  {
    Run(AfterCopy(r.vol, src, dst), if CanCopy(r.vol, src, dst) then r.moved + [Moved(src, dst)] else r.moved)
  }

  /** The directory a listed file goes to: its directory part below the destination. */
  function ListFolder(dest: string, file: string): string
  {
    dest + "/" + DirName(file) + "/"
  }

  /** The path a listed file is copied to: its file name and extension in that directory. */
  function ListTarget(dest: string, file: string): string
  {
    ListFolder(dest, file) + FileName(file) + "." + ExtensionOrEmpty(file)
  }

  /** One file of the list: skipped unless it was staged and passes; otherwise its folder is made and it is copied. */
  function ListStep(r: Run, tmp: string, dest: string, t: Table, sniff: string -> string, file: string): Run
  {
    var src := tmp + "/" + file;
    if !Exists(r.vol, src) || !IsValidMime(t, sniff(src)).isValid then r
    else CopyStep(Run(AfterMkdir(r.vol, ListFolder(dest, file)), r.moved), src, ListTarget(dest, file))
  }

  /** `moveValidMime($moveFiles)` with a non-empty list, one file after another. */
  function ListMove(v: Volume, tmp: string, dest: string, t: Table, sniff: string -> string, files: seq<string>): Run
  {
    if files == [] then Run(v, [])
    else ListStep(ListMove(v, tmp, dest, t, sniff, files[..|files| - 1]), tmp, dest, t, sniff, files[|files| - 1])
  }

  /** Every pair a list move could report, in list order. */
  function ListPairs(tmp: string, dest: string, files: seq<string>): seq<Moved>
  {
    seq(|files|, i requires 0 <= i < |files| => Moved(tmp + "/" + files[i], ListTarget(dest, files[i])))
  }

  lemma ListPairsSnoc(tmp: string, dest: string, files: seq<string>)
    requires files != []
    ensures ListPairs(tmp, dest, files) ==
      ListPairs(tmp, dest, files[..|files| - 1]) + [Moved(tmp + "/" + files[|files| - 1], ListTarget(dest, files[|files| - 1]))]
  {
    var n := |files|;
    var a := ListPairs(tmp, dest, files);
    var b := ListPairs(tmp, dest, files[..n - 1]) + [Moved(tmp + "/" + files[n - 1], ListTarget(dest, files[n - 1]))];
    assert |a| == |b|;
    forall i | 0 <= i < n
      ensures a[i] == b[i]
    {
      if i < n - 1 {
        assert files[..n - 1][i] == files[i];
      }
    }
  }

  /** One list step reports nothing, or the file's pair when the file passed. */
  lemma ListStepMoved(r: Run, tmp: string, dest: string, t: Table, sniff: string -> string, file: string)
    ensures var s := ListStep(r, tmp, dest, t, sniff, file);
      s.moved == r.moved ||
      (s.moved == r.moved + [Moved(tmp + "/" + file, ListTarget(dest, file))] && IsValidMime(t, sniff(tmp + "/" + file)).isValid)
  {
  }

  /** Every reported pair passed the acceptance test. */
  ghost predicate AllPassed(t: Table, sniff: string -> string, ms: seq<Moved>)
  {
    forall k :: 0 <= k < |ms| ==> IsValidMime(t, sniff(ms[k].original)).isValid
  }

  /**
   * A list move reports some of the listed files, in list order, each with its staged path
   * and its target, and only files that passed the acceptance test.
   */
  lemma {:induction false} ListMoveReports(v: Volume, tmp: string, dest: string, t: Table, sniff: string -> string, files: seq<string>)
    ensures IsSubsequence(ListMove(v, tmp, dest, t, sniff, files).moved, ListPairs(tmp, dest, files))
    ensures AllPassed(t, sniff, ListMove(v, tmp, dest, t, sniff, files).moved)
  {
    if files != [] {
      var init, f := files[..|files| - 1], files[|files| - 1];
      ListMoveReports(v, tmp, dest, t, sniff, init);
      var r := ListMove(v, tmp, dest, t, sniff, init);
      var pair := Moved(tmp + "/" + f, ListTarget(dest, f));
      ListPairsSnoc(tmp, dest, files);
      ListStepMoved(r, tmp, dest, t, sniff, f);
      var s := ListStep(r, tmp, dest, t, sniff, f);
      assert ListMove(v, tmp, dest, t, sniff, files) == s;
      if s.moved == r.moved {
        IsSubsequenceExtend(r.moved, ListPairs(tmp, dest, init), pair);
      } else {
        IsSubsequenceSnoc(r.moved, ListPairs(tmp, dest, init), pair);
        AllPassedSnoc(t, sniff, r.moved, pair);
      }
    }
  }

  lemma AllPassedSnoc(t: Table, sniff: string -> string, ms: seq<Moved>, m: Moved)
    requires AllPassed(t, sniff, ms) && IsValidMime(t, sniff(m.original)).isValid
    ensures AllPassed(t, sniff, ms + [m])
  {
    forall k | 0 <= k < |ms + [m]|
      ensures IsValidMime(t, sniff((ms + [m])[k].original)).isValid
    {
      if k < |ms| {
        assert (ms + [m])[k] == ms[k];
      }
    }
  }

  /** A list move replaces a writable file already at the target: there is no existence check. */
  lemma ListMoveOverwrites(v: Volume, tmp: string, dest: string, t: Table, sniff: string -> string, file: string)
    requires IsFile(v, tmp + "/" + file) && IsValidMime(t, sniff(tmp + "/" + file)).isValid
    requires IsFile(v, ListTarget(dest, file)) && IsWritable(v, ListTarget(dest, file))
    ensures ListMove(v, tmp, dest, t, sniff, [file]).moved == [Moved(tmp + "/" + file, ListTarget(dest, file))]
    ensures ListTarget(dest, file) in ListMove(v, tmp, dest, t, sniff, [file]).vol.nodes
    ensures ListMove(v, tmp, dest, t, sniff, [file]).vol.nodes[ListTarget(dest, file)] == v.nodes[tmp + "/" + file]
  {
    var src, dst, folder := tmp + "/" + file, ListTarget(dest, file), ListFolder(dest, file);
    assert [file][..0] == [];
    assert ListMove(v, tmp, dest, t, sniff, [file]) == ListStep(Run(v, []), tmp, dest, t, sniff, file);
    MkdirKeepsFile(v, folder, src);
    MkdirKeepsFile(v, folder, dst);
    var w := AfterMkdir(v, folder);
    assert ListStep(Run(v, []), tmp, dest, t, sniff, file) == CopyStep(Run(w, []), src, dst);
    assert CanCopy(w, src, dst);
  }

  /** Creating a directory leaves an existing file, its content and its permission alone. */
  lemma MkdirKeepsFile(v: Volume, p: string, x: string)
    requires IsFile(v, x)
    ensures var w := AfterMkdir(v, p);
      IsFile(w, x) && w.nodes[x] == v.nodes[x] && (IsWritable(v, x) ==> IsWritable(w, x))
  {
  }

  /** The path a walked file is copied to: its file name, the stamp and its extension, straight below the destination. */
  function WalkTarget(dest: string, x: string, stamp: string): string
  {
    dest + "/" + WalkName(x, stamp)
  }

  /** The name a walked file gets: its file name, '_', the stamp, '.' and its extension. */
  function WalkName(x: string, stamp: string): string
  {
    FileName(x) + "_" + stamp + "." + ExtensionOrEmpty(x)
  }

  /** One path of the walk: copied when it passes the acceptance test. */
  function WalkStep(r: Run, dest: string, t: Table, sniff: string -> string, x: string, stamp: string): Run
  {
    if IsValidMime(t, sniff(x)).isValid then CopyStep(r, x, WalkTarget(dest, x, stamp)) else r
  }

  /**
   * `moveValidMime()` with no list: each path of the walk, the i-th stamped with what the
   * clock reads then.
   */
  function WalkMove(v: Volume, dest: string, t: Table, sniff: string -> string, paths: seq<string>, clock: nat -> string): Run
  {
    if paths == [] then Run(v, [])
    else
      var n := |paths| - 1;
      WalkStep(WalkMove(v, dest, t, sniff, paths[..n], clock), dest, t, sniff, paths[n], clock(n))
  }

  /** Every pair a walk could report, in walk order. */
  function WalkPairs(dest: string, paths: seq<string>, clock: nat -> string): seq<Moved>
  {
    seq(|paths|, i requires 0 <= i < |paths| => Moved(paths[i], WalkTarget(dest, paths[i], clock(i))))
  }

  /** d names something straight below dir: dir, one '/', then a name without '/'. */
  predicate FlatBelow(dir: string, d: string)
  {
    |d| > |dir| && d[..|dir| + 1] == dir + "/" && '/' !in d[|dir| + 1..]
  }

  /** Every reported pair lands straight below dir. */
  ghost predicate AllFlat(dir: string, ms: seq<Moved>)
  {
    forall k :: 0 <= k < |ms| ==> FlatBelow(dir, ms[k].destination)
  }

  lemma ExtensionOrEmptyNoSlash(x: string)
    ensures '/' !in ExtensionOrEmpty(x)
  {
    match Extension(x)
    case None =>
    case Some(e) =>
  }

  /** A walk target is a single name straight below the destination when the stamp holds no '/'. */
  lemma WalkTargetFlat(dest: string, x: string, stamp: string)
    requires '/' !in stamp
    ensures FlatBelow(dest, WalkTarget(dest, x, stamp))
  {
    var a, e := FileName(x), ExtensionOrEmpty(x);
    ExtensionOrEmptyNoSlash(x);
    NotInAppend(a, "_", '/');
    NotInAppend(a + "_", stamp, '/');
    NotInAppend(a + "_" + stamp, ".", '/');
    NotInAppend(a + "_" + stamp + ".", e, '/');
    AppendParts(dest + "/", WalkName(x, stamp));
  }

  lemma WalkPairsSnoc(dest: string, paths: seq<string>, clock: nat -> string)
    requires paths != []
    ensures WalkPairs(dest, paths, clock) ==
      WalkPairs(dest, paths[..|paths| - 1], clock) +
      [Moved(paths[|paths| - 1], WalkTarget(dest, paths[|paths| - 1], clock(|paths| - 1)))]
  {
    var n := |paths|;
    var a := WalkPairs(dest, paths, clock);
    var b := WalkPairs(dest, paths[..n - 1], clock) + [Moved(paths[n - 1], WalkTarget(dest, paths[n - 1], clock(n - 1)))];
    assert |a| == |b|;
    forall i | 0 <= i < n
      ensures a[i] == b[i]
    {
      if i < n - 1 {
        assert paths[..n - 1][i] == paths[i];
      }
    }
  }

  /** One walk step reports nothing, or the path's pair when the path passed. */
  lemma WalkStepMoved(r: Run, dest: string, t: Table, sniff: string -> string, x: string, stamp: string)
    ensures var s := WalkStep(r, dest, t, sniff, x, stamp);
      s.moved == r.moved ||
      (s.moved == r.moved + [Moved(x, WalkTarget(dest, x, stamp))] && IsValidMime(t, sniff(x)).isValid)
  {
  }

  lemma AllFlatSnoc(dir: string, ms: seq<Moved>, m: Moved)
    requires AllFlat(dir, ms) && FlatBelow(dir, m.destination)
    ensures AllFlat(dir, ms + [m])
  {
    forall k | 0 <= k < |ms + [m]|
      ensures FlatBelow(dir, (ms + [m])[k].destination)
    {
      if k < |ms| {
        assert (ms + [m])[k] == ms[k];
      }
    }
  }

  /**
   * A walk reports some of the walked paths, in walk order, only ones that passed, and, with
   * a clock that never reads a '/', every target sits straight below the destination: the
   * directory part of the staged path is dropped.
   */
  lemma {:induction false} WalkMoveReports(v: Volume, dest: string, t: Table, sniff: string -> string, paths: seq<string>, clock: nat -> string)
    ensures IsSubsequence(WalkMove(v, dest, t, sniff, paths, clock).moved, WalkPairs(dest, paths, clock))
    ensures AllPassed(t, sniff, WalkMove(v, dest, t, sniff, paths, clock).moved)
    ensures (forall i: nat :: '/' !in clock(i)) ==> AllFlat(dest, WalkMove(v, dest, t, sniff, paths, clock).moved)
  {
    if paths != [] {
      var n := |paths| - 1;
      var init, x := paths[..n], paths[n];
      WalkMoveReports(v, dest, t, sniff, init, clock);
      var r := WalkMove(v, dest, t, sniff, init, clock);
      var pair := Moved(x, WalkTarget(dest, x, clock(n)));
      WalkPairsSnoc(dest, paths, clock);
      WalkStepMoved(r, dest, t, sniff, x, clock(n));
      var s := WalkStep(r, dest, t, sniff, x, clock(n));
      assert WalkMove(v, dest, t, sniff, paths, clock) == s;
      if s.moved == r.moved {
        IsSubsequenceExtend(r.moved, WalkPairs(dest, init, clock), pair);
      } else {
        IsSubsequenceSnoc(r.moved, WalkPairs(dest, init, clock), pair);
        AllPassedSnoc(t, sniff, r.moved, pair);
        if forall i: nat :: '/' !in clock(i) {
          WalkTargetFlat(dest, x, clock(n));
          AllFlatSnoc(dest, r.moved, pair);
        }
      }
    }
  }

  /** What `moveValidMime` returns or throws, and the volume it leaves. */
  datatype Moves = Moves(result: Result<seq<Moved>>, vol: Volume)

  /** What `extractSpecificsFiles` returns: the moved pairs, or the bare list of extracted names. */
  datatype Report = Pairs(pairs: seq<Moved>) | Names(names: seq<string>)

  /** What `extractSpecificsFiles` returns or throws, and the volume it leaves. */
  datatype Reported = Reported(result: Result<Report>, vol: Volume)

  /* ---------- extractByExtension ---------- */

  /** The entry has an extension, and that extension is registered or nothing is. */
  predicate Selected(t: Table, name: string)
  {
    Extension(name).Some? && (HasKey(t, Extension(name).value) || t == [])
  }

  function SelectedIn(t: Table): string -> bool
  {
    name => Selected(t, name)
  }

  /** The entries `extractByExtension` adds, in archive order. */
  function ByExtension(entries: seq<string>, t: Table): (r: seq<string>)
    ensures forall x :: x in r <==> x in entries && Extension(x).Some? && (t == [] || HasKey(t, Extension(x).value))
    ensures IsSubsequence(r, entries)
  {
    FilterMembers(entries, SelectedIn(t));
    FilterIsSubsequence(entries, SelectedIn(t));
    Filter(entries, SelectedIn(t))
  }

  /** The entry has an extension at all. */
  function HasExtension(): string -> bool
  {
    name => Extension(name).Some?
  }

  /**
   * With some extension registered the original selects what the current version selects;
   * with none it selects every entry that has an extension, where the current one selects none.
   */
  lemma ByExtensionAgainstCurrent(entries: seq<string>, t: Table)
    ensures t != [] ==> ByExtension(entries, t) == SrcExtract.ByExtension(entries, t)
    ensures ByExtension(entries, []) == Filter(entries, HasExtension())
    ensures SrcExtract.ByExtension(entries, []) == []
  {
    if t != [] {
      FilterCongruent(entries, SelectedIn(t), SrcExtract.RegisteredIn(t));
    }
    FilterCongruent(entries, SelectedIn([]), HasExtension());
    SrcExtract.EmptyRegistrySelectsNothing(entries);
  }

  /** The scan over the archive indices. */
  method SelectByExtension(entries: seq<string>, t: Table) returns (files: seq<string>)
    ensures files == ByExtension(entries, t)
  {
    files := [];
    var i := 0;
    while i < |entries|
      invariant 0 <= i <= |entries|
      invariant files == Filter(entries[..i], SelectedIn(t))
    {
      FilterSnoc(entries, i, SelectedIn(t));
      var ext := Extension(entries[i]);
      if ext.Some? && (HasKey(t, ext.value) || t == []) {
        files := files + [entries[i]];
      }
      i := i + 1;
    }
    assert entries[..i] == entries;
  }

  class Zip {
    var basePath: string
    /** "" while no name has been set. */
    var zipFileName: string
    /** The entries of the open archive, once `open` succeeded. */
    var archive: Option<seq<string>>
    var filesToExtract: seq<string>
    /** "" while unset. */
    var destinationDir: string
    /** "" while unset. */
    var tmpDestinationDir: string
    var greedy: bool
    var sameStructure: bool
    var mimeFiles: Table

    /** A PHP array never holds a key twice. */
    ghost predicate Valid()
      reads this
    {
      UniqueKeys(mimeFiles)
    }

    constructor Init(basePath: string, zipFileName: string, tmpDestinationDir: string, destinationDir: string)
      ensures this.basePath == basePath && this.zipFileName == zipFileName && archive == None
      ensures this.tmpDestinationDir == tmpDestinationDir && this.destinationDir == destinationDir
      ensures filesToExtract == [] && greedy && sameStructure
      ensures mimeFiles == DefaultMimeFiles && Valid()
    {
      this.basePath := basePath;
      this.zipFileName := zipFileName;
      archive := None;
      this.tmpDestinationDir := tmpDestinationDir;
      this.destinationDir := destinationDir;
      filesToExtract := [];
      greedy := true;
      sameStructure := true;
      mimeFiles := DefaultMimeFiles;
      DefaultKeysUnique();
    }

    /**
     * `new Zip($basePath, $fileName, $destinationDir, $tmpDestinationDir)`: an empty base
     * path throws; otherwise the base path is created when missing, and each given name is
     * stored below it, the temporary directory and then the destination created when missing.
     */
    static method New(fs: FileSystem, basePath: string, fileName: string, destinationDir: string, tmpDestinationDir: string)
      returns (r: Result<Zip>)
      modifies fs
      ensures Empty(basePath) ==> r == Throw(InvalidArgument(NoBasePathMessage)) && fs.vol == old(fs.vol)
      ensures !Empty(basePath) ==> r.Ok? && fresh(r.value)
      ensures r.Ok? ==>
        && r.value.basePath == basePath && r.value.archive == None && r.value.Valid()
        && r.value.zipFileName == (if Empty(fileName) then "" else basePath + "/" + fileName)
        && r.value.tmpDestinationDir == (if Empty(tmpDestinationDir) then "" else basePath + "/" + tmpDestinationDir)
        && r.value.destinationDir == (if Empty(destinationDir) then "" else basePath + "/" + destinationDir)
        && r.value.filesToExtract == [] && r.value.mimeFiles == DefaultMimeFiles
      ensures !Empty(basePath) ==>
        var v1 := AfterMkdir(old(fs.vol), basePath);
        var v2 := if Empty(tmpDestinationDir) then v1 else AfterMkdir(v1, basePath + "/" + tmpDestinationDir);
        fs.vol == if Empty(destinationDir) then v2 else AfterMkdir(v2, basePath + "/" + destinationDir)
    {
      if Empty(basePath) {
        return Throw(InvalidArgument(NoBasePathMessage));
      }
      if !Exists(fs.vol, basePath) {
        var made := fs.Mkdir(basePath);
      }
      var tmp := "";
      if !Empty(tmpDestinationDir) {
        tmp := basePath + "/" + tmpDestinationDir;
        if !Exists(fs.vol, tmp) {
          var made := fs.Mkdir(tmp);
        }
      }
      var dest := "";
      if !Empty(destinationDir) {
        dest := basePath + "/" + destinationDir;
        if !Exists(fs.vol, dest) {
          var made := fs.Mkdir(dest);
        }
      }
      var z := new Zip.Init(basePath, if Empty(fileName) then "" else basePath + "/" + fileName, tmp, dest);
      r := Ok(z);
    }

    /**
     * `open()`: the stored name goes to `ZipArchive::open` as it is, and a failure code is
     * explained by the nine-entry table. There is no guard for a missing name: `open('')`
     * returns `false`, which `getZipError` does not explain, so it throws with `false`
     * printed as the empty string.
     */
    method Open(opener: string -> OpenResult) returns (r: Outcome)
      modifies this
      ensures basePath == old(basePath) && zipFileName == old(zipFileName) && mimeFiles == old(mimeFiles)
      ensures filesToExtract == old(filesToExtract) && greedy == old(greedy) && sameStructure == old(sameStructure)
      ensures tmpDestinationDir == old(tmpDestinationDir) && destinationDir == old(destinationDir)
      ensures zipFileName == "" ==> r == Thrown(UnexpectedValue(ZipErrors.FalseErrorMessage)) && archive == old(archive)
      ensures zipFileName != "" ==>
        match opener(zipFileName)
        case Opened(es) => r == Done && archive == Some(es)
        case OpenFailed(code) => r == Thrown(VendorZip.OpenError(code)) && archive == old(archive)
    {
      if zipFileName == "" {
        return Thrown(UnexpectedValue(ZipErrors.FalseErrorMessage));
      }
      match opener(zipFileName)
      case Opened(es) =>
        archive := Some(es);
        r := Done;
      case OpenFailed(code) =>
        r := Thrown(VendorZip.OpenError(code));
    }

    /** `setFilesToExtract($file)`: one more name. */
    method SetFilesToExtract(file: string)
      modifies this
      ensures filesToExtract == old(filesToExtract) + [file]
      ensures mimeFiles == old(mimeFiles) && archive == old(archive) && greedy == old(greedy)
      ensures tmpDestinationDir == old(tmpDestinationDir) && destinationDir == old(destinationDir)
    {
      filesToExtract := filesToExtract + [file];
    }

    /** `setMimeFiles($key, $value)`: the key gets the rule, without any check. */
    method SetMimeFiles(key: string, rule: Rule)
      modifies this
      requires Valid()
      ensures mimeFiles == Put(old(mimeFiles), key, rule) && Valid()
      ensures Lookup(mimeFiles, key) == Some(rule)
      ensures forall k :: k != key ==> Lookup(mimeFiles, k) == Lookup(old(mimeFiles), k)
      ensures filesToExtract == old(filesToExtract) && archive == old(archive)
      ensures tmpDestinationDir == old(tmpDestinationDir) && destinationDir == old(destinationDir)
    {
      PutKeepsUnique(mimeFiles, key, rule);
      mimeFiles := Put(mimeFiles, key, rule);
    }

    /**
     * `getMimeFiles($flatArray)`: the registry, or every media type it holds in the order
     * `array_walk_recursive` meets them, repeats included.
     */
    function GetMimeFiles(flatArray: bool): (r: SrcMime.MimeFilesView)
      reads this
      ensures !flatArray ==> r == SrcMime.Nested(mimeFiles)
      ensures flatArray ==> r == SrcMime.Flat(Leaves(mimeFiles))
      ensures flatArray ==> r.Flat? && forall m :: m in r.mimes <==> exists i :: 0 <= i < |mimeFiles| && Accepts(mimeFiles[i].rule, m)
      ensures flatArray && mimeFiles == DefaultMimeFiles ==> |r.mimes| == 9 && !NoDuplicates(r.mimes)
    {
      if !flatArray then SrcMime.Nested(mimeFiles)
      else
        LeavesAcceptAll(mimeFiles);
        DefaultLeaves();
        SrcMime.Flat(Leaves(mimeFiles))
    }

    /**
     * `unsetMimeByValue($values)`: for each value in turn, what the search finds for it is
     * unset, as in the older `Mime` class.
     */
    method UnsetMimeByValue(values: seq<string>)
      modifies this
      requires Valid()
      ensures mimeFiles == VendorMime.UnsetValues(old(mimeFiles), values) && Valid()
      ensures filesToExtract == old(filesToExtract) && archive == old(archive)
      ensures tmpDestinationDir == old(tmpDestinationDir) && destinationDir == old(destinationDir)
    {
      var t := UnsetEach(mimeFiles, values);
      mimeFiles := t;
    }

    /** The loop of `unsetMimeByValue`, on the registry it starts from. */
    static method UnsetEach(t0: Table, values: seq<string>) returns (t: Table)
      requires UniqueKeys(t0)
      ensures t == VendorMime.UnsetValues(t0, values) && UniqueKeys(t)
    {
      t := t0;
      var i := 0;
      while i < |values|
        invariant i <= |values|
        invariant t == VendorMime.UnsetValues(t0, values[..i])
        invariant UniqueKeys(t)
      {
        assert values[..i + 1][..i] == values[..i];
        var found := ArrayKeysRecursive(t, values[i]);
        UnsetTreeKeepsUnique(t, found);
        t := UnsetSpecific(found, t);
        i := i + 1;
      }
      assert values[..i] == values;
    }

    /** `unsetAllMime()` */
    method UnsetAllMime()
      modifies this
      ensures mimeFiles == [] && Valid()
      ensures filesToExtract == old(filesToExtract) && archive == old(archive)
      ensures tmpDestinationDir == old(tmpDestinationDir) && destinationDir == old(destinationDir)
    {
      mimeFiles := [];
    }

    /**
     * `moveValidMime($moveFiles)` as a function of the volume before the call: no
     * destination throws, then no temporary directory throws; a non-empty list is moved
     * file by file, and an empty one walks the temporary directory (the tree below it).
     */
    function Moving(v: Volume, sniff: string -> string, clock: nat -> string, files: seq<string>, tree: seq<Entry>): Moves
      reads this
    {
      if Empty(destinationDir) then Moves(Throw(InvalidArgument(NoDestMessage)), v)
      else if Empty(tmpDestinationDir) then Moves(Throw(InvalidArgument(NoTmpMessage)), v)
      else if files != [] then
        var r := ListMove(v, tmpDestinationDir, destinationDir, mimeFiles, sniff, files);
        Moves(Ok(r.moved), r.vol)
      else
        var r := WalkMove(v, destinationDir, mimeFiles, sniff, Listing(tmpDestinationDir, tree), clock);
        Moves(Ok(r.moved), r.vol)
    }

    /** `moveValidMime($moveFiles)`; sniff stands for `finfo::file`, clock for `microtime(true)`. */
    method MoveValidMime(fs: FileSystem, sniff: string -> string, clock: nat -> string, files: seq<string>, tree: seq<Entry>)
      returns (r: Result<seq<Moved>>)
      modifies fs
      ensures Moves(r, fs.vol) == Moving(old(fs.vol), sniff, clock, files, tree)
    {
      if Empty(destinationDir) {
        return Throw(InvalidArgument(NoDestMessage));
      }
      if Empty(tmpDestinationDir) {
        return Throw(InvalidArgument(NoTmpMessage));
      }
      var moved;
      if files != [] {
        moved := MoveListed(fs, tmpDestinationDir, destinationDir, mimeFiles, sniff, files);
      } else {
        moved := MoveWalked(fs, destinationDir, mimeFiles, sniff, Listing(tmpDestinationDir, tree), clock);
      }
      r := Ok(moved);
    }

    /** The `foreach ($moveFiles as $file)` loop. */
    static method MoveListed(fs: FileSystem, tmp: string, dest: string, t: Table, sniff: string -> string, files: seq<string>)
      returns (moved: seq<Moved>)
      modifies fs
      ensures Run(fs.vol, moved) == ListMove(old(fs.vol), tmp, dest, t, sniff, files)
    {
      moved := [];
      var i := 0;
      while i < |files|
        invariant i <= |files|
        invariant Run(fs.vol, moved) == ListMove(old(fs.vol), tmp, dest, t, sniff, files[..i])
      {
        assert files[..i + 1][..i] == files[..i];
        var src := tmp + "/" + files[i];
        if Exists(fs.vol, src) && IsValidMime(t, sniff(src)).isValid {
          var made := fs.Mkdir(ListFolder(dest, files[i]));
          var copied := fs.Copy(src, ListTarget(dest, files[i]));
          if copied {
            moved := moved + [Moved(src, ListTarget(dest, files[i]))];
          }
        }
        i := i + 1;
      }
      assert files[..i] == files;
    }

    /** The `while ($it->valid())` loop over the walk of the temporary directory. */
    static method MoveWalked(fs: FileSystem, dest: string, t: Table, sniff: string -> string, paths: seq<string>, clock: nat -> string)
      returns (moved: seq<Moved>)
      modifies fs
      ensures Run(fs.vol, moved) == WalkMove(old(fs.vol), dest, t, sniff, paths, clock)
    {
      moved := [];
      var i := 0;
      while i < |paths|
        invariant i <= |paths|
        invariant Run(fs.vol, moved) == WalkMove(old(fs.vol), dest, t, sniff, paths[..i], clock)
      {
        assert paths[..i + 1][..i] == paths[..i];
        if IsValidMime(t, sniff(paths[i])).isValid {
          var target := WalkTarget(dest, paths[i], clock(i));
          var copied := fs.Copy(paths[i], target);
          if copied {
            moved := moved + [Moved(paths[i], target)];
          }
        }
        i := i + 1;
      }
      assert paths[..i] == paths;
    }

    /**
     * `extractByExtension()`: no temporary directory throws before anything happens;
     * otherwise the selected entries are appended to the files to extract, that whole list is
     * extracted into the temporary directory, and the directory is walked. Before `open`
     * nothing is selected and `extractTo` throws.
     */
    method ExtractByExtension(fs: FileSystem, sniff: string -> string, clock: nat -> string, tree: seq<Entry>)
      returns (r: Result<seq<Moved>>)
      modifies this, fs
      ensures tmpDestinationDir == old(tmpDestinationDir) && destinationDir == old(destinationDir)
      ensures mimeFiles == old(mimeFiles) && archive == old(archive)
      ensures Empty(tmpDestinationDir) ==>
        r == Throw(InvalidArgument(NoTmpMessage)) && fs.vol == old(fs.vol) && filesToExtract == old(filesToExtract)
      ensures !Empty(tmpDestinationDir) ==> filesToExtract == old(filesToExtract) + ByExtension(EntriesOf(archive), mimeFiles)
      ensures !Empty(tmpDestinationDir) && archive.None? ==>
        r == Throw(Error(NullCall("extractTo"))) && fs.vol == old(fs.vol)
      ensures !Empty(tmpDestinationDir) && archive.Some? ==>
        Moves(r, fs.vol) == Moving(Extracted(old(fs.vol), tmpDestinationDir, archive.value, filesToExtract), sniff, clock, [], tree)
    {
      if Empty(tmpDestinationDir) {
        return Throw(InvalidArgument(NoTmpMessage));
      }
      var selected := SelectByExtension(EntriesOf(archive), mimeFiles);
      filesToExtract := filesToExtract + selected;
      if archive.None? {
        return Throw(Error(NullCall("extractTo")));
      }
      ExtractTo(fs, tmpDestinationDir, archive.value, filesToExtract);
      r := MoveValidMime(fs, sniff, clock, [], tree);
    }

    /**
     * `extractSpecificsFiles()` as a function of the volume before the call: no destination
     * throws; the picked entries are staged and moved as a list when the structure is kept
     * (no temporary directory throws), and extracted straight into the destination otherwise,
     * where the media type test never removes one. Before `open`, `extractTo` throws.
     */
    function Specifying(v: Volume, sniff: string -> string, clock: nat -> string, tree: seq<Entry>): Reported
      reads this
    {
      var files := VendorExtract.GreedyPicks(EntriesOf(archive), filesToExtract, greedy);
      if Empty(destinationDir) then Reported(Throw(InvalidArgument(NoDestMessage)), v)
      else if sameStructure then
        if Empty(tmpDestinationDir) then Reported(Throw(InvalidArgument(NoTmpMessage)), v)
        else if archive.None? then Reported(Throw(Error(NullCall("extractTo"))), v)
        else
          var m := Moving(Extracted(v, tmpDestinationDir, archive.value, files), sniff, clock, files, tree);
          Reported(if m.result.Ok? then Ok(Pairs(m.result.value)) else Throw(m.result.exception), m.vol)
      else if archive.None? then Reported(Throw(Error(NullCall("extractTo"))), v)
      else Reported(Ok(Names(files)), Extracted(v, destinationDir, archive.value, files))
    }

    /** `extractSpecificsFiles()` */
    method ExtractSpecificsFiles(fs: FileSystem, sniff: string -> string, clock: nat -> string, tree: seq<Entry>)
      returns (r: Result<Report>)
      modifies fs
      ensures Reported(r, fs.vol) == Specifying(old(fs.vol), sniff, clock, tree)
    {
      if Empty(destinationDir) {
        return Throw(InvalidArgument(NoDestMessage));
      }
      var files := VendorExtract.SelectGreedy(EntriesOf(archive), filesToExtract, greedy);
      if sameStructure {
        if Empty(tmpDestinationDir) {
          return Throw(InvalidArgument(NoTmpMessage));
        }
        if archive.None? {
          return Throw(Error(NullCall("extractTo")));
        }
        ExtractTo(fs, tmpDestinationDir, archive.value, files);
        var moved := MoveValidMime(fs, sniff, clock, files, tree);
        r := if moved.Ok? then Ok(Pairs(moved.value)) else Throw(moved.exception);
      } else {
        if archive.None? {
          return Throw(Error(NullCall("extractTo")));
        }
        ExtractTo(fs, destinationDir, archive.value, files);
        r := Ok(Names(files));
      }
    }

    /**
     * `extractAllFiles()`: no destination throws, and `extractTo` throws on an archive that
     * was never opened; otherwise the whole archive is extracted there and the walk of the
     * destination (the tree below it afterwards) is returned.
     */
    method ExtractAllFiles(fs: FileSystem, tree: seq<Entry>) returns (r: Result<seq<string>>)
      modifies fs
      ensures Empty(destinationDir) ==> r == Throw(InvalidArgument(NoDestMessage)) && fs.vol == old(fs.vol)
      ensures !Empty(destinationDir) && archive.None? ==>
        r == Throw(Error(NullCall("extractTo"))) && fs.vol == old(fs.vol)
      ensures !Empty(destinationDir) && archive.Some? ==>
        r == Ok(Listing(destinationDir, tree)) && fs.vol == ExtractedAll(old(fs.vol), destinationDir, archive.value)
    {
      if Empty(destinationDir) {
        return Throw(InvalidArgument(NoDestMessage));
      }
      if archive.None? {
        return Throw(Error(NullCall("extractTo")));
      }
      ExtractTo(fs, destinationDir, archive.value, archive.value);
      r := Ok(Listing(destinationDir, tree));
    }
  }

  /** Whatever `moveValidMime` reports passed the acceptance test, and a throw leaves the volume alone. */
  lemma MovingReports(z: Zip, v: Volume, sniff: string -> string, clock: nat -> string, files: seq<string>, tree: seq<Entry>)
    ensures z.Moving(v, sniff, clock, files, tree).result.Throw? ==> z.Moving(v, sniff, clock, files, tree).vol == v
    ensures z.Moving(v, sniff, clock, files, tree).result.Ok? ==>
      AllPassed(z.mimeFiles, sniff, z.Moving(v, sniff, clock, files, tree).result.value)
  {
    if !Empty(z.destinationDir) && !Empty(z.tmpDestinationDir) {
      if files != [] {
        ListMoveReports(v, z.tmpDestinationDir, z.destinationDir, z.mimeFiles, sniff, files);
      } else {
        WalkMoveReports(v, z.destinationDir, z.mimeFiles, sniff, Listing(z.tmpDestinationDir, tree), clock);
      }
    }
  }

  /**
   * When nothing is picked (greedy off, say) and the structure is kept, the move gets an
   * empty list and walks the whole temporary directory, copying whatever passes there.
   */
  lemma NothingPickedWalksTmp(z: Zip, v: Volume, sniff: string -> string, clock: nat -> string, tree: seq<Entry>)
    requires z.archive.Some? && z.sameStructure
    requires !Empty(z.destinationDir) && !Empty(z.tmpDestinationDir)
    requires VendorExtract.GreedyPicks(z.archive.value, z.filesToExtract, z.greedy) == []
    ensures var w := WalkMove(v, z.destinationDir, z.mimeFiles, sniff, Listing(z.tmpDestinationDir, tree), clock);
      z.Specifying(v, sniff, clock, tree) == Reported(Ok(Pairs(w.moved)), w.vol)
  {
  }
}

=== FILE: naming.dfy ===
/**
 * The renaming both `Extract` classes apply when `sameName` is off: a suffix goes between
 * the file name and its extension.
 */
module Naming {
  import opened Php
  import opened Paths

  /** The suffix `addSuffix` inserts: the configured one, or the separator and a clock reading. */
  function EffectiveSuffix(suffix: string, separator: string, clock: string): string
  {
    if Empty(suffix) then separator + clock else suffix
  }

  /**
   * `addSuffix($file)`: `filename`, the suffix, '.', and `extension` (empty when the name
   * has none). The clock stands for what `microtime(true)` prints.
   */
  function AddSuffix(file: string, suffix: string, separator: string, clock: string): string
  {
    FileName(file) + EffectiveSuffix(suffix, separator, clock) + "." + ExtensionOrEmpty(file)
  }

  /**
   * A suffix without '/' leaves the extension of a name that has one in place, and is
   * exactly what is added to the file name.
   */
  lemma AddSuffixKeepsExtension(file: string, suffix: string, separator: string, clock: string)
    requires Extension(file).Some?
    requires '/' !in EffectiveSuffix(suffix, separator, clock)
    ensures Extension(AddSuffix(file, suffix, separator, clock)) == Extension(file)
    ensures FileName(AddSuffix(file, suffix, separator, clock)) == FileName(file) + EffectiveSuffix(suffix, separator, clock)
  {
    ExtensionOfDotted(FileName(file) + EffectiveSuffix(suffix, separator, clock), Extension(file).value);
  }

  /** A name without extension gets one that is empty. */
  lemma AddSuffixWithoutExtension(file: string, suffix: string, separator: string, clock: string)
    requires Extension(file).None?
    requires '/' !in EffectiveSuffix(suffix, separator, clock)
    ensures Extension(AddSuffix(file, suffix, separator, clock)) == Some("")
    ensures FileName(AddSuffix(file, suffix, separator, clock)) == FileName(file) + EffectiveSuffix(suffix, separator, clock)
  {
    ExtensionOfDotted(FileName(file) + EffectiveSuffix(suffix, separator, clock), "");
  }

  /** `setSuffix($suffix, $separator)`: the stored suffix, the current separator standing in for an empty one. */
  function StoredSuffix(suffix: string, separator: string, current: string): string
  {
    (if Empty(separator) then current else separator) + suffix
  }
}

=== FILE: paths.dfy ===
/**
 * PHP's path helpers as the library uses them: `basename`, `dirname` and `pathinfo`
 * (its `filename` and `extension` parts), on '/'-separated paths.
 */
module Paths {
  import opened Php

  /** Position of the last occurrence of c in s. */
  function LastIndexOf(s: string, c: char): (r: Option<nat>)
    ensures r.Some? ==> r.value < |s| && s[r.value] == c && c !in s[r.value + 1..]
    ensures r.None? ==> c !in s
  {
    if s == [] then None
    else if s[|s| - 1] == c then Some(|s| - 1)
    else
      var r := LastIndexOf(s[..|s| - 1], c);
      assert s == s[..|s| - 1] + [s[|s| - 1]];
      if r.Some? then
        assert s[r.value + 1..] == s[..|s| - 1][r.value + 1..] + [s[|s| - 1]];
        r
      else r
  }

  /** `rtrim($s, c)`: s without its trailing run of c. */
  function TrimRight(s: string, c: char): (r: string)
    ensures StartsWith(s, r)
    ensures r == [] || r[|r| - 1] != c
  {
    if s == [] || s[|s| - 1] != c then s
    else
      var r := TrimRight(s[..|s| - 1], c);
      assert s[..|s| - 1][..|r|] == s[..|r|];
      r
  }

  /** What `rtrim` drops is made of c only. */
  lemma {:induction false} TrimRightDropsOnly(s: string, c: char)
    ensures forall i :: |TrimRight(s, c)| <= i < |s| ==> s[i] == c
  {
    if s != [] && s[|s| - 1] == c {
      TrimRightDropsOnly(s[..|s| - 1], c);
    }
  }

  /** `ltrim($s, c)`: s without its leading run of c. */
  function TrimLeft(s: string, c: char): (r: string)
    ensures r == [] || r[0] != c
    ensures |r| <= |s| && r == s[|s| - |r|..]
  {
    if s == [] || s[0] != c then s else TrimLeft(s[1..], c)
  }

  /** What `ltrim` drops is made of c only. */
  lemma {:induction false} TrimLeftDropsOnly(s: string, c: char)
    ensures forall i :: 0 <= i < |s| - |TrimLeft(s, c)| ==> s[i] == c
  {
    if s != [] && s[0] == c {
      TrimLeftDropsOnly(s[1..], c);
      forall i | 1 <= i < |s| - |TrimLeft(s, c)|
        ensures s[i] == c
      {
        assert s[i] == s[1..][i - 1];
      }
    }
  }

  /** The characters of s other than the separators '/' and '+', in order. */
  function Plain(s: string): string
  {
    if s == [] then []
    else (if s[0] == '/' || s[0] == '+' then [] else [s[0]]) + Plain(s[1..])
  }

  /** No two '/' in a row. */
  predicate SingleSlashes(s: string)
  {
    forall i :: 0 <= i < |s| - 1 ==> !(s[i] == '/' && s[i + 1] == '/')
  }

  lemma {:induction false} PlainTrimLeft(s: string)
    ensures Plain(TrimLeft(s, '/')) == Plain(s)
  {
    if s != [] && s[0] == '/' {
      PlainTrimLeft(s[1..]);
    }
  }

  /**
   * `preg_replace` of the pattern `(\+)|(/+)` by '/': each '+' becomes '/', each run of '/' becomes
   * one '/', every other character is kept in place.
   */
  function ReplaceSeparators(s: string): (r: string)
    ensures '+' !in r
    ensures Plain(r) == Plain(s)
    ensures |r| <= |s| && (r == [] <==> s == [])
    ensures r != [] && r[0] == '/' <==> s != [] && (s[0] == '/' || s[0] == '+')
    ensures '+' !in s ==> SingleSlashes(r)
    decreases |s|
  {
    if s == [] then []
    else if s[0] == '+' then
      "/" + ReplaceSeparators(s[1..])
    else if s[0] == '/' then
      var t := TrimLeft(s[1..], '/');
      var rest := ReplaceSeparators(t);
      PlainTrimLeft(s[1..]);
      assert '+' !in s ==> '+' !in t;
      "/" + rest
    else
      [s[0]] + ReplaceSeparators(s[1..])
  }

  /** A character other than a separator is kept in front of what follows. */
  lemma ReplaceSeparatorsKeeps(c: char, rest: string)
    requires c != '/' && c != '+'
    ensures ReplaceSeparators([c] + rest) == [c] + ReplaceSeparators(rest)
  {
    assert ([c] + rest)[1..] == rest;
  }

  /** A string ending in '/' still ends in '/' once separators are replaced. */
  lemma {:induction false} ReplaceSeparatorsEndsInSlash(s: string)
    requires s != [] && s[|s| - 1] == '/'
    ensures var r := ReplaceSeparators(s); r != [] && r[|r| - 1] == '/'
    decreases |s|
  {
    if s[0] == '+' {
      if |s| > 1 {
        assert s[1..][|s| - 2] == '/';
        ReplaceSeparatorsEndsInSlash(s[1..]);
      }
    } else if s[0] == '/' {
      var t := TrimLeft(s[1..], '/');
      if t != [] {
        assert t[|t| - 1] == s[|s| - 1];
        ReplaceSeparatorsEndsInSlash(t);
      }
    } else {
      assert s[1..][|s| - 2] == '/';
      ReplaceSeparatorsEndsInSlash(s[1..]);
    }
  }

  /** `basename()`: the last component, after trailing slashes are dropped. */
  function BaseName(path: string): (r: string)
    ensures '/' !in r
  {
    var t := TrimRight(path, '/');
    match LastIndexOf(t, '/')
    case None => t
    case Some(i) => t[i + 1..]
  }

  /** `dirname()`: what precedes the last component; "." for a bare name, "/" at the root. */
  function DirName(path: string): string
  {
    if path == "" then ""
    else
      var t := TrimRight(path, '/');
      if t == "" then "/"
      else match LastIndexOf(t, '/')
        case None => "."
        case Some(i) => var d := TrimRight(t[..i], '/'); if d == "" then "/" else d
  }

  /** `pathinfo()['extension']`: the text after the last '.' of the base name, absent when it has none. */
  function Extension(path: string): (r: Option<string>)
    ensures r.Some? ==> '.' !in r.value && '/' !in r.value
    ensures r.None? <==> '.' !in BaseName(path)
  {
    var b := BaseName(path);
    match LastIndexOf(b, '.')
    case None => None
    case Some(i) => Some(b[i + 1..])
  }

  /** `pathinfo()['filename']`: the base name without its last ".extension". */
  function FileName(path: string): (r: string)
    ensures '/' !in r
  {
    var b := BaseName(path);
    match LastIndexOf(b, '.')
    case None => b
    case Some(i) => b[..i]
  }

  /**
   * `SplFileInfo::getExtension()` and `pathinfo($p, PATHINFO_EXTENSION)`; also what
   * `$pathInfo['extension']` yields when the key is missing (null, concatenated as "").
   */
  function ExtensionOrEmpty(path: string): string
  {
    match Extension(path)
    case None => ""
    case Some(e) => e
  }

  /** filename, '.' and extension put back together give the base name. */
  lemma FileNameAndExtension(path: string)
    ensures Extension(path).Some? ==> FileName(path) + "." + Extension(path).value == BaseName(path)
    ensures Extension(path).None? ==> FileName(path) == BaseName(path)
  {
    var b := BaseName(path);
    match LastIndexOf(b, '.')
    case None =>
    case Some(i) =>
      assert b == b[..i] + "." + b[i + 1..];
  }

  /** The last occurrence is the one with no further occurrence after it. */
  lemma {:induction false} LastIndexOfUnique(s: string, c: char, i: nat)
    requires i < |s| && s[i] == c && c !in s[i + 1..]
    ensures LastIndexOf(s, c) == Some(i)
  {
    if i < |s| - 1 {
      var init := s[..|s| - 1];
      assert s[|s| - 1] == s[i + 1..][|s| - 1 - (i + 1)];
      assert init[i + 1..] == s[i + 1..|s| - 1];
      LastIndexOfUnique(init, c, i);
    }
  }

  /** The extension of a name that ends in ".e" (e free of '.' and '/') is e. */
  lemma ExtensionOfDotted(stem: string, e: string)
    requires '.' !in e && '/' !in e && '/' !in stem
    ensures Extension(stem + "." + e) == Some(e)
    ensures FileName(stem + "." + e) == stem
  {
    var p := stem + "." + e;
    assert '/' !in p;
    assert TrimRight(p, '/') == p;
    assert BaseName(p) == p;
    var k := |stem|;
    assert p[k] == '.' && p[k + 1..] == e && p[..k] == stem;
    LastIndexOfUnique(p, '.', k);
  }
}

=== FILE: php.dfy ===
/** The parts of PHP's value model that every version of the library relies on. */
module Php {

  datatype Option<+T> = None | Some(value: T)

  /**
   * The exception classes the library throws, each with its message. `Error` is what PHP
   * itself throws for a call to a method that no class defines.
   */
  datatype Exception =
    | InvalidArgument(message: string)
    | Runtime(message: string)
    | UnexpectedValue(message: string)
    | Error(message: string)

  /** The outcome of a PHP call that either returns a value or throws. */
  datatype Result<+T> = Ok(value: T) | Throw(exception: Exception)

  /** The outcome of a PHP call that returns nothing of interest or throws. */
  datatype Outcome = Done | Thrown(exception: Exception)

  /** PHP's `empty()` on a string: true for "" and also for "0". */
  predicate Empty(s: string)
  {
    s == "" || s == "0"
  }

  predicate StartsWith(s: string, prefix: string)
  {
    |prefix| <= |s| && s[..|prefix|] == prefix
  }

  predicate NoDuplicates<T(==)>(s: seq<T>)
  {
    forall i, j :: 0 <= i < j < |s| ==> s[i] != s[j]
  }

  function DigitChar(d: nat): (c: char)
    requires d < 10
    ensures '0' <= c <= '9'
  {
    "0123456789"[d]
  }

  function Digits(n: nat): (r: string)
    ensures |r| > 0
    ensures forall i :: 0 <= i < |r| ==> '0' <= r[i] <= '9'
    decreases n
  {
    if n < 10 then [DigitChar(n)] else Digits(n / 10) + [DigitChar(n % 10)]
  }

  /** The decimal text PHP produces when an integer is concatenated to a string. */
  function IntToString(n: int): (r: string)
    ensures |r| > 0
    ensures r[0] == '-' <==> n < 0
  {
    if n < 0 then "-" + Digits(-n) else Digits(n)
  }

  /** A prefix shared by two strings makes one of the two prefixes a prefix of the other. */
  lemma PrefixesOfOneString(s: string, a: string, b: string)
    requires StartsWith(s, a) && StartsWith(s, b)
    ensures StartsWith(a, b) || StartsWith(b, a)
  {
    if |a| <= |b| {
      assert b[..|a|] == s[..|a|];
    } else {
      assert a[..|b|] == s[..|b|];
    }
  }

  lemma StartsWithConcat(a: string, b: string)
    ensures StartsWith(a + b, a)
  {
    assert (a + b)[..|a|] == a;
  }

  lemma NoDuplicatesCons<T>(x: T, s: seq<T>)
    ensures NoDuplicates([x] + s) <==> x !in s && NoDuplicates(s)
  {
    var c := [x] + s;
    if x in s {
      var j :| 0 <= j < |s| && s[j] == x;
      assert c[0] == c[j + 1];
    }
    if !NoDuplicates(s) {
      var i, j :| 0 <= i < j < |s| && s[i] == s[j];
      assert c[i + 1] == c[j + 1];
    }
  }

  lemma NoDuplicatesSnoc<T>(s: seq<T>, x: T)
    ensures NoDuplicates(s + [x]) <==> x !in s && NoDuplicates(s)
  {
    var c := s + [x];
    if x in s {
      var j :| 0 <= j < |s| && s[j] == x;
      assert c[j] == c[|s|];
    }
    if !NoDuplicates(s) {
      var i, j :| 0 <= i < j < |s| && s[i] == s[j];
      assert c[i] == c[j];
    }
  }
}

=== FILE: registry.dfy ===
/**
 * The media-type registry every version keeps: a PHP array from extension to
 * either one media type or a list of media types, in insertion order.
 */
module Registry {
  import opened Php
  import opened Seqs

  /** The value stored under an extension. */
  datatype Rule = Single(mime: string) | Many(mimes: seq<string>)

  datatype Binding = Binding(ext: string, rule: Rule)

  /** An ordered PHP array keyed by extension. */
  type Table = seq<Binding>

  function Keys(t: Table): seq<string>
  {
    seq(|t|, i requires 0 <= i < |t| => t[i].ext)
  }

  /** `array_key_exists($k, $t)` */
  predicate HasKey(t: Table, k: string)
  {
    k in Keys(t)
  }

  /** A PHP array never holds the same key twice. */
  predicate UniqueKeys(t: Table)
  {
    NoDuplicates(Keys(t))
  }

  /** The media types a rule holds, in order. */
  function Values(rule: Rule): seq<string>
  {
    match rule
    case Single(m) => [m]
    case Many(ms) => ms
  }

  /** PHP's `empty()` on a rule: an empty-ish string or an empty list. */
  predicate RuleEmpty(rule: Rule)
  {
    match rule
    case Single(m) => Empty(m)
    case Many(ms) => ms == []
  }

  /** `in_array($m, $list)` for a list rule, `$m == $rule` for a string rule. */
  predicate Accepts(rule: Rule, m: string)
  {
    match rule
    case Single(x) => m == x
    case Many(xs) => m in xs
  }

  lemma AcceptsValues(rule: Rule, m: string)
    ensures Accepts(rule, m) <==> m in Values(rule)
  {
  }

  /** `$t[$k]`, for a key that may be missing. */
  function Lookup(t: Table, k: string): (r: Option<Rule>)
    ensures r.None? <==> !HasKey(t, k)
  {
    if t == [] then None
    else if t[0].ext == k then
      assert Keys(t)[0] == k;
      Some(t[0].rule)
    else
      assert Keys(t) == [t[0].ext] + Keys(t[1..]);
      Lookup(t[1..], k)
  }

  /** What a lookup finds is a binding of the table. */
  lemma {:induction false} LookupFound(t: Table, k: string)
    ensures Lookup(t, k).Some? ==> Binding(k, Lookup(t, k).value) in t
  {
    if t != [] && t[0].ext != k {
      LookupFound(t[1..], k);
    }
  }

  lemma KeysAppend(t: Table, u: Table)
    ensures Keys(t + u) == Keys(t) + Keys(u)
  {
  }

  /** A binding appended to a table keeps its keys unique iff its key is new. */
  lemma UniqueKeysSnoc(t: Table, b: Binding)
    ensures UniqueKeys(t + [b]) <==> UniqueKeys(t) && !HasKey(t, b.ext)
  {
    KeysAppend(t, [b]);
    assert Keys([b]) == [b.ext];
    NoDuplicatesSnoc(Keys(t), b.ext);
  }

  lemma LookupSingle(b: Binding, k: string)
    ensures Lookup([b], k) == if b.ext == k then Some(b.rule) else None
  {
    assert Keys([b]) == [b.ext];
  }

  /** Looking a key up in a concatenation looks in the first part first. */
  lemma {:induction false} LookupAppend(t: Table, u: Table, k: string)
    ensures Lookup(t + u, k) == if HasKey(t, k) then Lookup(t, k) else Lookup(u, k)
  {
    KeysAppend(t, u);
    if t == [] {
      assert t + u == u;
    } else {
      assert (t + u)[1..] == t[1..] + u;
      assert Keys(t) == [t[0].ext] + Keys(t[1..]);
      LookupAppend(t[1..], u, k);
    }
  }

  /** In a table with unique keys, the binding of k found at any position is its lookup. */
  lemma {:induction false} LookupAt(t: Table, i: nat)
    requires UniqueKeys(t) && i < |t|
    ensures Lookup(t, t[i].ext) == Some(t[i].rule)
  {
    if i > 0 {
      assert Keys(t)[0] != Keys(t)[i];
      assert Keys(t[1..]) == Keys(t)[1..];
      assert t[1..][i - 1] == t[i];
      LookupAt(t[1..], i - 1);
    }
  }

  lemma KeysCons(b: Binding, t: Table)
    ensures Keys([b] + t) == [b.ext] + Keys(t)
  {
  }

  /** Looking a key up in a table with one more binding in front. */
  lemma LookupCons(b: Binding, t: Table)
    ensures forall k :: Lookup([b] + t, k) == if b.ext == k then Some(b.rule) else Lookup(t, k)
  {
    forall k
      ensures Lookup([b] + t, k) == if b.ext == k then Some(b.rule) else Lookup(t, k)
    {
      assert ([b] + t)[1..] == t;
    }
  }

  /** `$t[$k] = $rule`: an existing key keeps its position, a new key goes last. */
  function Put(t: Table, k: string, rule: Rule): (r: Table)
    ensures Lookup(r, k) == Some(rule)
    ensures forall k' :: k' != k ==> Lookup(r, k') == Lookup(t, k')
    ensures Keys(r) == if HasKey(t, k) then Keys(t) else Keys(t) + [k]
  {
    if t == [] then
      LookupCons(Binding(k, rule), []);
      KeysCons(Binding(k, rule), []);
      [Binding(k, rule)] + []
    else
      assert t == [t[0]] + t[1..];
      KeysCons(t[0], t[1..]);
      LookupCons(t[0], t[1..]);
      if t[0].ext == k then
        KeysCons(Binding(k, rule), t[1..]);
        LookupCons(Binding(k, rule), t[1..]);
        [Binding(k, rule)] + t[1..]
      else
        var rest := Put(t[1..], k, rule);
        KeysCons(t[0], rest);
        LookupCons(t[0], rest);
        AppendAssoc([t[0].ext], Keys(t[1..]), [k]);
        [t[0]] + rest
  }

  lemma PutKeepsUnique(t: Table, k: string, rule: Rule)
    requires UniqueKeys(t)
    ensures UniqueKeys(Put(t, k, rule))
  {
  }

  /** The `foreach ($mimes as $k => $m) $t[$k] = $m;` merge, one binding after another. */
  function PutAll(t: Table, m: Table): Table
  {
    if m == [] then t
    else Put(PutAll(t, m[..|m| - 1]), m[|m| - 1].ext, m[|m| - 1].rule)
  }

  /** After the merge a key given in m has m's rule; every other key keeps its old rule. */
  lemma {:induction false} LookupPutAll(t: Table, m: Table, k: string)
    requires UniqueKeys(m)
    ensures Lookup(PutAll(t, m), k) == if HasKey(m, k) then Lookup(m, k) else Lookup(t, k)
  {
    if m != [] {
      var init, last := m[..|m| - 1], m[|m| - 1];
      LookupLast(m, k);
      LookupPutAll(t, init, k);
      assert PutAll(t, m) == Put(PutAll(t, init), last.ext, last.rule);
    }
  }

  /** The last binding of a table with unique keys decides the lookup of its own key only. */
  lemma LookupLast(m: Table, k: string)
    requires UniqueKeys(m) && m != []
    ensures var init, last := m[..|m| - 1], m[|m| - 1];
      UniqueKeys(init) &&
      (HasKey(m, k) <==> HasKey(init, k) || k == last.ext) &&
      Lookup(m, k) == if k == last.ext then Some(last.rule) else Lookup(init, k)
  {
    var init, last := m[..|m| - 1], m[|m| - 1];
    assert m == init + [last];
    UniqueKeysSnoc(init, last);
    KeysAppend(init, [last]);
    assert Keys([last]) == [last.ext];
    LookupAppend(init, [last], k);
  }

  lemma {:induction false} PutAllKeepsUnique(t: Table, m: Table)
    requires UniqueKeys(t)
    ensures UniqueKeys(PutAll(t, m))
  {
    if m != [] {
      PutAllKeepsUnique(t, m[..|m| - 1]);
      PutKeepsUnique(PutAll(t, m[..|m| - 1]), m[|m| - 1].ext, m[|m| - 1].rule);
    }
  }

  /** `unset($t[$k])`: the binding of k goes, the others keep their order. */
  function RemoveKey(t: Table, k: string): (r: Table)
    ensures !HasKey(r, k)
    ensures forall k' :: k' != k ==> Lookup(r, k') == Lookup(t, k')
    ensures forall k' :: HasKey(r, k') ==> HasKey(t, k')
    ensures !HasKey(t, k) ==> r == t
  {
    if t == [] then []
    else
      var rest := RemoveKey(t[1..], k);
      assert Keys(t) == [t[0].ext] + Keys(t[1..]);
      if t[0].ext == k then rest
      else
        assert Keys([t[0]] + rest) == [t[0].ext] + Keys(rest);
        assert forall k' :: HasKey([t[0]] + rest, k') ==> k' == t[0].ext || HasKey(rest, k');
        [t[0]] + rest
  }

  lemma {:induction false} RemoveKeyKeepsUnique(t: Table, k: string)
    requires UniqueKeys(t)
    ensures UniqueKeys(RemoveKey(t, k))
  {
    if t != [] {
      var rest := RemoveKey(t[1..], k);
      assert Keys(t) == [t[0].ext] + Keys(t[1..]);
      NoDuplicatesCons(t[0].ext, Keys(t[1..]));
      RemoveKeyKeepsUnique(t[1..], k);
      if t[0].ext != k {
        assert Keys([t[0]] + rest) == [t[0].ext] + Keys(rest);
        assert !HasKey(rest, t[0].ext) by {
          assert Lookup(rest, t[0].ext) == Lookup(t[1..], t[0].ext);
        }
        NoDuplicatesCons(t[0].ext, Keys(rest));
      }
    }
  }

  /** `unset` of each listed key that is present, in list order. */
  function RemoveKeys(t: Table, ks: seq<string>): Table
  {
    if ks == [] then t else RemoveKey(RemoveKeys(t, ks[..|ks| - 1]), ks[|ks| - 1])
  }

  lemma RemoveKeysSnoc(t: Table, ks: seq<string>, i: nat)
    requires i < |ks|
    ensures RemoveKeys(t, ks[..i + 1]) == RemoveKey(RemoveKeys(t, ks[..i]), ks[i])
  {
    assert ks[..i + 1][..i] == ks[..i];
  }

  /** After removing a list of keys, exactly the listed keys are gone and the rest look up as before. */
  lemma {:induction false} LookupRemoveKeys(t: Table, ks: seq<string>, k: string)
    ensures Lookup(RemoveKeys(t, ks), k) == if k in ks then None else Lookup(t, k)
  {
    if ks != [] {
      var init := ks[..|ks| - 1];
      assert ks == init + [ks[|ks| - 1]];
      LookupRemoveKeys(t, init, k);
    }
  }

  /** The media types in the order `array_walk_recursive` visits them. */
  function Leaves(t: Table): seq<string>
  {
    if t == [] then []
    else Leaves(t[..|t| - 1]) + Values(t[|t| - 1].rule)
  }

  /** The media types `array_walk_recursive` visits are exactly those some binding holds. */
  lemma {:induction false} LeavesMembers(t: Table, m: string)
    ensures m in Leaves(t) <==> exists i :: 0 <= i < |t| && m in Values(t[i].rule)
  {
    if t != [] {
      var init, last := t[..|t| - 1], t[|t| - 1];
      LeavesMembers(init, m);
      assert forall i :: 0 <= i < |init| ==> init[i] == t[i];
      if m in Values(last.rule) {
        assert m in Leaves(t);
      } else if m in Leaves(init) {
        var i :| 0 <= i < |init| && m in Values(init[i].rule);
        assert m in Values(t[i].rule);
      } else {
        assert m !in Leaves(t);
      }
    }
  }

  lemma LeavesSnoc(t: Table, i: nat)
    requires i < |t|
    ensures Leaves(t[..i + 1]) == Leaves(t[..i]) + Values(t[i].rule)
  {
    assert t[..i + 1][..i] == t[..i];
  }

  /** `explode(';', $s)[0]`: the media type without its parameters. */
  function MediaType(s: string): (r: string)
    ensures ';' !in r && StartsWith(s, r)
    ensures |r| < |s| ==> s[|r|] == ';'
  {
    if s == [] || s[0] == ';' then []
    else
      var r := MediaType(s[1..]);
      [s[0]] + r
  }
}

=== FILE: relocation.dfy ===
/**
 * What `moveValidFiles` of the current `Extract` does to the file system, one listed file
 * at a time: a file staged below the temporary directory whose media type is accepted is
 * copied (or, for a directory, created) below the destination directory.
 */
module Relocation {
  import opened Php
  import opened Seqs
  import opened Paths
  import opened Registry
  import opened Disk
  import opened Naming
  import opened SrcMime

  /** The `Extract` settings `moveValidFiles` reads. */
  datatype Plan = Plan(
    tmp: string,
    dest: string,
    sameStructure: bool,
    sameName: bool,
    overwrite: bool,
    suffix: string,
    separator: string)

  /** The state of `Mime` that `isValidMime` reads, and the content sniffer. */
  datatype Check = Check(validate: bool, mimeFiles: Table, sniff: string -> string)

  /** Where the listed file was extracted to. */
  function Staged(p: Plan, file: string): string
  {
    p.tmp + "/" + file
  }

  /** The staged file exists and its media type is accepted. */
  predicate Admitted(v: Volume, p: Plan, c: Check, file: string)
  {
    Exists(v, Staged(p, file)) &&
    IsValidMime(c.validate, c.mimeFiles, Staged(p, file), c.sniff(Staged(p, file)))
  }

  /** The directory the file goes to: the destination, or its sub-directory mirroring the entry's. */
  function TargetDir(p: Plan, file: string): string
  {
    if p.sameStructure then p.dest + "/" + DirName(file) + "/" else p.dest + "/"
  }

  /** The name the file gets there: its base name, suffixed unless `sameName`. */
  function TargetName(p: Plan, file: string, stamp: string): string
  {
    if p.sameName then BaseName(file) else AddSuffix(BaseName(file), p.suffix, p.separator, stamp)
  }

  function Target(p: Plan, file: string, stamp: string): string
  {
    TargetDir(p, file) + TargetName(p, file, stamp)
  }

  /** With `sameStructure` the target directory is created when missing. */
  function Prepared(v: Volume, p: Plan, file: string): Volume
  {
    if p.sameStructure then AfterMkdir(v, TargetDir(p, file)) else v
  }

  /** The volume after one file, and the path reported for it, if any. */
  datatype Step = Step(vol: Volume, moved: Option<string>)

  /**
   * The copy-or-create decision for a staged path src and its target dst: a file is copied
   * when the target is new, or when `overwrite` is on and the target is writable; a
   * directory is created when missing, and reported when it already exists only with
   * `overwrite` on.
   */
  function Place(w: Volume, src: string, dst: string, overwrite: bool): Step
  {
    if IsFile(w, src) && (!Exists(w, dst) || (overwrite && IsWritable(w, dst))) && CanCopy(w, src, dst) then
      Step(AfterCopy(w, src, dst), Some(dst))
    else if IsDir(w, src) && !Exists(w, dst) then
      Step(AfterMkdir(w, dst), Some(dst))
    else if IsDir(w, src) && Exists(w, dst) && overwrite then
      Step(w, Some(dst))
    else
      Step(w, None)
  }

  /** One turn of the loop: an admitted file is placed at its target. */
  function MoveOne(v: Volume, p: Plan, c: Check, file: string, stamp: string): Step
  {
    if !Admitted(v, p, c, file) then Step(v, None)
    else Place(Prepared(v, p, file), Staged(p, file), Target(p, file, stamp), p.overwrite)
  }

  function Reported(o: Option<string>): seq<string>
  {
    if o.Some? then [o.value] else []
  }

  /** The volume after the whole list, and the paths reported, in list order. */
  datatype Progress = Progress(vol: Volume, moved: seq<string>)

  /** The loop over the list; the clock gives the time token of the i-th turn. */
  function MoveAll(v: Volume, p: Plan, c: Check, files: seq<string>, clock: nat -> string): Progress
    decreases |files|
  {
    if files == [] then Progress(v, [])
    else
      var n := |files| - 1;
      var before := MoveAll(v, p, c, files[..n], clock);
      var step := MoveOne(before.vol, p, c, files[n], clock(n));
      Progress(step.vol, before.moved + Reported(step.moved))
  }

  /** The targets of the listed files that are admitted in v, in list order. */
  function Planned(v: Volume, p: Plan, c: Check, files: seq<string>, clock: nat -> string): seq<string>
    decreases |files|
  {
    if files == [] then []
    else
      var n := |files| - 1;
      Planned(v, p, c, files[..n], clock) + (if Admitted(v, p, c, files[n]) then [Target(p, files[n], clock(n))] else [])
  }

  /** Neither of the two directories lies inside the other. */
  predicate Apart(p: Plan)
  {
    !StartsWith(p.tmp + "/", p.dest + "/") && !StartsWith(p.dest + "/", p.tmp + "/")
  }

  lemma TargetsUnderDest(p: Plan, file: string, stamp: string)
    ensures StartsWith(TargetDir(p, file), p.dest + "/")
    ensures StartsWith(Target(p, file, stamp), p.dest + "/")
  {
    var d := p.dest + "/";
    var x := if p.sameStructure then DirName(file) + "/" else "";
    var n := TargetName(p, file, stamp);
    assert TargetDir(p, file) == d + x by {
      if p.sameStructure {
        AppendAssoc(d, DirName(file), "/");
      } else {
        assert d + "" == d;
      }
    }
    AppendAssoc(d, x, n);
    StartsWithConcat(d, x);
    StartsWithConcat(d, x + n);
  }

  /** Placing changes nothing but the target. */
  lemma PlaceOnlyTarget(w: Volume, src: string, dst: string, overwrite: bool, x: string)
    requires x != dst
    ensures (x in Place(w, src, dst, overwrite).vol.nodes <==> x in w.nodes)
    ensures x in w.nodes ==> Place(w, src, dst, overwrite).vol.nodes[x] == w.nodes[x]
  {
  }

  /** A path outside the destination directory is left as it was by one turn. */
  lemma MoveOneOutsideDest(v: Volume, p: Plan, c: Check, file: string, stamp: string, x: string)
    requires !StartsWith(x, p.dest + "/")
    ensures (x in MoveOne(v, p, c, file, stamp).vol.nodes <==> x in v.nodes)
    ensures x in v.nodes ==> MoveOne(v, p, c, file, stamp).vol.nodes[x] == v.nodes[x]
  {
    if Admitted(v, p, c, file) {
      TargetsUnderDest(p, file, stamp);
      var w := Prepared(v, p, file);
      assert x in w.nodes <==> x in v.nodes;
      assert x in v.nodes ==> w.nodes[x] == v.nodes[x];
      PlaceOnlyTarget(w, Staged(p, file), Target(p, file, stamp), p.overwrite, x);
    }
  }

  /** Nothing outside the destination directory changes. */
  lemma {:induction false} MoveAllOutsideDest(v: Volume, p: Plan, c: Check, files: seq<string>, clock: nat -> string, x: string)
    requires !StartsWith(x, p.dest + "/")
    ensures (x in MoveAll(v, p, c, files, clock).vol.nodes <==> x in v.nodes)
    ensures x in v.nodes ==> MoveAll(v, p, c, files, clock).vol.nodes[x] == v.nodes[x]
    decreases |files|
  {
    if files != [] {
      var n := |files| - 1;
      MoveAllOutsideDest(v, p, c, files[..n], clock, x);
      MoveOneOutsideDest(MoveAll(v, p, c, files[..n], clock).vol, p, c, files[n], clock(n), x);
    }
  }

  /** With the directories apart, whether a file is admitted does not change along the loop. */
  lemma AdmittedStable(v: Volume, p: Plan, c: Check, done: seq<string>, clock: nat -> string, file: string)
    requires Apart(p)
    ensures Admitted(MoveAll(v, p, c, done, clock).vol, p, c, file) == Admitted(v, p, c, file)
  {
    var s := Staged(p, file);
    StartsWithConcat(p.tmp + "/", file);
    assert s == (p.tmp + "/") + file;
    if StartsWith(s, p.dest + "/") {
      PrefixesOfOneString(s, p.tmp + "/", p.dest + "/");
      assert false;
    }
    MoveAllOutsideDest(v, p, c, done, clock, s);
  }

  /**
   * The reported paths are the targets of admitted files, in list order, each at most
   * once: a subsequence of the plan made before the loop.
   */
  lemma {:induction false} MoveAllReportsPlanned(v: Volume, p: Plan, c: Check, files: seq<string>, clock: nat -> string)
    requires Apart(p)
    ensures IsSubsequence(MoveAll(v, p, c, files, clock).moved, Planned(v, p, c, files, clock))
    decreases |files|
  {
    if files != [] {
      var n := |files| - 1;
      var before := MoveAll(v, p, c, files[..n], clock);
      var step := MoveOne(before.vol, p, c, files[n], clock(n));
      var plan := Planned(v, p, c, files[..n], clock);
      assert MoveAll(v, p, c, files, clock).moved == before.moved + Reported(step.moved);
      assert Planned(v, p, c, files, clock) ==
        plan + (if Admitted(v, p, c, files[n]) then [Target(p, files[n], clock(n))] else []);
      MoveAllReportsPlanned(v, p, c, files[..n], clock);
      AdmittedStable(v, p, c, files[..n], clock, files[n]);
      MoveOneReports(before.vol, p, c, files[n], clock(n));
      ReportStep(before.moved, plan, step.moved, Admitted(v, p, c, files[n]), Target(p, files[n], clock(n)));
    }
  }

  /** A turn reports only the target of an admitted file. */
  lemma MoveOneReports(v: Volume, p: Plan, c: Check, file: string, stamp: string)
    ensures var s := MoveOne(v, p, c, file, stamp);
      s.moved.Some? ==> Admitted(v, p, c, file) && s.moved.value == Target(p, file, stamp)
  {
  }

  /** A report that can only be the planned target keeps the reports a subsequence of the plan. */
  lemma ReportStep(moved: seq<string>, plan: seq<string>, r: Option<string>, admitted: bool, t: string)
    requires IsSubsequence(moved, plan)
    requires r.Some? ==> admitted && r.value == t
    ensures IsSubsequence(moved + Reported(r), plan + (if admitted then [t] else []))
  {
    if r.Some? {
      IsSubsequenceSnoc(moved, plan, t);
    } else {
      assert moved + Reported(r) == moved;
      if admitted {
        IsSubsequenceExtend(moved, plan, t);
      } else {
        assert plan + [] == plan;
      }
    }
  }

  /**
   * One turn removes nothing, replaces an existing node only when `overwrite` is on and
   * it is a writable file, makes no existing path writable, and leaves what it reports in
   * place.
   */
  lemma MoveOneChanges(v: Volume, p: Plan, c: Check, file: string, stamp: string)
    ensures Kept(v, MoveOne(v, p, c, file, stamp).vol, p.overwrite)
    ensures var s := MoveOne(v, p, c, file, stamp); s.moved.Some? ==> Exists(s.vol, s.moved.value)
  {
    if Admitted(v, p, c, file) {
      var w := Prepared(v, p, file);
      assert Kept(v, w, p.overwrite);
      PlaceChanges(w, Staged(p, file), Target(p, file, stamp), p.overwrite);
      KeptTrans(v, w, MoveOne(v, p, c, file, stamp).vol, p.overwrite);
    }
  }

  /** Placing removes nothing, replaces only a writable file, and leaves what it reports in place. */
  lemma PlaceChanges(w: Volume, src: string, dst: string, overwrite: bool)
    ensures Kept(w, Place(w, src, dst, overwrite).vol, overwrite)
    ensures var s := Place(w, src, dst, overwrite); s.moved.Some? ==> Exists(s.vol, s.moved.value)
  {
  }

  lemma KeptTrans(u: Volume, v: Volume, w: Volume, overwrite: bool)
    requires Kept(u, v, overwrite) && Kept(v, w, overwrite)
    ensures Kept(u, w, overwrite)
  {
    forall x | x in u.nodes
      ensures x in w.nodes && (w.nodes[x] == u.nodes[x] || (overwrite && IsFile(u, x) && x in u.writable))
    {
      assert x in v.nodes;
      if v.nodes[x] == u.nodes[x] && w.nodes[x] != u.nodes[x] {
        assert x in v.writable;
      }
    }
  }

  /** What MoveAllChanges carries from turn to turn. */
  predicate Kept(v: Volume, w: Volume, overwrite: bool)
  {
    && (forall x :: x in v.nodes ==>
          x in w.nodes && (w.nodes[x] == v.nodes[x] || (overwrite && IsFile(v, x) && x in v.writable)))
    && (forall x :: x in v.nodes && x in w.writable ==> x in v.writable)
  }

  /**
   * The whole loop removes nothing, replaces only writable files and only with
   * `overwrite` on, and every path it reports exists at the end.
   */
  lemma {:induction false} MoveAllChanges(v: Volume, p: Plan, c: Check, files: seq<string>, clock: nat -> string)
    ensures Kept(v, MoveAll(v, p, c, files, clock).vol, p.overwrite)
    ensures forall x :: x in MoveAll(v, p, c, files, clock).moved ==> Exists(MoveAll(v, p, c, files, clock).vol, x)
    decreases |files|
  {
    if files != [] {
      var n := |files| - 1;
      var before := MoveAll(v, p, c, files[..n], clock);
      MoveAllChanges(v, p, c, files[..n], clock);
      MoveOneChanges(before.vol, p, c, files[n], clock(n));
      KeptTrans(v, before.vol, MoveAll(v, p, c, files, clock).vol, p.overwrite);
    }
  }

  /** With `overwrite` off, no node that existed before is touched. */
  lemma NoOverwriteKeepsExisting(v: Volume, p: Plan, c: Check, files: seq<string>, clock: nat -> string)
    requires !p.overwrite
    ensures forall x :: x in v.nodes ==>
      x in MoveAll(v, p, c, files, clock).vol.nodes && MoveAll(v, p, c, files, clock).vol.nodes[x] == v.nodes[x]
  {
    MoveAllChanges(v, p, c, files, clock);
  }

  /**
   * The conflict policy of one turn, for an admitted file whose target already exists:
   * a staged file is copied only with `overwrite` on and a writable target file, and is
   * then reported; a staged directory is reported exactly when `overwrite` is on.
   */
  lemma MoveOneConflicts(v: Volume, p: Plan, c: Check, file: string, stamp: string)
    requires Admitted(v, p, c, file)
    requires Exists(Prepared(v, p, file), Target(p, file, stamp))
    ensures var w := Prepared(v, p, file);
      var src := Staged(p, file);
      var dst := Target(p, file, stamp);
      var s := MoveOne(v, p, c, file, stamp);
      && (IsFile(w, src) ==>
            (s.moved.Some? <==> p.overwrite && IsFile(w, dst) && IsWritable(w, dst)) &&
            (s.moved.None? ==> s.vol == w))
      && (IsDir(w, src) ==> s.vol == w && (s.moved.Some? <==> p.overwrite))
  {
  }
}

=== FILE: seqs.dfy ===
/** Sequence vocabulary used to state what the planners and the relocation loop return. */
module Seqs {
  import opened Php

  /** An element absent from both parts is absent from their concatenation. */
  lemma NotInAppend<T>(a: seq<T>, b: seq<T>, x: T)
    requires x !in a && x !in b
    ensures x !in a + b
  {
    forall i | 0 <= i < |a + b|
      ensures (a + b)[i] != x
    {
      if i < |a| {
        assert (a + b)[i] == a[i];
      } else {
        assert (a + b)[i] == b[i - |a|];
      }
    }
  }

  /** The elements of s, as a set. */
  function Elements<T>(s: seq<T>): set<T>
  {
    set x | x in s
  }

  /** Concatenation is associative. */
  lemma AppendAssoc<T>(a: seq<T>, b: seq<T>, c: seq<T>)
    ensures (a + b) + c == a + (b + c)
  {
  }

  /** A concatenation splits back into its parts. */
  lemma AppendParts<T>(a: seq<T>, b: seq<T>)
    ensures (a + b)[..|a|] == a && (a + b)[|a|..] == b
  {
  }

  predicate IsSubsequence<T(==)>(r: seq<T>, s: seq<T>)
    decreases |s|
  {
    if r == [] then true
    else if s == [] then false
    else (r[|r| - 1] == s[|s| - 1] && IsSubsequence(r[..|r| - 1], s[..|s| - 1]))
         || IsSubsequence(r, s[..|s| - 1])
  }

  /** A subsequence stays one when the longer sequence grows at its end. */
  lemma IsSubsequenceExtend<T>(r: seq<T>, s: seq<T>, y: T)
    requires IsSubsequence(r, s)
    ensures IsSubsequence(r, s + [y])
  {
    if r != [] {
      assert (s + [y])[..|s|] == s;
    }
  }

  /** Both sequences growing by the same element keep the subsequence relation. */
  lemma IsSubsequenceSnoc<T>(r: seq<T>, s: seq<T>, x: T)
    requires IsSubsequence(r, s)
    ensures IsSubsequence(r + [x], s + [x])
  {
    assert (r + [x])[..|r|] == r;
    assert (s + [x])[..|s|] == s;
  }

  /** The elements of s that satisfy p, in their order in s. */
  function Filter<T(==,!new)>(s: seq<T>, p: T -> bool): (r: seq<T>)
    ensures |r| <= |s|
  {
    if s == [] then []
    else
      var init := Filter(s[..|s| - 1], p);
      if p(s[|s| - 1]) then init + [s[|s| - 1]] else init
  }

  /** Filter keeps the order of what it keeps. */
  lemma {:induction false} FilterIsSubsequence<T(!new)>(s: seq<T>, p: T -> bool)
    ensures IsSubsequence(Filter(s, p), s)
  {
    if s != [] {
      var init, y := s[..|s| - 1], s[|s| - 1];
      FilterIsSubsequence(init, p);
      assert s == init + [y];
      if p(y) {
        IsSubsequenceSnoc(Filter(init, p), init, y);
      } else {
        IsSubsequenceExtend(Filter(init, p), init, y);
      }
    }
  }

  /** Filter keeps exactly the elements that satisfy the condition. */
  lemma {:induction false} FilterMembers<T(!new)>(s: seq<T>, p: T -> bool)
    ensures forall x :: x in Filter(s, p) <==> x in s && p(x)
  {
    if s != [] {
      var init, y := s[..|s| - 1], s[|s| - 1];
      FilterMembers(init, p);
      assert s == init + [y];
    }
  }

  /** The test `$x != $v`, as a filter condition. */
  function Unequal<T(==)>(v: T): T -> bool
  {
    x => x != v
  }

  /** The test `!in_array($x, $vs)`, as a filter condition. */
  function Absent<T(==)>(vs: seq<T>): T -> bool
  {
    x => x !in vs
  }

  /** Filtering with a condition every element meets keeps the list as it is. */
  lemma {:induction false} FilterAll<T(!new)>(s: seq<T>, p: T -> bool)
    requires forall x :: p(x)
    ensures Filter(s, p) == s
  {
    if s != [] {
      FilterAll(s[..|s| - 1], p);
      assert s == s[..|s| - 1] + [s[|s| - 1]];
    }
  }

  /** Conditions that agree on every element select the same elements. */
  lemma {:induction false} FilterCongruent<T(!new)>(s: seq<T>, p: T -> bool, q: T -> bool)
    requires forall x :: x in s ==> p(x) == q(x)
    ensures Filter(s, p) == Filter(s, q)
  {
    if s != [] {
      FilterCongruent(s[..|s| - 1], p, q);
      assert s[|s| - 1] in s;
    }
  }

  /** Filtering twice is filtering once by both conditions. */
  lemma {:induction false} FilterTwice<T(!new)>(s: seq<T>, p: T -> bool, q: T -> bool, both: T -> bool)
    requires forall x :: both(x) == (p(x) && q(x))
    ensures Filter(Filter(s, p), q) == Filter(s, both)
  {
    if s != [] {
      var init, x := s[..|s| - 1], s[|s| - 1];
      FilterTwice(init, p, q, both);
      var f := Filter(init, p);
      if p(x) {
        assert (f + [x])[..|f|] == f;
      }
    }
  }

  /** Nothing is kept when no element satisfies the condition. */
  lemma {:induction false} FilterNone<T(!new)>(s: seq<T>, p: T -> bool)
    requires forall x :: x in s ==> !p(x)
    ensures Filter(s, p) == []
  {
    if s != [] {
      FilterNone(s[..|s| - 1], p);
    }
  }

  /** Filtering a prefix one element longer adds at most that element. */
  lemma FilterSnoc<T(!new)>(s: seq<T>, i: nat, p: T -> bool)
    requires i < |s|
    ensures Filter(s[..i + 1], p) == Filter(s[..i], p) + (if p(s[i]) then [s[i]] else [])
  {
    assert s[..i + 1][..i] == s[..i];
  }

  /** A condition implied by another selects at least what the other does, in the same order. */
  lemma {:induction false} FilterImplied<T(!new)>(s: seq<T>, p: T -> bool, q: T -> bool)
    requires forall x :: p(x) ==> q(x)
    ensures IsSubsequence(Filter(s, p), Filter(s, q))
  {
    if s != [] {
      var init := s[..|s| - 1];
      var x := s[|s| - 1];
      FilterImplied(init, p, q);
      if p(x) {
        IsSubsequenceSnoc(Filter(init, p), Filter(init, q), x);
      } else if q(x) {
        IsSubsequenceExtend(Filter(init, p), Filter(init, q), x);
      }
    }
  }

  /** The position of the first occurrence of x in s. */
  function FirstIndex<T(==)>(s: seq<T>, x: T): (i: nat)
    requires x in s
    ensures i < |s| && s[i] == x && x !in s[..i]
  {
    if s[0] == x then 0
    else
      assert x in s[1..];
      var j := FirstIndex(s[1..], x);
      assert s[..j + 1] == [s[0]] + s[1..][..j];
      j + 1
  }

  lemma FirstIndexUnique<T>(s: seq<T>, x: T, i: nat)
    requires i < |s| && s[i] == x && x !in s[..i]
    ensures FirstIndex(s, x) == i
  {
  }

  /** Inside a prefix, the first occurrence is the same as in the whole sequence. */
  lemma FirstIndexInPrefix<T>(s: seq<T>, m: nat, x: T)
    requires m <= |s| && x in s[..m]
    ensures FirstIndex(s, x) == FirstIndex(s[..m], x)
  {
    var k := FirstIndex(s[..m], x);
    assert s[..m][..k] == s[..k];
    FirstIndexUnique(s, x, k);
  }

  /** Each distinct element of s once, in the order of first appearance. */
  function Dedup<T(==,!new)>(s: seq<T>): (r: seq<T>)
    ensures NoDuplicates(r)
    ensures forall x :: x in r <==> x in s
  {
    if s == [] then []
    else
      var d := Dedup(s[..|s| - 1]);
      assert s == s[..|s| - 1] + [s[|s| - 1]];
      if s[|s| - 1] in d then d else d + [s[|s| - 1]]
  }

  lemma DedupSnoc<T(!new)>(s: seq<T>, i: nat)
    requires i < |s|
    ensures Dedup(s[..i + 1]) == var d := Dedup(s[..i]); if s[i] in d then d else d + [s[i]]
  {
    assert s[..i + 1][..i] == s[..i];
  }

  lemma DedupAppendOne<T(!new)>(s: seq<T>, x: T)
    ensures Dedup(s + [x]) == if x in Dedup(s) then Dedup(s) else Dedup(s) + [x]
  {
    assert (s + [x])[..|s|] == s;
  }

  /** Dedup keeps the first-seen order: earlier elements of the result first appear earlier in s. */
  lemma {:induction false} DedupFirstSeenOrder<T(!new)>(s: seq<T>, i: nat, j: nat)
    requires i < j < |Dedup(s)|
    ensures Dedup(s)[i] in s && Dedup(s)[j] in s
    ensures FirstIndex(s, Dedup(s)[i]) < FirstIndex(s, Dedup(s)[j])
  {
    var n := |s|;
    var init := s[..n - 1];
    var d := Dedup(init);
    assert Dedup(s) == if s[n - 1] in d then d else d + [s[n - 1]];
    var x, y := Dedup(s)[i], Dedup(s)[j];
    assert x == d[i];
    assert x in init;
    FirstIndexInPrefix(s, n - 1, x);
    if j < |d| {
      assert y == d[j];
      DedupFirstSeenOrder(init, i, j);
      FirstIndexInPrefix(s, n - 1, y);
    } else {
      assert y == s[n - 1] && y !in init;
      FirstIndexUnique(s, y, n - 1);
    }
  }
}

=== FILE: src_extract.dfy ===
/**
 * `Zip\Extract` of the current version: which archive entries to extract (by registered
 * extension, by name, or by directory prefix), extraction into the temporary directory,
 * and the move of accepted files to the destination directory.
 */
module SrcExtract {
  import opened Php
  import opened Seqs
  import opened Paths
  import opened Registry
  import opened Disk
  import opened Archive
  import opened Naming
  import opened SrcMime
  import opened SrcZip
  import opened Relocation

  const NoTmpMessage := "There is no a temporary destination declared in $tmpDestinationDir"
  const NoDestMessage := "There is no a destination declared in $destinationDir"

  /* ---------- extractByExtension ---------- */

  /** The entry has an extension and that extension is a registry key. */
  predicate Registered(t: Table, name: string)
  {
    Extension(name).Some? && HasKey(t, Extension(name).value)
  }

  function RegisteredIn(t: Table): string -> bool
  {
    name => Registered(t, name)
  }

  /** The entries `extractByExtension` adds, in archive order. */
  function ByExtension(entries: seq<string>, t: Table): (r: seq<string>)
    ensures forall x :: x in r <==> x in entries && Extension(x).Some? && HasKey(t, Extension(x).value)
    ensures IsSubsequence(r, entries)
  {
    FilterMembers(entries, RegisteredIn(t));
    FilterIsSubsequence(entries, RegisteredIn(t));
    Filter(entries, RegisteredIn(t))
  }

  /** With no extension registered nothing is selected (whatever the comment in the code says). */
  lemma EmptyRegistrySelectsNothing(entries: seq<string>)
    ensures ByExtension(entries, []) == []
  {
    FilterNone(entries, RegisteredIn([]));
  }

  /** The scan over the archive indices. */
  method SelectByExtension(entries: seq<string>, t: Table) returns (files: seq<string>)
    ensures files == ByExtension(entries, t)
  {
    files := [];
    var i := 0;
    while i < |entries|
      invariant 0 <= i <= |entries|
      invariant files == Filter(entries[..i], RegisteredIn(t))
    {
      FilterSnoc(entries, i, RegisteredIn(t));
      if Extension(entries[i]).Some? && HasKey(t, Extension(entries[i]).value) {
        files := files + [entries[i]];
      }
      i := i + 1;
    }
    assert entries[..i] == entries;
  }

  /* ---------- extractSpecificsFiles ---------- */

  /** The full name is listed, or `greedy` is on and the base name is listed. */
  predicate Wanted(name: string, wanted: seq<string>, greedy: bool)
  {
    name in wanted || (greedy && BaseName(name) in wanted)
  }

  function WantedBy(wanted: seq<string>, greedy: bool): string -> bool
  {
    name => Wanted(name, wanted, greedy)
  }

  /** The entries `extractSpecificsFiles` selects, in archive order. */
  function Specifics(entries: seq<string>, wanted: seq<string>, greedy: bool): (r: seq<string>)
    ensures forall x :: x in r <==> x in entries && (x in wanted || (greedy && BaseName(x) in wanted))
    ensures IsSubsequence(r, entries)
  {
    FilterMembers(entries, WantedBy(wanted, greedy));
    FilterIsSubsequence(entries, WantedBy(wanted, greedy));
    Filter(entries, WantedBy(wanted, greedy))
  }

  /** Turning `greedy` on only adds entries; the strict selection stays in the same order. */
  lemma GreedyWidens(entries: seq<string>, wanted: seq<string>)
    ensures IsSubsequence(Specifics(entries, wanted, false), Specifics(entries, wanted, true))
  {
    FilterImplied(entries, WantedBy(wanted, false), WantedBy(wanted, true));
  }

  method SelectSpecifics(entries: seq<string>, wanted: seq<string>, greedy: bool) returns (files: seq<string>)
    ensures files == Specifics(entries, wanted, greedy)
  {
    files := [];
    var i := 0;
    while i < |entries|
      invariant 0 <= i <= |entries|
      invariant files == Filter(entries[..i], WantedBy(wanted, greedy))
    {
      FilterSnoc(entries, i, WantedBy(wanted, greedy));
      if Wanted(entries[i], wanted, greedy) {
        files := files + [entries[i]];
      }
      i := i + 1;
    }
    assert entries[..i] == entries;
  }

  /* ---------- extractSpecificDirStructure ---------- */

  /**
   * A listed directory as the scan looks for it: separators replaced after a '/' is
   * appended, leading '/' stripped; it is empty or a relative name ending in '/'.
   */
  function DirPrefix(v: string): (r: string)
    ensures r == [] || (r[0] != '/' && r[|r| - 1] == '/')
    ensures '+' !in r && Plain(r) == Plain(v)
  {
    var s := ReplaceSeparators(v + "/");
    ReplaceSeparatorsEndsInSlash(v + "/");
    PlainTrimLeft(s);
    PlainOfSlashes(v, "/");
    TrimLeft(s, '/')
  }

  /** The entries from index i on that begin with p, up to the first one that does not. */
  function RunFrom(entries: seq<string>, i: nat, p: string): (r: seq<string>)
    requires i <= |entries|
    ensures i + |r| <= |entries|
    ensures i + |r| < |entries| ==> !StartsWith(entries[i + |r|], p)
    decreases |entries| - i
  {
    if i == |entries| || !StartsWith(entries[i], p) then []
    else [entries[i]] + RunFrom(entries, i + 1, p)
  }

  /** The run is the stretch of consecutive entries from index i on. */
  lemma {:induction false} RunFromSlice(entries: seq<string>, i: nat, p: string)
    requires i <= |entries|
    ensures var r := RunFrom(entries, i, p); r == entries[i..i + |r|]
    decreases |entries| - i
  {
    if i < |entries| && StartsWith(entries[i], p) {
      RunFromSlice(entries, i + 1, p);
      var rest := RunFrom(entries, i + 1, p);
      assert entries[i..i + 1 + |rest|] == [entries[i]] + entries[i + 1..i + 1 + |rest|];
    }
  }

  /** Every entry of the run is an archive entry that begins with the prefix. */
  lemma {:induction false} RunFromMembers(entries: seq<string>, i: nat, p: string, x: string)
    requires i <= |entries| && x in RunFrom(entries, i, p)
    ensures x in entries && StartsWith(x, p)
    decreases |entries| - i
  {
    var r := RunFrom(entries, i, p);
    assert r == [entries[i]] + RunFrom(entries, i + 1, p);
    if x != entries[i] {
      assert x in RunFrom(entries, i + 1, p);
      RunFromMembers(entries, i + 1, p, x);
    }
  }

  /** One more entry that begins with the prefix moves the scan one index on. */
  lemma RunFromStep(entries: seq<string>, start: nat, i: nat, p: string)
    requires start <= i < |entries| && StartsWith(entries[i], p)
    requires RunFrom(entries, start, p) == entries[start..i] + RunFrom(entries, i, p)
    ensures RunFrom(entries, start, p) == entries[start..i + 1] + RunFrom(entries, i + 1, p)
  {
    var rest := RunFrom(entries, i + 1, p);
    assert RunFrom(entries, i, p) == [entries[i]] + rest;
    assert entries[start..i + 1] == entries[start..i] + [entries[i]];
    AppendAssoc(entries[start..i], [entries[i]], rest);
  }

  /**
   * The scan for one prefix as written: from `locateName`'s index, the run of entries
   * that begin with the prefix. When the prefix is not an entry, the index is `false`,
   * which `++` leaves as it is and which reads entry 0: the loop ends at once when entry
   * 0 does not begin with the prefix, and never otherwise (None).
   */
  function DirRunAsWritten(entries: seq<string>, p: string): Option<seq<string>>
  {
    match LocateName(entries, p)
    case Some(i) => Some(RunFrom(entries, i, p))
    case None => if entries != [] && StartsWith(entries[0], p) then None else Some([])
  }

  /** The listed directory "docs" is looked for as "docs/". */
  lemma DirPrefixOfDocs()
    ensures DirPrefix("docs") == "docs/"
  {
    assert "docs" + "/" == "docs/";
    assert ReplaceSeparators("/") == "/" by {
      assert "/"[1..] == [] && TrimLeft([], '/') == [];
    }
    assert ReplaceSeparators("s/") == "s/" by {
      ReplaceSeparatorsKeeps('s', "/");
      assert ['s'] + "/" == "s/";
    }
    assert ReplaceSeparators("cs/") == "cs/" by {
      ReplaceSeparatorsKeeps('c', "s/");
      assert ['c'] + "s/" == "cs/";
    }
    assert ReplaceSeparators("ocs/") == "ocs/" by {
      ReplaceSeparatorsKeeps('o', "cs/");
      assert ['o'] + "cs/" == "ocs/";
    }
    assert ReplaceSeparators("docs/") == "docs/" by {
      ReplaceSeparatorsKeeps('d', "ocs/");
      assert ['d'] + "ocs/" == "docs/";
    }
    assert TrimLeft("docs/", '/') == "docs/";
  }

  /**
   * A listed directory that is not an entry of its own, in an archive whose first entry
   * lies below it, never lets the scan end.
   */
  lemma DirRunAsWrittenHangs()
    ensures DirRunAsWritten(["docs/a.txt"], DirPrefix("docs")) == None
  {
    DirPrefixOfDocs();
    assert "docs/" != "docs/a.txt" by {
      assert |"docs/"| != |"docs/a.txt"|;
    }
    assert LocateName(["docs/a.txt"], "docs/") == None;
    assert StartsWith("docs/a.txt", "docs/") by {
      assert "docs/a.txt"[..5] == "docs/";
    }
  }

  /**
   * The scan for one prefix, with a prefix that is not an entry skipped: nothing for such
   * a prefix; otherwise the entry named by the prefix and the entries after it that begin
   * with the prefix, up to the first that does not.
   */
  function DirRun(entries: seq<string>, p: string): (r: seq<string>)
    ensures p !in entries ==> r == []
    ensures p in entries ==> r != [] && r[0] == p
  {
    match LocateName(entries, p)
    case None => []
    case Some(i) =>
      assert StartsWith(entries[i], p) by {
        assert entries[i][..|p|] == p;
      }
      RunFrom(entries, i, p)
  }

  /** Every entry of the run is an entry of the archive that begins with the prefix. */
  lemma DirRunMembers(entries: seq<string>, p: string, x: string)
    requires x in DirRun(entries, p)
    ensures x in entries && StartsWith(x, p)
  {
    var i := LocateName(entries, p).value;
    assert x in RunFrom(entries, i, p);
    RunFromMembers(entries, i, p, x);
  }

  /**
   * For a prefix that is an entry, the run is the scan from the first entry with that name:
   * a stretch of consecutive entries starting there (where it ends is `RunFrom`'s business).
   */
  lemma DirRunContiguous(entries: seq<string>, p: string)
    requires p in entries
    ensures var i := LocateName(entries, p).value; var r := DirRun(entries, p);
      r == RunFrom(entries, i, p) && i + |r| <= |entries| && r == entries[i..i + |r|]
  {
    var loc := LocateName(entries, p);
    assert loc.Some?;
    var i := loc.value;
    var r := RunFrom(entries, i, p);
    assert DirRun(entries, p) == r;
    RunFromSlice(entries, i, p);
  }

  /** Wherever the code as written returns, it returns what DirRun does. */
  lemma DirRunAgrees(entries: seq<string>, p: string)
    ensures DirRunAsWritten(entries, p).Some? ==> DirRunAsWritten(entries, p).value == DirRun(entries, p)
    ensures DirRunAsWritten(entries, p).None? <==> p !in entries && entries != [] && StartsWith(entries[0], p)
  {
  }

  /** The listed directories as the scan looks for them. */
  function DirPrefixes(prefixes: seq<string>): (r: seq<string>)
    ensures |r| == |prefixes|
    ensures forall k :: 0 <= k < |r| ==> r[k] == DirPrefix(prefixes[k])
  {
    seq(|prefixes|, k requires 0 <= k < |prefixes| => DirPrefix(prefixes[k]))
  }

  /** The runs of the prefixes qs, one after the other. */
  function Runs(entries: seq<string>, qs: seq<string>): seq<string>
    decreases |qs|
  {
    if qs == [] then []
    else
      var n := |qs| - 1;
      Runs(entries, qs[..n]) + DirRun(entries, qs[n])
  }

  /** The entries `extractSpecificDirStructure` collects, prefix by prefix. */
  function DirStructure(entries: seq<string>, prefixes: seq<string>): seq<string>
  {
    Runs(entries, DirPrefixes(prefixes))
  }

  /** Taking one more prefix adds its run at the end. */
  lemma RunsSnoc(entries: seq<string>, qs: seq<string>, k: nat)
    requires k < |qs|
    ensures Runs(entries, qs[..k + 1]) == Runs(entries, qs[..k]) + DirRun(entries, qs[k])
  {
    assert qs[..k + 1][..k] == qs[..k];
  }

  /** Every entry of the runs begins with one of the prefixes, the k-th. */
  lemma {:induction false} RunsSound(entries: seq<string>, qs: seq<string>, x: string) returns (k: nat)
    requires x in Runs(entries, qs)
    ensures x in entries
    ensures k < |qs| && StartsWith(x, qs[k])
    decreases |qs|
  {
    var n := |qs| - 1;
    var init := qs[..n];
    if x in Runs(entries, init) {
      k := RunsSound(entries, init, x);
      assert init[k] == qs[k];
    } else {
      DirRunMembers(entries, qs[n], x);
      k := n;
    }
  }

  /** Every prefix that is an entry has that entry among the runs. */
  lemma {:induction false} RunsComplete(entries: seq<string>, qs: seq<string>, k: nat)
    requires k < |qs| && qs[k] in entries
    ensures qs[k] in Runs(entries, qs)
    decreases |qs|
  {
    var n := |qs| - 1;
    var init := qs[..n];
    if k < n {
      assert init[k] == qs[k];
      RunsComplete(entries, init, k);
    } else {
      assert DirRun(entries, qs[n])[0] == qs[k];
    }
  }

  /**
   * Every collected entry is an entry that begins with one of the normalised prefixes;
   * k is the position of such a prefix in the list.
   */
  lemma DirStructureSound(entries: seq<string>, prefixes: seq<string>, x: string) returns (k: nat)
    requires x in DirStructure(entries, prefixes)
    ensures x in entries
    ensures k < |prefixes| && StartsWith(x, DirPrefix(prefixes[k]))
  {
    k := RunsSound(entries, DirPrefixes(prefixes), x);
  }

  /** Every normalised prefix that names an entry has that entry collected. */
  lemma DirStructureComplete(entries: seq<string>, prefixes: seq<string>, k: nat)
    requires k < |prefixes| && DirPrefix(prefixes[k]) in entries
    ensures DirPrefix(prefixes[k]) in DirStructure(entries, prefixes)
  {
    RunsComplete(entries, DirPrefixes(prefixes), k);
  }

  /** The inner loop of the scan: from index start, the entries that begin with v, until one does not. */
  method CollectRun(entries: seq<string>, start: nat, v: string) returns (run: seq<string>)
    requires start <= |entries|
    ensures run == RunFrom(entries, start, v)
  {
    run := [];
    var i := start;
    while i < |entries| && StartsWith(entries[i], v)
      invariant start <= i <= |entries|
      invariant run == entries[start..i]
      invariant RunFrom(entries, start, v) == entries[start..i] + RunFrom(entries, i, v)
    {
      RunFromStep(entries, start, i, v);
      run := run + [entries[i]];
      i := i + 1;
    }
    assert RunFrom(entries, i, v) == [];
    assert run + [] == run;
  }

  /** The scan over the listed directories (prefixes that are not entries skipped). */
  method SelectDirStructure(entries: seq<string>, prefixes: seq<string>) returns (files: seq<string>)
    ensures files == DirStructure(entries, prefixes)
  {
    ghost var qs := DirPrefixes(prefixes);
    files := [];
    var k := 0;
    while k < |prefixes|
      invariant 0 <= k <= |prefixes|
      invariant files == Runs(entries, qs[..k])
    {
      RunsSnoc(entries, qs, k);
      var v := DirPrefix(prefixes[k]);
      assert v == qs[k];
      var located := LocateName(entries, v);
      if located.Some? {
        var run := CollectRun(entries, located.value, v);
        assert run == DirRun(entries, v);
        files := files + run;
      } else {
        assert DirRun(entries, v) == [];
        assert files + [] == files;
      }
      k := k + 1;
    }
    assert qs[..k] == qs;
  }

  /* ---------- the Extract object ---------- */

  /** What `extractFiles` returns, and the volume it leaves. */
  datatype Effect = Effect(result: Result<seq<string>>, vol: Volume)

  class Extract {
    /** The `Zip` part of the object: base path and open archive. */
    const base: Zip
    var filesToExtract: seq<string>
    /** "" while unset. */
    var destinationDir: string
    /** "" while unset. */
    var tmpDestinationDir: string
    var greedy: bool
    var sameStructure: bool
    var sameName: bool
    var suffix: string
    var separator: string
    var overwrite: bool

    constructor Init(base: Zip, tmpDestinationDir: string, destinationDir: string)
      ensures this.base == base
      ensures this.tmpDestinationDir == tmpDestinationDir && this.destinationDir == destinationDir
      ensures filesToExtract == [] && greedy && sameStructure && sameName
      ensures suffix == "" && separator == "_" && !overwrite
    {
      this.base := base;
      this.tmpDestinationDir := tmpDestinationDir;
      this.destinationDir := destinationDir;
      filesToExtract := [];
      greedy := true;
      sameStructure := true;
      sameName := true;
      suffix := "";
      separator := "_";
      overwrite := false;
    }

    /**
     * `new Extract($basePath, $fileName, $destinationDir, $tmpDestinationDir)`: the `Zip`
     * constructor, then each given directory, below the base path, created when missing
     * and stored (the temporary one first).
     */
    static method New(fs: FileSystem, basePath: string, fileName: string, destinationDir: string, tmpDestinationDir: string)
      returns (r: Result<Extract>)
      modifies fs
      ensures Empty(basePath) ==> r == Throw(InvalidArgument("You must set a base path")) && fs.vol == old(fs.vol)
      ensures !Empty(basePath) ==> r.Ok? && fresh(r.value) && fresh(r.value.base)
      ensures r.Ok? ==> var b := NormaliseBasePath(basePath);
        && r.value.base.basePath == b && r.value.base.archive == None
        && r.value.tmpDestinationDir == (if Empty(tmpDestinationDir) then "" else b + "/" + tmpDestinationDir)
        && r.value.destinationDir == (if Empty(destinationDir) then "" else b + "/" + destinationDir)
        && r.value.filesToExtract == [] && r.value.sameName && !r.value.overwrite
      ensures !Empty(basePath) ==> var b := NormaliseBasePath(basePath);
        var v1 := AfterMkdir(old(fs.vol), b);
        var v2 := if Empty(tmpDestinationDir) then v1 else AfterMkdir(v1, b + "/" + tmpDestinationDir);
        fs.vol == if Empty(destinationDir) then v2 else AfterMkdir(v2, b + "/" + destinationDir)
    {
      var z := Zip.New(fs, basePath, fileName);
      if z.Throw? {
        return Throw(z.exception);
      }
      var b := z.value.basePath;
      var tmp := "";
      if !Empty(tmpDestinationDir) {
        tmp := b + "/" + tmpDestinationDir;
        if !Exists(fs.vol, tmp) {
          var made := fs.Mkdir(tmp);
        }
      }
      var dest := "";
      if !Empty(destinationDir) {
        dest := b + "/" + destinationDir;
        if !Exists(fs.vol, dest) {
          var made := fs.Mkdir(dest);
        }
      }
      var e := new Extract.Init(z.value, tmp, dest);
      r := Ok(e);
    }

    /** `setFileToExtract($file)` */
    method SetFileToExtract(file: string)
      modifies this
      ensures filesToExtract == old(filesToExtract) + [file]
      ensures CurrentPlan() == old(CurrentPlan()) && greedy == old(greedy)
    {
      filesToExtract := filesToExtract + [file];
    }

    /** `setFilesToExtract($files)` */
    method SetFilesToExtract(files: seq<string>)
      modifies this
      ensures filesToExtract == files
      ensures CurrentPlan() == old(CurrentPlan()) && greedy == old(greedy)
    {
      filesToExtract := files;
    }

    /**
     * `setSuffix($suffix, $separator)`: the given separator, or the current one when none
     * is given, is put before the suffix, and renaming is switched on.
     */
    method SetSuffix(suffix: string, separator: string)
      modifies this
      ensures this.suffix == (if Empty(separator) then old(this.separator) else separator) + suffix
      ensures this.suffix == StoredSuffix(suffix, separator, old(this.separator))
      ensures !sameName
      ensures this.separator == old(this.separator) && filesToExtract == old(filesToExtract)
      ensures tmpDestinationDir == old(tmpDestinationDir) && destinationDir == old(destinationDir)
      ensures sameStructure == old(sameStructure) && overwrite == old(overwrite) && greedy == old(greedy)
    {
      this.suffix := StoredSuffix(suffix, separator, this.separator);
      sameName := false;
    }

    /** The settings `moveValidFiles` reads. */
    function CurrentPlan(): Plan
      reads this
    {
      Plan(tmpDestinationDir, destinationDir, sameStructure, sameName, overwrite, suffix, separator)
    }

    /**
     * `extractFiles($files)` as a function of the volume before the call: no temporary
     * directory throws before anything happens, and so does `extractTo` on an archive that
     * was never opened; otherwise the files are extracted there and then moved.
     */
    function Extraction(v: Volume, c: Check, files: seq<string>, clock: nat -> string): Effect
      reads this, base
    {
      if Empty(tmpDestinationDir) then Effect(Throw(InvalidArgument(NoTmpMessage)), v)
      else if base.archive.None? then Effect(Throw(Error(NullCall("extractTo"))), v)
      else
        var staged := Extracted(v, tmpDestinationDir, base.archive.value, files);
        if Empty(destinationDir) then Effect(Throw(InvalidArgument(NoDestMessage)), staged)
        else
          var m := MoveAll(staged, CurrentPlan(), c, files, clock);
          Effect(Ok(m.moved), m.vol)
    }

    /**
     * `moveValidFiles($files)`: throws when either directory is unset; otherwise each
     * listed file is moved as MoveAll describes, and the paths it reports are returned.
     */
    method MoveValidFiles(fs: FileSystem, mime: Mime, sniff: string -> string, clock: nat -> string, files: seq<string>)
      returns (r: Result<seq<string>>)
      modifies fs
      ensures Empty(tmpDestinationDir) ==> r == Throw(InvalidArgument(NoTmpMessage)) && fs.vol == old(fs.vol)
      ensures !Empty(tmpDestinationDir) && Empty(destinationDir) ==>
        r == Throw(InvalidArgument(NoDestMessage)) && fs.vol == old(fs.vol)
      ensures !Empty(tmpDestinationDir) && !Empty(destinationDir) ==>
        var m := MoveAll(old(fs.vol), CurrentPlan(), Check(mime.validate, mime.mimeFiles, sniff), files, clock);
        r == Ok(m.moved) && fs.vol == m.vol
    {
      if Empty(tmpDestinationDir) {
        return Throw(InvalidArgument(NoTmpMessage));
      }
      if Empty(destinationDir) {
        return Throw(InvalidArgument(NoDestMessage));
      }
      var plan := CurrentPlan();
      var check := Check(mime.validate, mime.mimeFiles, sniff);
      ghost var v0 := fs.vol;
      var moved: seq<string> := [];
      var i := 0;
      while i < |files|
        invariant 0 <= i <= |files|
        invariant MoveAll(v0, plan, check, files[..i], clock) == Progress(fs.vol, moved)
      {
        assert files[..i + 1][..i] == files[..i];
        var reported := MoveFile(fs, plan, check, files[i], clock(i));
        if reported.Some? {
          moved := moved + [reported.value];
        }
        i := i + 1;
      }
      assert files[..i] == files;
      r := Ok(moved);
    }

    /** One turn of the loop of `moveValidFiles`. */
    static method MoveFile(fs: FileSystem, plan: Plan, check: Check, file: string, stamp: string)
      returns (reported: Option<string>)
      modifies fs
      ensures Step(fs.vol, reported) == MoveOne(old(fs.vol), plan, check, file, stamp)
    {
      var tmpFile := plan.tmp + "/" + file;
      if !Exists(fs.vol, tmpFile) || !IsValidMime(check.validate, check.mimeFiles, tmpFile, check.sniff(tmpFile)) {
        return None;
      }
      if plan.sameStructure {
        var dir := TargetDir(plan, file);
        if !Exists(fs.vol, dir) {
          var made := fs.Mkdir(dir);
        }
      }
      reported := PlaceFile(fs, tmpFile, Target(plan, file, stamp), plan.overwrite);
    }

    /** The copy of a staged file, or the creation of a staged directory, at its target. */
    static method PlaceFile(fs: FileSystem, tmpFile: string, destination: string, overwrite: bool)
      returns (reported: Option<string>)
      modifies fs
      ensures Step(fs.vol, reported) == Place(old(fs.vol), tmpFile, destination, overwrite)
    {
      reported := None;
      if IsFile(fs.vol, tmpFile) &&
         (!Exists(fs.vol, destination) || (overwrite && IsWritable(fs.vol, destination)))
      {
        var copied := fs.Copy(tmpFile, destination);
        if copied {
          reported := Some(destination);
        }
      } else if IsDir(fs.vol, tmpFile) && !Exists(fs.vol, destination) {
        var made := fs.Mkdir(destination);
        if made {
          reported := Some(destination);
        }
      } else if IsDir(fs.vol, tmpFile) && Exists(fs.vol, destination) && overwrite {
        reported := Some(destination);
      }
    }

    /** `extractFiles($files)` */
    method ExtractFiles(fs: FileSystem, mime: Mime, sniff: string -> string, clock: nat -> string, files: seq<string>)
      returns (r: Result<seq<string>>)
      modifies fs
      ensures Effect(r, fs.vol) == Extraction(old(fs.vol), Check(mime.validate, mime.mimeFiles, sniff), files, clock)
    {
      if Empty(tmpDestinationDir) {
        return Throw(InvalidArgument(NoTmpMessage));
      }
      if base.archive.None? {
        return Throw(Error(NullCall("extractTo")));
      }
      ExtractTo(fs, tmpDestinationDir, base.archive.value, files);
      r := MoveValidFiles(fs, mime, sniff, clock, files);
    }

    /**
     * `extractByExtension()`: the entries with a registered extension are appended to the
     * list of files to extract, and that whole list is extracted.
     */
    method ExtractByExtension(fs: FileSystem, mime: Mime, sniff: string -> string, clock: nat -> string)
      returns (r: Result<seq<string>>)
      modifies this, fs
      ensures filesToExtract == old(filesToExtract) + ByExtension(EntriesOf(base.archive), mime.mimeFiles)
      ensures CurrentPlan() == old(CurrentPlan()) && greedy == old(greedy)
      ensures Effect(r, fs.vol) == Extraction(old(fs.vol), Check(mime.validate, mime.mimeFiles, sniff), filesToExtract, clock)
    {
      var selected := SelectByExtension(EntriesOf(base.archive), mime.mimeFiles);
      filesToExtract := filesToExtract + selected;
      r := ExtractFiles(fs, mime, sniff, clock, filesToExtract);
    }

    /** `extractSpecificsFiles()`: the entries named in the list are extracted. */
    method ExtractSpecificsFiles(fs: FileSystem, mime: Mime, sniff: string -> string, clock: nat -> string)
      returns (r: Result<seq<string>>)
      modifies fs
      ensures Effect(r, fs.vol) == Extraction(old(fs.vol), Check(mime.validate, mime.mimeFiles, sniff),
        Specifics(EntriesOf(base.archive), filesToExtract, greedy), clock)
    {
      var files := SelectSpecifics(EntriesOf(base.archive), filesToExtract, greedy);
      r := ExtractFiles(fs, mime, sniff, clock, files);
    }

    /**
     * `extractSpecificDirStructure()`: the entries below the listed directories are
     * extracted; a listed directory that is not an entry of its own is skipped. Before
     * `open`, the first listed directory makes `locateName` throw.
     */
    method ExtractSpecificDirStructure(fs: FileSystem, mime: Mime, sniff: string -> string, clock: nat -> string)
      returns (r: Result<seq<string>>)
      modifies fs
      ensures base.archive.None? && filesToExtract != [] ==>
        r == Throw(Error(NullCall("locateName"))) && fs.vol == old(fs.vol)
      ensures base.archive.Some? || filesToExtract == [] ==>
        Effect(r, fs.vol) == Extraction(old(fs.vol), Check(mime.validate, mime.mimeFiles, sniff),
          DirStructure(EntriesOf(base.archive), filesToExtract), clock)
    {
      if base.archive.None? && filesToExtract != [] {
        return Throw(Error(NullCall("locateName")));
      }
      var files := SelectDirStructure(EntriesOf(base.archive), filesToExtract);
      r := ExtractFiles(fs, mime, sniff, clock, files);
    }

    /**
     * `extractAllFiles()`: throws without a destination directory, and `extractTo` throws
     * on an archive that was never opened; otherwise the whole archive is extracted there
     * and every entry name is returned, in index order.
     */
    method ExtractAllFiles(fs: FileSystem) returns (r: Result<seq<string>>)
      modifies fs
      ensures Empty(destinationDir) ==> r == Throw(InvalidArgument(NoDestMessage)) && fs.vol == old(fs.vol)
      ensures !Empty(destinationDir) && base.archive.None? ==>
        r == Throw(Error(NullCall("extractTo"))) && fs.vol == old(fs.vol)
      ensures !Empty(destinationDir) && base.archive.Some? ==>
        r == Ok(base.archive.value) && fs.vol == ExtractedAll(old(fs.vol), destinationDir, base.archive.value)
    {
      if Empty(destinationDir) {
        return Throw(InvalidArgument(NoDestMessage));
      }
      if base.archive.None? {
        return Throw(Error(NullCall("extractTo")));
      }
      var entries := base.archive.value;
      var files: seq<string> := [];
      var i := 0;
      while i < |entries|
        invariant 0 <= i <= |entries|
        invariant files == entries[..i]
      {
        files := files + [entries[i]];
        i := i + 1;
      }
      ExtractTo(fs, destinationDir, entries, entries);
      assert entries[..i] == entries;
      r := Ok(files);
    }
  }
}

=== FILE: src_mime.dfy ===
/**
 * `Zip\Mime` of the current version: the registry of accepted media types per extension,
 * the switch that turns checking on, and the acceptance test for one extracted file.
 * The class's static state is one `Mime` object.
 */
module SrcMime {
  import opened Php
  import opened Seqs
  import opened Paths
  import opened Registry

  /** What `unsetMimeByValue` leaves of a rule when removing v; None when the key is unset. */
  function StripRule(rule: Rule, v: string): (r: Option<Rule>)
    ensures r.Some? ==> r.value.Single? == rule.Single?
    ensures r.Some? ==> forall m :: Accepts(r.value, m) <==> Accepts(rule, m) && m != v
    ensures r.None? <==> forall m :: Accepts(rule, m) ==> m == v
  {
    match rule
    case Single(m) =>
      if m == v then None
      else
        assert Accepts(rule, m);
        Some(rule)
    case Many(ms) =>
      var kept := Filter(ms, Unequal(v));
      FilterUnequal(ms, v);
      if kept == [] then None
      else
        assert kept[0] in kept && Accepts(rule, kept[0]);
        Some(Many(kept))
  }

  lemma FilterUnequal(ms: seq<string>, v: string)
    ensures forall m :: m in Filter(ms, Unequal(v)) <==> m in ms && m != v
  {
    FilterMembers(ms, Unequal(v));
  }

  /** A binding as it comes out of one `unsetMimeByValue` pass. */
  function StripBinding(b: Binding, v: string): Table
  {
    match StripRule(b.rule, v)
    case None => []
    case Some(rule) => [Binding(b.ext, rule)]
  }

  /** One pass of `unsetMimeByValue` over the registry, for one value. */
  function StripValue(t: Table, v: string): Table
  {
    if t == [] then [] else StripValue(t[..|t| - 1], v) + StripBinding(t[|t| - 1], v)
  }

  /** A pass only ever unsets keys. */
  lemma {:induction false} StripValueKeys(t: Table, v: string, k: string)
    requires HasKey(StripValue(t, v), k)
    ensures HasKey(t, k)
  {
    var init, last := t[..|t| - 1], t[|t| - 1];
    var a := StripValue(init, v);
    var b := StripBinding(last, v);
    assert t == init + [last];
    KeysAppend(init, [last]);
    KeysAppend(a, b);
    assert Keys([last]) == [last.ext];
    if HasKey(a, k) {
      StripValueKeys(init, v, k);
    } else {
      assert b == [b[0]] && b[0].ext == last.ext;
      assert Keys(b) == [last.ext];
    }
  }

  lemma {:induction false} StripValueKeepsUnique(t: Table, v: string)
    requires UniqueKeys(t)
    ensures UniqueKeys(StripValue(t, v))
  {
    if t != [] {
      var init, last := t[..|t| - 1], t[|t| - 1];
      var a := StripValue(init, v);
      var b := StripBinding(last, v);
      assert t == init + [last];
      UniqueKeysSnoc(init, last);
      StripValueKeepsUnique(init, v);
      if b == [] {
        assert a + b == a;
      } else {
        assert b == [b[0]] && b[0].ext == last.ext;
        if HasKey(a, last.ext) {
          StripValueKeys(init, v, last.ext);
        }
        UniqueKeysSnoc(a, b[0]);
      }
    }
  }

  /** Looking up a key after one pass: the key's rule with v stripped from it. */
  lemma {:induction false} LookupStripValue(t: Table, v: string, k: string)
    requires UniqueKeys(t)
    ensures Lookup(StripValue(t, v), k) ==
      match Lookup(t, k)
      case None => None
      case Some(rule) => StripRule(rule, v)
  {
    if t != [] {
      var init, last := t[..|t| - 1], t[|t| - 1];
      var a := StripValue(init, v);
      var b := StripBinding(last, v);
      assert t == init + [last];
      UniqueKeysSnoc(init, last);
      LookupStripValue(init, v, k);
      if HasKey(a, k) {
        StripValueKeys(init, v, k);
      }
      LookupAppend(init, [last], k);
      LookupAppend(a, b, k);
      LookupSingle(last, k);
      if b != [] {
        assert b == [b[0]];
        LookupSingle(b[0], k);
      }
    }
  }

  /** `unsetMimeByValue($values)`: one pass per value, in list order. */
  function StripValues(t: Table, vs: seq<string>): Table
  {
    if vs == [] then t else StripValue(StripValues(t, vs[..|vs| - 1]), vs[|vs| - 1])
  }

  /**
   * The rule r left of the rule o once the values vs are removed: when r is left, o was
   * there, r has o's kind and r accepts exactly the media types o accepts outside vs.
   */
  ghost predicate Narrowed(r: Option<Rule>, o: Option<Rule>, vs: seq<string>)
  {
    r.Some? ==>
      o.Some? && r.value.Single? == o.value.Single? &&
      forall m :: Accepts(r.value, m) <==> Accepts(o.value, m) && m !in vs
  }

  /**
   * After `unsetMimeByValue($vs)` a key that is left keeps its kind and exactly the media
   * types it had that are not in vs.
   */
  lemma {:induction false} LookupStripValues(t: Table, vs: seq<string>, k: string)
    requires UniqueKeys(t)
    ensures UniqueKeys(StripValues(t, vs))
    ensures Narrowed(Lookup(StripValues(t, vs), k), Lookup(t, k), vs)
  {
    if vs != [] {
      var init, v := vs[..|vs| - 1], vs[|vs| - 1];
      LookupStripValues(t, init, k);
      StripValuesSnoc(t, init, v, k);
      assert vs == init + [v];
    }
  }

  /** One more pass of `unsetMimeByValue` keeps the keys unique and narrows the rule left under k. */
  lemma StripValuesSnoc(t: Table, init: seq<string>, v: string, k: string)
    requires UniqueKeys(StripValues(t, init))
    requires Narrowed(Lookup(StripValues(t, init), k), Lookup(t, k), init)
    ensures UniqueKeys(StripValues(t, init + [v]))
    ensures Narrowed(Lookup(StripValues(t, init + [v]), k), Lookup(t, k), init + [v])
  {
    var u := StripValues(t, init);
    assert (init + [v])[..|init|] == init;
    assert StripValues(t, init + [v]) == StripValue(u, v);
    StripValueKeepsUnique(u, v);
    LookupStripValue(u, v, k);
    StripStep(Lookup(t, k), Lookup(u, k), Lookup(StripValue(u, v), k), init, v);
  }

  /** Removing one more value v narrows a rule already narrowed by init to the media types outside init + [v]. */
  lemma StripStep(o: Option<Rule>, ru: Option<Rule>, r: Option<Rule>, init: seq<string>, v: string)
    requires Narrowed(ru, o, init)
    requires r == match ru case None => None case Some(rule) => StripRule(rule, v)
    ensures Narrowed(r, o, init + [v])
  {
    if r.Some? {
      forall m
        ensures Accepts(r.value, m) <==> Accepts(o.value, m) && m !in init + [v]
      {
        assert m in init + [v] <==> m in init || m == v;
      }
    }
  }

  /** After `unsetMimeByValue($vs)`, vs not empty, a key is left iff it accepted some media type outside vs. */
  lemma {:induction false} StripValuesDropsKey(t: Table, vs: seq<string>, k: string)
    requires UniqueKeys(t) && vs != []
    ensures Lookup(StripValues(t, vs), k).Some? <==>
      Lookup(t, k).Some? && exists m :: Accepts(Lookup(t, k).value, m) && m !in vs
  {
    var init, v := vs[..|vs| - 1], vs[|vs| - 1];
    var u := StripValues(t, init);
    assert vs == init + [v];
    LookupStripValues(t, init, k);
    LookupStripValue(u, v, k);
    if init == [] {
      assert u == t;
    } else {
      StripValuesDropsKey(t, init, k);
    }
  }

  /**
   * `isValidMime($fileName)` with the registry and the checking switch it reads, given what
   * the sniffer reports for the file: with checking off every file passes; with it on, the
   * media type must be non-empty and listed for the file's extension.
   */
  function IsValidMime(validate: bool, mimeFiles: Table, fileName: string, sniffed: string): (r: bool)
    ensures !validate ==> r
    ensures validate && Empty(MediaType(sniffed)) ==> !r
    ensures validate && !HasKey(mimeFiles, ExtensionOrEmpty(fileName)) ==> !r
    ensures validate && !Empty(MediaType(sniffed)) && HasKey(mimeFiles, ExtensionOrEmpty(fileName)) ==>
      (r <==> Accepts(Lookup(mimeFiles, ExtensionOrEmpty(fileName)).value, MediaType(sniffed)))
  {
    if !validate then true
    else
      var m := MediaType(sniffed);
      var ext := ExtensionOrEmpty(fileName);
      if Empty(m) then false
      else match Lookup(mimeFiles, ext)
        case Some(Many(ms)) => m in ms
        case Some(Single(x)) => m == x
        case None => false
  }

  /** `getMimeFiles($flatArray)`: the registry itself, or its media types. */
  datatype MimeFilesView = Nested(table: Table) | Flat(mimes: seq<string>)

  class Mime {
    var mimeFiles: Table
    var validate: bool

    /** A PHP array never holds a key twice. */
    ghost predicate Valid()
      reads this
    {
      UniqueKeys(mimeFiles)
    }

    constructor()
      ensures mimeFiles == [] && !validate && Valid()
    {
      mimeFiles := [];
      validate := false;
    }

    /** `setMimeFile($extension, $mime)` */
    method SetMimeFile(extension: string, mime: Rule) returns (r: Outcome)
      modifies this
      requires Valid()
      ensures Empty(extension) ==>
        r == Thrown(InvalidArgument("$extension cannot be empty")) && mimeFiles == old(mimeFiles) && validate == old(validate)
      ensures !Empty(extension) && RuleEmpty(mime) ==>
        r == Thrown(InvalidArgument("$mime cannot be empty")) && mimeFiles == old(mimeFiles) && validate == old(validate)
      ensures !Empty(extension) && !RuleEmpty(mime) ==>
        r == Done && mimeFiles == Put(old(mimeFiles), extension, mime) && validate
      ensures Valid()
    {
      if Empty(extension) {
        return Thrown(InvalidArgument("$extension cannot be empty"));
      }
      if RuleEmpty(mime) {
        return Thrown(InvalidArgument("$mime cannot be empty"));
      }
      PutKeepsUnique(mimeFiles, extension, mime);
      mimeFiles := Put(mimeFiles, extension, mime);
      validate := true;
      r := Done;
    }

    /** `setMimeFiles($mimes)`: each given binding is set in turn. */
    method SetMimeFiles(mimes: Table) returns (r: Outcome)
      modifies this
      requires Valid()
      ensures mimes == [] ==>
        r == Thrown(InvalidArgument("$mimes cannot be empty")) && mimeFiles == old(mimeFiles) && validate == old(validate)
      ensures mimes != [] ==> r == Done && mimeFiles == PutAll(old(mimeFiles), mimes) && validate
      ensures Valid()
    {
      if mimes == [] {
        return Thrown(InvalidArgument("$mimes cannot be empty"));
      }
      var i := 0;
      while i < |mimes|
        invariant i <= |mimes|
        invariant mimeFiles == PutAll(old(mimeFiles), mimes[..i])
        invariant Valid()
      {
        assert mimes[..i + 1][..i] == mimes[..i];
        PutKeepsUnique(mimeFiles, mimes[i].ext, mimes[i].rule);
        mimeFiles := Put(mimeFiles, mimes[i].ext, mimes[i].rule);
        i := i + 1;
      }
      assert mimes[..i] == mimes;
      validate := true;
      r := Done;
    }

    /** `validateMime($bool)` */
    method ValidateMime(b: bool)
      modifies this
      ensures validate == b && mimeFiles == old(mimeFiles)
    {
      validate := b;
    }

    /**
     * `getMimeFiles($flatArray)`: the registry, or each media type it holds once, in the
     * order `array_walk_recursive` first meets it.
     */
    method GetMimeFiles(flatArray: bool) returns (r: MimeFilesView)
      ensures !flatArray ==> r == Nested(mimeFiles)
      ensures flatArray ==> r == Flat(Dedup(Leaves(mimeFiles)))
    {
      if !flatArray {
        return Nested(mimeFiles);
      }
      var acc: seq<string> := [];
      var i := 0;
      while i < |mimeFiles|
        invariant i <= |mimeFiles|
        invariant acc == Dedup(Leaves(mimeFiles[..i]))
      {
        LeavesSnoc(mimeFiles, i);
        acc := AddUnseen(acc, Values(mimeFiles[i].rule), Leaves(mimeFiles[..i]));
        i := i + 1;
      }
      assert mimeFiles[..i] == mimeFiles;
      r := Flat(acc);
    }

    /** The `in_array` guarded append of `array_walk_recursive`'s callback, over one rule's media types. */
    static method AddUnseen(acc: seq<string>, vals: seq<string>, ghost seen: seq<string>) returns (r: seq<string>)
      requires acc == Dedup(seen)
      ensures r == Dedup(seen + vals)
    {
      r := acc;
      var j := 0;
      assert seen + vals[..0] == seen;
      while j < |vals|
        invariant j <= |vals|
        invariant r == Dedup(seen + vals[..j])
      {
        assert seen + vals[..j + 1] == (seen + vals[..j]) + [vals[j]];
        DedupAppendOne(seen + vals[..j], vals[j]);
        if vals[j] !in r {
          r := r + [vals[j]];
        }
        j := j + 1;
      }
      assert vals[..j] == vals;
    }

    /** `unsetMimeByKey($keys)`: each listed key that is present is unset. */
    method UnsetMimeByKey(keys: seq<string>)
      modifies this
      requires Valid()
      ensures mimeFiles == RemoveKeys(old(mimeFiles), keys) && validate == old(validate)
      ensures Valid()
    {
      var i := 0;
      while i < |keys|
        invariant i <= |keys|
        invariant mimeFiles == RemoveKeys(old(mimeFiles), keys[..i]) && validate == old(validate)
        invariant Valid()
      {
        RemoveKeysSnoc(old(mimeFiles), keys, i);
        RemoveKeyKeepsUnique(mimeFiles, keys[i]);
        if HasKey(mimeFiles, keys[i]) {
          mimeFiles := RemoveKey(mimeFiles, keys[i]);
        }
        i := i + 1;
      }
      assert keys[..i] == keys;
    }

    /** The inner `foreach` of `unsetMimeByValue` over one list: every entry equal to v is unset. */
    static method DropValue(ms: seq<string>, v: string) returns (left: seq<string>)
      ensures left == Filter(ms, Unequal(v))
    {
      left := [];
      var p := 0;
      while p < |ms|
        invariant p <= |ms|
        invariant left == Filter(ms[..p], Unequal(v))
      {
        FilterSnoc(ms, p, Unequal(v));
        if ms[p] != v {
          left := left + [ms[p]];
        }
        p := p + 1;
      }
      assert ms[..p] == ms;
    }

    /** One pass of `unsetMimeByValue` over a snapshot of the registry, for one value. */
    static method StripPass(snapshot: Table, v: string) returns (kept: Table)
      ensures kept == StripValue(snapshot, v)
    {
      kept := [];
      var j := 0;
      while j < |snapshot|
        invariant j <= |snapshot|
        invariant kept == StripValue(snapshot[..j], v)
      {
        assert snapshot[..j + 1][..j] == snapshot[..j];
        var b := snapshot[j];
        match b.rule {
          case Single(m) =>
            if m != v {
              kept := kept + [b];
            }
          case Many(ms) =>
            var left := DropValue(ms, v);
            if left != [] {
              kept := kept + [Binding(b.ext, Many(left))];
            }
        }
        j := j + 1;
      }
      assert snapshot[..j] == snapshot;
    }

    /**
     * `unsetMimeByValue($values)`: for each value in turn, the value is deleted from every
     * list, a list left empty is unset, and a string rule equal to the value is unset.
     */
    method UnsetMimeByValue(values: seq<string>)
      modifies this
      requires Valid()
      ensures mimeFiles == StripValues(old(mimeFiles), values) && validate == old(validate)
      ensures Valid()
    {
      var i := 0;
      while i < |values|
        invariant i <= |values|
        invariant mimeFiles == StripValues(old(mimeFiles), values[..i])
        invariant validate == old(validate)
        invariant Valid()
      {
        assert values[..i + 1][..i] == values[..i];
        StripValueKeepsUnique(mimeFiles, values[i]);
        mimeFiles := StripPass(mimeFiles, values[i]);
        i := i + 1;
      }
      assert values[..i] == values;
    }

    /** `unsetAllMime()` */
    method UnsetAllMime()
      modifies this
      ensures mimeFiles == [] && validate == old(validate) && Valid()
    {
      mimeFiles := [];
    }
  }

  /**
   * Once `setMimeFile($ext, $rule)` succeeded (checking is on and the registry is the old
   * one with ext set), a file with extension ext passes exactly when the sniffed media type
   * is non-empty and the new rule accepts it, whatever ext was bound to before; a file with
   * any other extension is judged as it was under the old registry with checking on.
   */
  lemma AcceptedAfterSet(t: Table, ext: string, rule: Rule, name: string, sniffed: string)
    ensures ExtensionOrEmpty(name) == ext ==>
      (IsValidMime(true, Put(t, ext, rule), name, sniffed) <==> !Empty(MediaType(sniffed)) && Accepts(rule, MediaType(sniffed)))
    ensures ExtensionOrEmpty(name) != ext ==>
      IsValidMime(true, Put(t, ext, rule), name, sniffed) == IsValidMime(true, t, name, sniffed)
  {
    var k := ExtensionOrEmpty(name);
    assert Lookup(Put(t, ext, rule), k) == if k == ext then Some(rule) else Lookup(t, k);
  }

  /** A media type removed by `unsetMimeByValue` is no longer accepted for any extension. */
  lemma StrippedValueRejected(t: Table, vs: seq<string>, k: string, m: string)
    requires UniqueKeys(t) && m in vs
    ensures Lookup(StripValues(t, vs), k).Some? ==> !Accepts(Lookup(StripValues(t, vs), k).value, m)
  {
    LookupStripValues(t, vs, k);
  }

  /** An extension removed by `unsetMimeByKey` has no rule left. */
  lemma RemovedKeyRejected(t: Table, keys: seq<string>, k: string)
    requires k in keys
    ensures !HasKey(RemoveKeys(t, keys), k)
  {
    LookupRemoveKeys(t, keys, k);
  }
}

=== FILE: src_zip.dfy ===
/**
 * `Zip\Zip` of the current version: the base path and archive name, opening the archive,
 * turning libzip error codes into exceptions, listing a directory and removing a tree.
 */
module SrcZip {
  import opened Php
  import opened Seqs
  import opened Paths
  import opened ZipErrors
  import opened Disk
  import opened DirTree
  import opened Archive

  /** `setBasePath`: separators rewritten, trailing '/' stripped. */
  function NormaliseBasePath(p: string): (r: string)
    ensures r == [] || r[|r| - 1] != '/'
    ensures '+' !in r && Plain(r) == Plain(p)
    ensures '+' !in p ==> SingleSlashes(r)
  {
    var s := ReplaceSeparators(p);
    var r := TrimRight(s, '/');
    TrimRightDropsOnly(s, '/');
    assert s == r + s[|r|..];
    PlainOfSlashes(r, s[|r|..]);
    r
  }

  /** Appending a run of '/' does not change the plain characters of a string. */
  lemma {:induction false} PlainOfSlashes(r: string, t: string)
    requires forall i :: 0 <= i < |t| ==> t[i] == '/'
    ensures Plain(r + t) == Plain(r)
  {
    if r == [] {
      SlashesArePlainFree(t);
      assert r + t == t;
    } else {
      assert (r + t)[1..] == r[1..] + t;
      PlainOfSlashes(r[1..], t);
    }
  }

  lemma {:induction false} SlashesArePlainFree(t: string)
    requires forall i :: 0 <= i < |t| ==> t[i] == '/'
    ensures Plain(t) == []
  {
    if t != [] {
      SlashesArePlainFree(t[1..]);
    }
  }

  /**
   * `getZipError` never returns: a known non-zero code throws `RuntimeException` with its
   * message, anything else `UnexpectedValueException`.
   */
  function CurrentZipError(code: int): (e: Exception)
    ensures Explained(CurrentMessages, code) ==> e == Runtime(CurrentMessages[code])
    ensures !Explained(CurrentMessages, code) ==> e == UnexpectedValue(UnknownCodeMessage(code))
  {
    if code != 0 && code in CurrentMessages then Runtime(CurrentMessages[code])
    else UnexpectedValue(UnknownCodeMessage(code))
  }

  /** Two different libzip failure codes never throw the same exception. */
  lemma CurrentZipErrorInjective(a: int, b: int)
    requires ER_MULTIDISK <= a <= ER_DELETED && ER_MULTIDISK <= b <= ER_DELETED && a != b
    ensures CurrentZipError(a) != CurrentZipError(b)
    ensures CurrentZipError(a).Runtime?
  {
    CurrentMessagesCoverLibzip(a);
    CurrentMessagesCoverLibzip(b);
    CurrentMessagesDistinct(a, b);
  }

  /**
   * One turn of the removal loop, walking the listing backwards: once the entries after
   * index i are gone, entry i is still there, it is a file or an empty directory, and
   * removing it leaves the volume without the entries from i on.
   */
  lemma RemovalStep(v0: Volume, root: string, tree: seq<Entry>, i: nat, vol: Volume)
    requires Mirrors(v0, root, tree) && i < |Listing(root, tree)|
    requires vol.nodes == v0.nodes - Elements(Listing(root, tree)[i + 1..])
    ensures var y := Listing(root, tree)[i];
      && y in vol.nodes
      && (IsDir(vol, y) ==> CanRmdir(vol, y))
      && (!IsDir(vol, y) ==> IsFile(vol, y))
      && vol.nodes - {y} == v0.nodes - Elements(Listing(root, tree)[i..])
  {
    var l := Listing(root, tree);
    var y := l[i];
    ListingParentsFirst(root, tree);
    assert y in v0.nodes by {
      assert y in l;
    }
    assert y !in l[i + 1..] by {
      forall j | i + 1 <= j < |l|
        ensures l[j] != y
      {
        assert !AtOrUnder(y, l[j]);
      }
    }
    assert Elements(l[i..]) == Elements(l[i + 1..]) + {y} by {
      assert l[i..] == [y] + l[i + 1..];
    }
    forall x | x in vol.nodes
      ensures !StartsWith(x, y + "/")
    {
      if StartsWith(x, y + "/") {
        BelowIsLater(v0, root, tree, i, x);
      }
    }
  }

  /**
   * Once every listed entry is gone, the root is an empty directory, and removing it
   * leaves exactly what lay neither at nor below it.
   */
  lemma RemovalDone(v0: Volume, root: string, tree: seq<Entry>, vol: Volume)
    requires Mirrors(v0, root, tree) && Exists(v0, root)
    requires vol.nodes == v0.nodes - Elements(Listing(root, tree))
    ensures CanRmdir(vol, root)
    ensures forall x :: x in vol.nodes - {root} <==> x in v0.nodes && !AtOrUnder(x, root)
  {
    var l := Listing(root, tree);
    assert root !in l by {
      forall x | x in l
        ensures x != root
      {
        InListing(root, tree, x);
      }
    }
  }

  class Zip {
    var basePath: string
    /** "" while no name has been set. */
    var zipFileName: string
    /** The entries of the open archive, once `open` succeeded. */
    var archive: Option<seq<string>>

    constructor Init(basePath: string, zipFileName: string)
      ensures this.basePath == basePath && this.zipFileName == zipFileName && archive == None
    {
      this.basePath := basePath;
      this.zipFileName := zipFileName;
      archive := None;
    }

    /**
     * `new Zip($basePath, $fileName)`: an empty base path throws; otherwise the normalised
     * path is created when missing and stored, and a non-empty name is stored.
     */
    static method New(fs: FileSystem, basePath: string, fileName: string) returns (r: Result<Zip>)
      modifies fs
      ensures Empty(basePath) ==> r == Throw(InvalidArgument("You must set a base path")) && fs.vol == old(fs.vol)
      ensures !Empty(basePath) ==> r.Ok? && fresh(r.value)
      ensures !Empty(basePath) ==> fs.vol == AfterMkdir(old(fs.vol), NormaliseBasePath(basePath))
      ensures r.Ok? ==> r.value.basePath == NormaliseBasePath(basePath) && r.value.archive == None
      ensures r.Ok? ==> r.value.zipFileName == if Empty(fileName) then "" else fileName
    {
      if Empty(basePath) {
        return Throw(InvalidArgument("You must set a base path"));
      }
      var p := NormaliseBasePath(basePath);
      if !Exists(fs.vol, p) {
        var made := fs.Mkdir(p);
      }
      var z := new Zip.Init(p, if Empty(fileName) then "" else fileName);
      r := Ok(z);
    }

    /** The file `open` hands to `ZipArchive::open`; None when no name is available. */
    function ArchivePath(fileName: string): (r: Option<string>)
      reads this
      ensures r.None? <==> Empty(fileName) && Empty(zipFileName)
      ensures !Empty(fileName) ==> r == Some(basePath + "/" + fileName)
      ensures Empty(fileName) && !Empty(zipFileName) ==> r == Some(basePath + "/" + zipFileName)
    {
      var name := if Empty(fileName) then zipFileName else fileName;
      if Empty(name) then None else Some(basePath + "/" + name)
    }

    /**
     * `open($fileName)`: the given name, or the stored one, is opened below the base path;
     * the opener stands for `ZipArchive::open`.
     */
    method Open(fileName: string, opener: string -> OpenResult) returns (r: Outcome)
      modifies this
      ensures basePath == old(basePath) && zipFileName == old(zipFileName)
      ensures old(ArchivePath(fileName)).None? ==>
        r == Thrown(Runtime("$fileName cannot be empty")) && archive == old(archive)
      ensures old(ArchivePath(fileName)).Some? ==>
        match opener(old(ArchivePath(fileName)).value)
        case Opened(es) => r == Done && archive == Some(es)
        case OpenFailed(code) => r == Thrown(CurrentZipError(code)) && archive == old(archive)
    {
      var path := ArchivePath(fileName);
      if path.None? {
        return Thrown(Runtime("$fileName cannot be empty"));
      }
      match opener(path.value)
      case Opened(es) =>
        archive := Some(es);
        r := Done;
      case OpenFailed(code) =>
        r := Thrown(CurrentZipError(code));
    }

    /** `iterateDir($path, true)`: nothing for an empty path, else the SELF_FIRST listing of the tree below it. */
    static function IterateDir(path: string, tree: seq<Entry>): (r: seq<string>)
      requires WellNamed(tree)
      ensures Empty(path) ==> r == []
      ensures ParentsFirst(r) && NoDuplicates(r)
      ensures forall x :: x in r ==> StartsWith(x, path + "/")
    {
      if Empty(path) then []
      else
        ListingParentsFirst(path, tree);
        ParentsFirstNoDuplicates(Listing(path, tree));
        forall x | x in Listing(path, tree)
          ensures StartsWith(x, path + "/")
        {
          InListing(path, tree, x);
        }
        Listing(path, tree)
    }

    /** The path `removeFiles` resolves. */
    function RemovalRoot(path: string, addBasePath: bool): string
      reads this
    {
      if addBasePath then basePath + "/" + path else path
    }

    /** The `UnexpectedValueException` the directory iterator throws for a path that is a file. */
    static function NotADirectoryMessage(path: string): string
    {
      "RecursiveDirectoryIterator::__construct(" + path + "): failed to open dir: Not a directory"
    }

    /**
     * `removeFiles($path, $addBasePath)`: false for a path that does not exist; a path that
     * is a file makes the directory iterator throw before anything is removed; otherwise
     * everything below it is removed, children before parents, then the directory itself.
     * The tree stands for what the iterator sees, so it only has to mirror the volume when
     * the path is a directory.
     */
    method RemoveFiles(fs: FileSystem, path: string, addBasePath: bool, tree: seq<Entry>) returns (r: Result<bool>)
      requires WellNamed(tree)
      requires IsDir(fs.vol, RemovalRoot(path, addBasePath)) ==> Mirrors(fs.vol, RemovalRoot(path, addBasePath), tree)
      modifies fs
      ensures !Exists(old(fs.vol), RemovalRoot(path, addBasePath)) ==> r == Ok(false) && fs.vol == old(fs.vol)
      ensures IsFile(old(fs.vol), RemovalRoot(path, addBasePath)) ==>
        r == Throw(UnexpectedValue(NotADirectoryMessage(RemovalRoot(path, addBasePath)))) && fs.vol == old(fs.vol)
      ensures IsDir(old(fs.vol), RemovalRoot(path, addBasePath)) ==> r == Ok(true) && forall x :: x in fs.vol.nodes <==>
        x in old(fs.vol).nodes && !AtOrUnder(x, RemovalRoot(path, addBasePath))
      ensures forall x :: x in fs.vol.nodes ==> fs.vol.nodes[x] == old(fs.vol).nodes[x]
      ensures fs.vol.writable == old(fs.vol.writable)
    {
      var root := RemovalRoot(path, addBasePath);
      if !Exists(fs.vol, root) {
        return Ok(false);
      }
      if !IsDir(fs.vol, root) {
        return Throw(UnexpectedValue(NotADirectoryMessage(root)));
      }
      var l := Listing(root, tree);
      var i := |l|;
      while i > 0
        invariant 0 <= i <= |l|
        invariant fs.vol.writable == old(fs.vol.writable)
        invariant fs.vol.nodes == old(fs.vol).nodes - Elements(l[i..])
      {
        i := i - 1;
        var v := l[i];
        RemovalStep(old(fs.vol), root, tree, i, fs.vol);
        if IsDir(fs.vol, v) {
          var removed := fs.Rmdir(v);
        } else {
          var removed := fs.Unlink(v);
        }
      }
      assert l[0..] == l;
      RemovalDone(old(fs.vol), root, tree, fs.vol);
      var ok := fs.Rmdir(root);
      r := Ok(ok);
    }
  }
}

=== FILE: vendor_extract.dfy ===
/**
 * `Zip\Extract` of the older snapshot. Selection by extension is the current version's;
 * selection by name only ever matches on the base name; and `moveValidFiles` tests the
 * acceptance verdict as if it were an array, so it never copies anything.
 */
module VendorExtract {
  import opened Php
  import opened Seqs
  import opened Paths
  import opened Registry
  import opened Disk
  import opened Archive
  import opened Naming
  import opened SrcMime
  import SrcExtract
  import opened VendorZip

  const NoTmpMessage := SrcExtract.NoTmpMessage
  const NoDestMessage := SrcExtract.NoDestMessage
  const NoGetModeMessage := "Call to undefined method Zip\\Extract::getMode()"

  /** A directory is given but nothing exists at its place below the base path. */
  predicate Missing(v: Volume, basePath: string, dir: string)
  {
    !Empty(dir) && !Exists(v, basePath + "/" + dir)
  }

  /* ---------- extractSpecificsFiles ---------- */

  /**
   * The test the loop applies to an entry: a non-empty extension, `greedy` on, and
   * `filename.extension` listed. The full-path test compares the stat record with the
   * listed strings and never holds, so it adds nothing.
   */
  predicate Picked(name: string, wanted: seq<string>, greedy: bool)
  {
    && !Empty(ExtensionOrEmpty(name))
    && (FileName(name) + "." + ExtensionOrEmpty(name) in wanted && greedy)
  }

  function PickedBy(wanted: seq<string>, greedy: bool): string -> bool
  {
    name => Picked(name, wanted, greedy)
  }

  /** The entries `extractSpecificsFiles` selects, in archive order. */
  function GreedyPicks(entries: seq<string>, wanted: seq<string>, greedy: bool): (r: seq<string>)
    ensures IsSubsequence(r, entries)
  {
    FilterIsSubsequence(entries, PickedBy(wanted, greedy));
    Filter(entries, PickedBy(wanted, greedy))
  }

  /** `filename.extension` is the base name of an entry with an extension. */
  lemma PickedByBaseName(name: string, wanted: seq<string>, greedy: bool)
    ensures Picked(name, wanted, greedy) <==>
      greedy && Extension(name).Some? && !Empty(Extension(name).value) && BaseName(name) in wanted
  {
    FileNameAndExtension(name);
  }

  /**
   * An entry is selected iff `greedy` is on, its extension is not empty and its base name
   * is listed; a listed full path selects nothing by itself.
   */
  lemma GreedyPicksMembers(entries: seq<string>, wanted: seq<string>, greedy: bool, x: string)
    ensures x in GreedyPicks(entries, wanted, greedy) <==>
      x in entries && greedy && Extension(x).Some? && !Empty(Extension(x).value) && BaseName(x) in wanted
  {
    FilterMembers(entries, PickedBy(wanted, greedy));
    PickedByBaseName(x, wanted, greedy);
  }

  /** With `greedy` off nothing is selected. */
  lemma NothingWithoutGreedy(entries: seq<string>, wanted: seq<string>)
    ensures GreedyPicks(entries, wanted, false) == []
  {
    FilterNone(entries, PickedBy(wanted, false));
  }

  /** The older selection is part of the current one, in the same order. */
  lemma GreedyPicksWithinCurrent(entries: seq<string>, wanted: seq<string>, greedy: bool)
    ensures IsSubsequence(GreedyPicks(entries, wanted, greedy), SrcExtract.Specifics(entries, wanted, greedy))
  {
    forall x | PickedBy(wanted, greedy)(x)
      ensures SrcExtract.WantedBy(wanted, greedy)(x)
    {
      PickedByBaseName(x, wanted, greedy);
    }
    FilterImplied(entries, PickedBy(wanted, greedy), SrcExtract.WantedBy(wanted, greedy));
  }

  method SelectGreedy(entries: seq<string>, wanted: seq<string>, greedy: bool) returns (files: seq<string>)
    ensures files == GreedyPicks(entries, wanted, greedy)
  {
    files := [];
    var i := 0;
    while i < |entries|
      invariant 0 <= i <= |entries|
      invariant files == Filter(entries[..i], PickedBy(wanted, greedy))
    {
      FilterSnoc(entries, i, PickedBy(wanted, greedy));
      var ext := ExtensionOrEmpty(entries[i]);
      if !Empty(ext) {
        var fileName := FileName(entries[i]) + "." + ext;
        if fileName in wanted && greedy {
          files := files + [entries[i]];
        }
      }
      i := i + 1;
    }
    assert entries[..i] == entries;
  }

  class Extract {
    /** The `Zip` part of the object. */
    const base: Zip
    var filesToExtract: seq<string>
    /** "" while unset. */
    var destinationDir: string
    /** "" while unset. */
    var tmpDestinationDir: string
    var greedy: bool
    var sameStructure: bool
    var sameName: bool
    var suffix: string
    var separator: string

    constructor Init(base: Zip, tmpDestinationDir: string, destinationDir: string)
      ensures this.base == base
      ensures this.tmpDestinationDir == tmpDestinationDir && this.destinationDir == destinationDir
      ensures filesToExtract == [] && greedy && sameStructure && sameName
      ensures suffix == "" && separator == "_"
    {
      this.base := base;
      this.tmpDestinationDir := tmpDestinationDir;
      this.destinationDir := destinationDir;
      filesToExtract := [];
      greedy := true;
      sameStructure := true;
      sameName := true;
      suffix := "";
      separator := "_";
    }

    /**
     * `new Extract($basePath, $fileName, $destinationDir, $tmpDestinationDir)`: the `Zip`
     * constructor, then each given directory below the base path (the temporary one first)
     * is stored when it exists. For a missing one the setter asks `$this->getMode()` for the
     * `mkdir` mode, and neither class of this snapshot defines `getMode` or `__call`, so PHP
     * throws `Error` before `mkdir` runs: no directory beyond the base path is ever created.
     */
    static method New(fs: FileSystem, basePath: string, fileName: string, destinationDir: string, tmpDestinationDir: string)
      returns (r: Result<Extract>)
      modifies fs
      ensures Empty(basePath) ==> r == Throw(InvalidArgument(NoBasePathMessage)) && fs.vol == old(fs.vol)
      ensures !Empty(basePath) ==> fs.vol == AfterMkdir(old(fs.vol), basePath)
      ensures !Empty(basePath) ==>
        var v := AfterMkdir(old(fs.vol), basePath);
        (r.Throw? <==> Missing(v, basePath, tmpDestinationDir) || Missing(v, basePath, destinationDir))
      ensures !Empty(basePath) && r.Throw? ==> r.exception == Error(NoGetModeMessage)
      ensures r.Ok? ==> fresh(r.value) && fresh(r.value.base)
      ensures r.Ok? ==>
        && r.value.base.basePath == basePath && r.value.base.archive == None
        && r.value.base.zipFileName == (if Empty(fileName) then "" else basePath + "/" + fileName)
        && r.value.tmpDestinationDir == (if Empty(tmpDestinationDir) then "" else basePath + "/" + tmpDestinationDir)
        && r.value.destinationDir == (if Empty(destinationDir) then "" else basePath + "/" + destinationDir)
        && r.value.filesToExtract == [] && r.value.sameName
    {
      var z := Zip.New(fs, basePath, fileName);
      if z.Throw? {
        return Throw(z.exception);
      }
      var b := z.value.basePath;
      var tmp := "";
      if !Empty(tmpDestinationDir) {
        tmp := b + "/" + tmpDestinationDir;
        if !Exists(fs.vol, tmp) {
          return Throw(Error(NoGetModeMessage));
        }
      }
      var dest := "";
      if !Empty(destinationDir) {
        dest := b + "/" + destinationDir;
        if !Exists(fs.vol, dest) {
          return Throw(Error(NoGetModeMessage));
        }
      }
      var e := new Extract.Init(z.value, tmp, dest);
      r := Ok(e);
    }

    /** `setFileToExtract($file)` */
    method SetFileToExtract(file: string)
      modifies this
      ensures filesToExtract == old(filesToExtract) + [file]
      ensures tmpDestinationDir == old(tmpDestinationDir) && destinationDir == old(destinationDir)
      ensures greedy == old(greedy)
    {
      filesToExtract := filesToExtract + [file];
    }

    /** `setFilesToExtract($files)` */
    method SetFilesToExtract(files: seq<string>)
      modifies this
      ensures filesToExtract == files
      ensures tmpDestinationDir == old(tmpDestinationDir) && destinationDir == old(destinationDir)
      ensures greedy == old(greedy)
    {
      filesToExtract := files;
    }

    /**
     * `setSuffix($suffix, $separator)`: the given separator, or the current one when none
     * is given, is put before the suffix, and renaming is switched on.
     */
    method SetSuffix(suffix: string, separator: string)
      modifies this
      ensures this.suffix == StoredSuffix(suffix, separator, old(this.separator))
      ensures !sameName
      ensures this.separator == old(this.separator) && filesToExtract == old(filesToExtract)
      ensures tmpDestinationDir == old(tmpDestinationDir) && destinationDir == old(destinationDir)
      ensures sameStructure == old(sameStructure) && greedy == old(greedy)
    {
      this.suffix := StoredSuffix(suffix, separator, this.separator);
      sameName := false;
    }

    /**
     * `moveValidFiles($files)`: throws when the destination, and then when the temporary
     * directory, is unset. Otherwise every file fails the acceptance test, because
     * `isValidMime` returns a boolean and indexing a boolean yields null; nothing is copied
     * and the result is empty.
     */
    method MoveValidFiles(files: seq<string>) returns (r: Result<seq<string>>)
      ensures Empty(destinationDir) ==> r == Throw(InvalidArgument(NoDestMessage))
      ensures !Empty(destinationDir) && Empty(tmpDestinationDir) ==> r == Throw(InvalidArgument(NoTmpMessage))
      ensures !Empty(destinationDir) && !Empty(tmpDestinationDir) ==> r == Ok([])
    {
      if Empty(destinationDir) {
        return Throw(InvalidArgument(NoDestMessage));
      }
      if Empty(tmpDestinationDir) {
        return Throw(InvalidArgument(NoTmpMessage));
      }
      r := Ok([]);
    }

    /**
     * `extractFiles($files)` as a function of the volume before the call: no temporary
     * directory throws before anything happens, and so does `extractTo` on an archive that
     * was never opened; otherwise the files are extracted there, and the move that follows
     * leaves the volume as it is.
     */
    function Extraction(v: Volume, files: seq<string>): SrcExtract.Effect
      reads this, base
    {
      if Empty(tmpDestinationDir) then SrcExtract.Effect(Throw(InvalidArgument(NoTmpMessage)), v)
      else if base.archive.None? then SrcExtract.Effect(Throw(Error(NullCall("extractTo"))), v)
      else
        var staged := Extracted(v, tmpDestinationDir, base.archive.value, files);
        if Empty(destinationDir) then SrcExtract.Effect(Throw(InvalidArgument(NoDestMessage)), staged)
        else SrcExtract.Effect(Ok([]), staged)
    }

    /** `extractFiles($files)` */
    method ExtractFiles(fs: FileSystem, files: seq<string>) returns (r: Result<seq<string>>)
      modifies fs
      ensures SrcExtract.Effect(r, fs.vol) == Extraction(old(fs.vol), files)
    {
      if Empty(tmpDestinationDir) {
        return Throw(InvalidArgument(NoTmpMessage));
      }
      if base.archive.None? {
        return Throw(Error(NullCall("extractTo")));
      }
      ExtractTo(fs, tmpDestinationDir, base.archive.value, files);
      r := MoveValidFiles(files);
    }

    /**
     * `extractByExtension()`: the entries with a registered extension are appended to the
     * list of files to extract, and that whole list is extracted.
     */
    method ExtractByExtension(fs: FileSystem, mime: Mime) returns (r: Result<seq<string>>)
      modifies this, fs
      ensures filesToExtract == old(filesToExtract) + SrcExtract.ByExtension(EntriesOf(base.archive), mime.mimeFiles)
      ensures tmpDestinationDir == old(tmpDestinationDir) && destinationDir == old(destinationDir)
      ensures SrcExtract.Effect(r, fs.vol) == Extraction(old(fs.vol), filesToExtract)
    {
      var selected := SrcExtract.SelectByExtension(EntriesOf(base.archive), mime.mimeFiles);
      filesToExtract := filesToExtract + selected;
      r := ExtractFiles(fs, filesToExtract);
    }

    /** `extractSpecificsFiles()`: the entries picked by base name are extracted. */
    method ExtractSpecificsFiles(fs: FileSystem) returns (r: Result<seq<string>>)
      modifies fs
      ensures SrcExtract.Effect(r, fs.vol) == Extraction(old(fs.vol), GreedyPicks(EntriesOf(base.archive), filesToExtract, greedy))
    {
      var files := SelectGreedy(EntriesOf(base.archive), filesToExtract, greedy);
      r := ExtractFiles(fs, files);
    }

    /**
     * `extractAllFiles()`: throws without a destination directory, and `extractTo` throws
     * on an archive that was never opened; otherwise the whole archive is extracted there
     * and every entry name is returned, in index order.
     */
    method ExtractAllFiles(fs: FileSystem) returns (r: Result<seq<string>>)
      modifies fs
      ensures Empty(destinationDir) ==> r == Throw(InvalidArgument(NoDestMessage)) && fs.vol == old(fs.vol)
      ensures !Empty(destinationDir) && base.archive.None? ==>
        r == Throw(Error(NullCall("extractTo"))) && fs.vol == old(fs.vol)
      ensures !Empty(destinationDir) && base.archive.Some? ==>
        r == Ok(base.archive.value) && fs.vol == ExtractedAll(old(fs.vol), destinationDir, base.archive.value)
    {
      if Empty(destinationDir) {
        return Throw(InvalidArgument(NoDestMessage));
      }
      if base.archive.None? {
        return Throw(Error(NullCall("extractTo")));
      }
      var entries := base.archive.value;
      var files: seq<string> := [];
      var i := 0;
      while i < |entries|
        invariant 0 <= i <= |entries|
        invariant files == entries[..i]
      {
        files := files + [entries[i]];
        i := i + 1;
      }
      ExtractTo(fs, destinationDir, entries, entries);
      assert entries[..i] == entries;
      r := Ok(files);
    }
  }

  /**
   * Whatever is asked for, an extraction of the older class returns no moved file and
   * leaves the volume as the extraction into the temporary directory left it.
   */
  lemma ExtractionMovesNothing(e: Extract, v: Volume, files: seq<string>)
    ensures e.Extraction(v, files).result.Ok? ==> e.Extraction(v, files).result.value == []
    ensures e.Extraction(v, files).vol ==
      if Empty(e.tmpDestinationDir) || e.base.archive.None? then v
      else Extracted(v, e.tmpDestinationDir, e.base.archive.value, files)
  {
  }
}

=== FILE: vendor_mime.dfy ===
/**
 * `Zip\Mime` of the older snapshot. Its state, its acceptance rule and its setters are the
 * current version's, so the same `SrcMime.Mime` object holds them; what differs is the
 * removal: `unsetMimeByKey` goes through `recursiveUnset`, and `unsetMimeByValue` unsets
 * the key tree `arrayKeysRecursive` finds, which leaves a list in place once it is empty.
 */
module VendorMime {
  import opened Php
  import opened Seqs
  import opened Registry
  import opened KeySearch
  import opened SrcMime

  /** `unsetMimeByKey($keys, false)`: every binding whose key is listed goes, and every listed position inside a list. */
  method UnsetMimeByKey(m: Mime, names: seq<string>)
    modifies m
    requires m.Valid()
    ensures m.mimeFiles == UnsetNames(old(m.mimeFiles), names) && m.validate == old(m.validate)
    ensures m.Valid()
  {
    UnsetNamesKeepsUnique(m.mimeFiles, names);
    m.mimeFiles := UnsetAnywhere(names, m.mimeFiles);
  }

  /** `unsetMimeByKey($keys, true)`: the leaves of a key tree shaped like the registry are unset. */
  method UnsetMimeByKeyTree(m: Mime, hits: seq<KeyHit>)
    modifies m
    requires m.Valid()
    ensures m.mimeFiles == UnsetTree(old(m.mimeFiles), hits) && m.validate == old(m.validate)
    ensures m.Valid()
  {
    UnsetTreeKeepsUnique(m.mimeFiles, hits);
    m.mimeFiles := UnsetSpecific(hits, m.mimeFiles);
  }

  /** `unsetMimeByValue($values)`: for each value in turn, what the search finds for it is unset. */
  function UnsetValues(t: Table, vs: seq<string>): Table
  {
    if vs == [] then t
    else
      var u := UnsetValues(t, vs[..|vs| - 1]);
      UnsetTree(u, FindKeys(u, vs[|vs| - 1]))
  }

  /**
   * After `unsetMimeByValue($vs)` a string rule is gone iff its media type is in vs, and a
   * list keeps its key and exactly the media types outside vs, in order, even when none is left.
   */
  lemma {:induction false} LookupUnsetValues(t: Table, vs: seq<string>, k: string)
    requires UniqueKeys(t)
    ensures UniqueKeys(UnsetValues(t, vs))
    ensures Lookup(UnsetValues(t, vs), k) ==
      match Lookup(t, k)
      case None => None
      case Some(Single(m)) => if m in vs then None else Some(Single(m))
      case Some(Many(ms)) => Some(Many(Filter(ms, Absent(vs))))
  {
    if vs == [] {
      match Lookup(t, k)
      case None =>
      case Some(Single(m)) =>
      case Some(Many(ms)) =>
        FilterAll(ms, Absent(vs));
    } else {
      var init, v := vs[..|vs| - 1], vs[|vs| - 1];
      var u := UnsetValues(t, init);
      assert vs == init + [v];
      LookupUnsetValues(t, init, k);
      UnsetTreeKeepsUnique(u, FindKeys(u, v));
      UnsetFoundKeys(u, v, k);
      match Lookup(t, k)
      case None =>
      case Some(Single(m)) =>
      case Some(Many(ms)) =>
        FilterTwice(ms, Absent(init), Unequal(v), Absent(vs));
    }
  }

  /** Unlike the current version's, an unset by value never removes a key that holds a list. */
  lemma ListKeysSurvive(t: Table, vs: seq<string>, k: string)
    requires UniqueKeys(t) && Lookup(t, k).Some? && Lookup(t, k).value.Many?
    ensures HasKey(UnsetValues(t, vs), k)
    ensures Lookup(UnsetValues(t, vs), k).value.Many?
  {
    LookupUnsetValues(t, vs, k);
  }

  /** `unsetMimeByValue($values)` */
  method UnsetMimeByValue(m: Mime, values: seq<string>)
    modifies m
    requires m.Valid()
    ensures m.mimeFiles == UnsetValues(old(m.mimeFiles), values) && m.validate == old(m.validate)
    ensures m.Valid()
  {
    var i := 0;
    while i < |values|
      invariant i <= |values|
      invariant m.mimeFiles == UnsetValues(old(m.mimeFiles), values[..i])
      invariant m.validate == old(m.validate)
      invariant m.Valid()
    {
      assert values[..i + 1][..i] == values[..i];
      var found := ArrayKeysRecursive(m.mimeFiles, values[i]);
      UnsetTreeKeepsUnique(m.mimeFiles, found);
      m.mimeFiles := UnsetSpecific(found, m.mimeFiles);
      i := i + 1;
    }
    assert values[..i] == values;
  }
}

=== FILE: vendor_zip.dfy ===
/**
 * `Zip\Zip` of the older snapshot: the constructor, `open`, `getZipError` over the short
 * error table, and `rrmdir`, which removes a tree depth first, every child before the
 * directory that holds it.
 */
module VendorZip {
  import opened Php
  import opened ZipErrors
  import opened Disk
  import opened DirTree
  import opened Archive
  import SrcZip

  const NoBasePathMessage := "There must be a base path in $basePath"
  const NoFileNameMessage := "$fileName cannot be empty"

  /**
   * What a failed `open` throws: `getZipError` returns the message of a known code, which
   * becomes a `RuntimeException`, and throws `UnexpectedValueException` itself for any other.
   */
  function OpenError(code: int): (e: Exception)
    ensures Explained(EarlyMessages, code) ==> e == Runtime(EarlyMessages[code])
    ensures !Explained(EarlyMessages, code) ==> e == UnexpectedValue(UnknownCodeMessage(code))
  {
    match EarlyZipError(code)
    case Ok(m) => Runtime(m)
    case Throw(x) => x
  }

  /**
   * On a libzip failure code the older class throws what the current one throws exactly
   * when the code is one of the nine its table knows.
   */
  lemma OpenErrorAgainstCurrent(code: int)
    requires ER_MULTIDISK <= code <= ER_DELETED
    ensures OpenError(code) == SrcZip.CurrentZipError(code) <==> code in EarlyMessages
  {
    CurrentMessagesCoverLibzip(code);
    if code in EarlyMessages {
      EarlyMessagesAgree(code);
    }
  }

  /* ---------- rrmdir ---------- */

  /** The `glob()` that lists a directory's entries does not list a name that begins with '.'. */
  predicate Hidden(name: string)
  {
    |name| > 0 && name[0] == '.'
  }

  /**
   * The volume after `rrmdir` on p, whose entries are kids: a file is unlinked; otherwise
   * every entry glob lists is removed in turn and then p itself goes.
   */
  function Sweep(v: Volume, p: string, kids: seq<Entry>): Volume
    decreases kids, 1
  {
    if IsFile(v, p) then AfterUnlink(v, p) else AfterRmdir(SweepAll(v, p, kids), p)
  }

  /** `array_map` of `rrmdir` over the entries `glob()` lists in dir. */
  function SweepAll(v: Volume, dir: string, es: seq<Entry>): Volume
    decreases es, 0
  {
    if es == [] then v
    else
      var w := if Hidden(es[0].name) then v else Sweep(v, Child(dir, es[0].name), es[0].kids);
      SweepAll(w, dir, es[1..])
  }

  /** Whether glob lists anything, i.e. whether the array `array_map` returns is non-empty. */
  function AnyListed(es: seq<Entry>): (r: bool)
    ensures r <==> exists k :: 0 <= k < |es| && !Hidden(es[k].name)
  {
    if es == [] then false
    else
      var init := es[..|es| - 1];
      assert forall k :: 0 <= k < |init| ==> init[k] == es[k];
      AnyListed(init) || !Hidden(es[|es| - 1].name)
  }

  /**
   * What `rrmdir` returns on p: the result of `unlink` for a file; for a directory the
   * comparison of a PHP array (true iff non-empty) with the result of `rmdir`.
   */
  function SweepResult(v: Volume, p: string, kids: seq<Entry>): bool
  {
    if IsFile(v, p) then true else AnyListed(kids) == CanRmdir(SweepAll(v, p, kids), p)
  }

  /** Nothing lies below p. */
  ghost predicate Bare(v: Volume, p: string)
  {
    forall y :: y in v.nodes ==> !StartsWith(y, p + "/")
  }

  /** Nothing lies below a file: every real file system is like this. */
  ghost predicate Tidy(v: Volume)
  {
    forall x :: IsFile(v, x) ==> Bare(v, x)
  }

  /** kids are the entries the walk finds below p: the paths of v below p are exactly those of their listing. */
  ghost predicate Lists(v: Volume, p: string, kids: seq<Entry>)
  {
    && WellNamed(kids)
    && forall x :: (x in v.nodes && StartsWith(x, p + "/")) <==> x in Listing(p, kids)
  }

  /** No entry anywhere in the tree has a name glob skips. */
  predicate NoneHidden(es: seq<Entry>)
    decreases es
  {
    forall k :: 0 <= k < |es| ==> !Hidden(es[k].name) && NoneHidden(es[k].kids)
  }

  /** w is v with some nodes gone, the rest as they were. */
  ghost predicate Shrunk(v: Volume, w: Volume)
  {
    && w.writable == v.writable
    && forall x :: x in w.nodes ==> x in v.nodes && w.nodes[x] == v.nodes[x]
  }

  lemma ShrunkTrans(u: Volume, v: Volume, w: Volume)
    requires Shrunk(u, v) && Shrunk(v, w)
    ensures Shrunk(u, w)
  {
  }

  /** A path at or below a child of dir is below dir. */
  lemma ChildPathUnder(x: string, dir: string, n: string)
    requires AtOrUnder(x, Child(dir, n))
    ensures StartsWith(x, dir + "/") && |x| >= |Child(dir, n)|
  {
    var c := Child(dir, n);
    assert c[..|dir| + 1] == dir + "/";
    if x != c {
      assert x[..|c|] == (c + "/")[..|c|];
    }
    assert x[..|dir| + 1] == c[..|dir| + 1];
  }

  /** `rrmdir` on p removes nothing that is not p or below it, and changes nothing it keeps. */
  lemma {:induction false} SweepInside(v: Volume, p: string, kids: seq<Entry>)
    ensures Shrunk(v, Sweep(v, p, kids))
    ensures forall x :: x in v.nodes && !AtOrUnder(x, p) ==> x in Sweep(v, p, kids).nodes
    decreases kids, 1
  {
    if !IsFile(v, p) {
      SweepAllInside(v, p, kids);
    }
  }

  lemma {:induction false} SweepAllInside(v: Volume, dir: string, es: seq<Entry>)
    ensures Shrunk(v, SweepAll(v, dir, es))
    ensures forall x :: x in v.nodes && !StartsWith(x, dir + "/") ==> x in SweepAll(v, dir, es).nodes
    decreases es, 0
  {
    if es != [] {
      var c := Child(dir, es[0].name);
      var w := if Hidden(es[0].name) then v else Sweep(v, c, es[0].kids);
      if !Hidden(es[0].name) {
        SweepInside(v, c, es[0].kids);
        forall x | x in v.nodes && !StartsWith(x, dir + "/")
          ensures x in w.nodes
        {
          if AtOrUnder(x, c) {
            ChildPathUnder(x, dir, es[0].name);
          }
        }
      }
      SweepAllInside(w, dir, es[1..]);
      ShrunkTrans(v, w, SweepAll(w, dir, es[1..]));
    }
  }

  lemma TidyShrunk(v: Volume, w: Volume)
    requires Tidy(v) && Shrunk(v, w)
    ensures Tidy(w)
  {
    forall x | IsFile(w, x)
      ensures Bare(w, x)
    {
      assert IsFile(v, x);
    }
  }

  /** A path at or below the first entry of a well-named directory is not listed under the later ones. */
  lemma NotUnderLaterEntries(dir: string, es: seq<Entry>, x: string)
    requires WellNamed(es) && es != []
    requires AtOrUnder(x, Child(dir, es[0].name))
    ensures x !in Listing(dir, es[1..])
  {
    if x in Listing(dir, es[1..]) {
      InListing(dir, es[1..], x);
      var k :| 0 <= k < |es[1..]| && AtOrUnder(x, Child(dir, es[1..][k].name));
      assert es[1..][k] == es[k + 1];
      SegmentsAgree(x, dir, es[0].name, es[k + 1].name);
    }
  }

  lemma WellNamedParts(es: seq<Entry>)
    requires WellNamed(es) && NoneHidden(es) && es != []
    ensures WellNamed(es[0].kids) && NoneHidden(es[0].kids) && !Hidden(es[0].name)
    ensures WellNamed(es[1..]) && NoneHidden(es[1..])
  {
    forall a, b | 0 <= a < b < |es[1..]|
      ensures es[1..][a].name != es[1..][b].name
    {
      assert es[1..][a] == es[a + 1] && es[1..][b] == es[b + 1];
    }
  }

  /** What lies below the first entry of a listed directory is listed by that entry. */
  lemma ListsFirst(v: Volume, dir: string, es: seq<Entry>)
    requires Lists(v, dir, es) && NoneHidden(es) && es != []
    ensures Lists(v, Child(dir, es[0].name), es[0].kids)
    ensures Exists(v, Child(dir, es[0].name))
  {
    WellNamedParts(es);
    var c := Child(dir, es[0].name);
    ChildUnder(dir, es[0].name);
    ChildPathUnder(c, dir, es[0].name);
    assert Listing(dir, es) == [c] + Listing(c, es[0].kids) + Listing(dir, es[1..]);
    forall x
      ensures (x in v.nodes && StartsWith(x, c + "/")) <==> x in Listing(c, es[0].kids)
    {
      if x in Listing(c, es[0].kids) {
        InListing(c, es[0].kids, x);
        AtOrUnderTrans(x, c, dir);
        ChildPathUnder(x, dir, es[0].name);
      }
      if x in v.nodes && StartsWith(x, c + "/") {
        ChildPathUnder(x, dir, es[0].name);
        NotUnderLaterEntries(dir, es, x);
      }
    }
  }

  /** Once the first entry of a listed directory is gone, the later entries list what is left below it. */
  lemma ListsRest(v: Volume, w: Volume, dir: string, es: seq<Entry>)
    requires Lists(v, dir, es) && NoneHidden(es) && es != []
    requires forall x :: x in w.nodes <==> x in v.nodes && !AtOrUnder(x, Child(dir, es[0].name))
    ensures Lists(w, dir, es[1..])
  {
    WellNamedParts(es);
    var c := Child(dir, es[0].name);
    assert Listing(dir, es) == [c] + Listing(c, es[0].kids) + Listing(dir, es[1..]);
    forall x
      ensures (x in w.nodes && StartsWith(x, dir + "/")) <==> x in Listing(dir, es[1..])
    {
      if x in Listing(dir, es[1..]) {
        if AtOrUnder(x, c) {
          NotUnderLaterEntries(dir, es, x);
        }
      }
      if x in w.nodes && StartsWith(x, dir + "/") && x in Listing(c, es[0].kids) {
        InListing(c, es[0].kids, x);
      }
    }
  }

  /**
   * On a tidy volume, `rrmdir` of an existing path whose tree has no hidden names removes
   * exactly that path and everything below it: each directory is emptied before its `rmdir`.
   */
  lemma {:induction false} SweepRemoves(v: Volume, p: string, kids: seq<Entry>)
    requires Tidy(v) && Exists(v, p) && Lists(v, p, kids) && NoneHidden(kids)
    ensures forall x :: x in Sweep(v, p, kids).nodes <==> x in v.nodes && !AtOrUnder(x, p)
    decreases kids, 1
  {
    if IsFile(v, p) {
      assert Bare(v, p);
    } else {
      var u := SweepAll(v, p, kids);
      SweepAllRemoves(v, p, kids);
      SweepAllInside(v, p, kids);
      assert p in u.nodes && u.nodes[p] == Dir;
      assert CanRmdir(u, p);
    }
  }

  lemma {:induction false} SweepAllRemoves(v: Volume, dir: string, es: seq<Entry>)
    requires Tidy(v) && Lists(v, dir, es) && NoneHidden(es)
    ensures forall x :: x in SweepAll(v, dir, es).nodes <==> x in v.nodes && !StartsWith(x, dir + "/")
    decreases es, 0
  {
    if es == [] {
      forall x | x in v.nodes
        ensures !StartsWith(x, dir + "/")
      {
      }
    } else {
      WellNamedParts(es);
      var c := Child(dir, es[0].name);
      ListsFirst(v, dir, es);
      SweepRemoves(v, c, es[0].kids);
      var w := Sweep(v, c, es[0].kids);
      SweepInside(v, c, es[0].kids);
      TidyShrunk(v, w);
      ListsRest(v, w, dir, es);
      SweepAllRemoves(w, dir, es[1..]);
      forall x | AtOrUnder(x, c)
        ensures StartsWith(x, dir + "/")
      {
        ChildPathUnder(x, dir, es[0].name);
      }
    }
  }

  /** An empty directory is removed, yet `rrmdir` reports false: an empty array is not `true`. */
  lemma EmptyDirReportsFalse(v: Volume, p: string)
    requires IsDir(v, p) && Bare(v, p)
    ensures !Exists(Sweep(v, p, []), p)
    ensures !SweepResult(v, p, [])
  {
  }

  /* ---------- the rrmdir finding ---------- */

  /** `realpath` as `rrmdir` uses it: false, which prints as "", for a path that does not exist. */
  function Resolved(v: Volume, p: string): string
  {
    if Exists(v, p) then p else ""
  }

  /** `rrmdir` as written: a missing path resolves to "", so the walk lists the entries of the root directory. */
  function SweepAsWritten(v: Volume, p: string, tree: seq<Entry>): Volume
  {
    Sweep(v, Resolved(v, p), tree)
  }

  /** Asked to remove a path that does not exist, `rrmdir` as written removes what lies at the root. */
  lemma MissingPathSweepsRoot()
    ensures var v := Volume(map["/etc" := File("passwd")], {});
      && !Exists(v, "missing")
      && Lists(v, "", [Entry("etc", [])])
      && SweepAsWritten(v, "missing", [Entry("etc", [])]).nodes == map[]
  {
    var v := Volume(map["/etc" := File("passwd")], {});
    var tree := [Entry("etc", [])];
    assert Child("", "etc") == "/etc";
    assert Listing("", tree) == ["/etc"];
    forall x
      ensures (x in v.nodes && StartsWith(x, "" + "/")) <==> x in Listing("", tree)
    {
      if x == "/etc" {
        assert x[..1] == "/";
      }
    }
    assert SweepAll(v, "", tree) == SweepAll(Sweep(v, "/etc", []), "", []);
  }

  class Zip {
    var basePath: string
    /** "" while no name has been set. */
    var zipFileName: string
    /** The entries of the open archive, once `open` succeeded. */
    var archive: Option<seq<string>>

    constructor Init(basePath: string, zipFileName: string)
      ensures this.basePath == basePath && this.zipFileName == zipFileName && archive == None
    {
      this.basePath := basePath;
      this.zipFileName := zipFileName;
      archive := None;
    }

    /**
     * `new Zip($basePath, $fileName)`: an empty base path throws; otherwise the base path is
     * created when missing and kept as given, and a non-empty name is stored below it.
     */
    static method New(fs: FileSystem, basePath: string, fileName: string) returns (r: Result<Zip>)
      modifies fs
      ensures Empty(basePath) ==> r == Throw(InvalidArgument(NoBasePathMessage)) && fs.vol == old(fs.vol)
      ensures !Empty(basePath) ==> r.Ok? && fresh(r.value) && fs.vol == AfterMkdir(old(fs.vol), basePath)
      ensures r.Ok? ==> r.value.basePath == basePath && r.value.archive == None
      ensures r.Ok? ==> r.value.zipFileName == if Empty(fileName) then "" else basePath + "/" + fileName
    {
      if Empty(basePath) {
        return Throw(InvalidArgument(NoBasePathMessage));
      }
      if !Exists(fs.vol, basePath) {
        var made := fs.Mkdir(basePath);
      }
      var z := new Zip.Init(basePath, if Empty(fileName) then "" else basePath + "/" + fileName);
      r := Ok(z);
    }

    /** The name `open` hands to `ZipArchive::open`: the given one, else the stored one, never prefixed. */
    function OpenPath(fileName: string): (r: Option<string>)
      reads this
      ensures r.None? <==> Empty(fileName) && Empty(zipFileName)
      ensures !Empty(fileName) ==> r == Some(fileName)
      ensures Empty(fileName) && !Empty(zipFileName) ==> r == Some(zipFileName)
    {
      var name := if Empty(fileName) then zipFileName else fileName;
      if Empty(name) then None else Some(name)
    }

    /** `open($fileName)`; the opener stands for `ZipArchive::open`. */
    method Open(fileName: string, opener: string -> OpenResult) returns (r: Outcome)
      modifies this
      ensures basePath == old(basePath) && zipFileName == old(zipFileName)
      ensures old(OpenPath(fileName)).None? ==> r == Thrown(Runtime(NoFileNameMessage)) && archive == old(archive)
      ensures old(OpenPath(fileName)).Some? ==>
        match opener(old(OpenPath(fileName)).value)
        case Opened(es) => r == Done && archive == Some(es)
        case OpenFailed(code) => r == Thrown(OpenError(code)) && archive == old(archive)
    {
      var path := OpenPath(fileName);
      if path.None? {
        return Thrown(Runtime(NoFileNameMessage));
      }
      match opener(path.value)
      case Opened(es) =>
        archive := Some(es);
        r := Done;
      case OpenFailed(code) =>
        r := Thrown(OpenError(code));
    }

    /** The path `rrmdir` resolves. */
    function RemovalRoot(path: string, addBasePath: bool): string
      reads this
    {
      if addBasePath then basePath + "/" + path else path
    }

    /**
     * `rrmdir($path, $addBasePath)`, with a path that does not exist left alone (false);
     * an existing one is removed depth first as Sweep describes.
     */
    method Rrmdir(fs: FileSystem, path: string, addBasePath: bool, tree: seq<Entry>) returns (ok: bool)
      modifies fs
      ensures !Exists(old(fs.vol), RemovalRoot(path, addBasePath)) ==> !ok && fs.vol == old(fs.vol)
      ensures Exists(old(fs.vol), RemovalRoot(path, addBasePath)) ==>
        fs.vol == Sweep(old(fs.vol), RemovalRoot(path, addBasePath), tree) &&
        ok == SweepResult(old(fs.vol), RemovalRoot(path, addBasePath), tree)
    {
      var root := RemovalRoot(path, addBasePath);
      if !Exists(fs.vol, root) {
        return false;
      }
      ok := RemoveTree(fs, root, tree);
    }

    /** The recursion of `rrmdir` on one path. */
    static method RemoveTree(fs: FileSystem, p: string, kids: seq<Entry>) returns (ok: bool)
      modifies fs
      ensures fs.vol == Sweep(old(fs.vol), p, kids)
      ensures ok == SweepResult(old(fs.vol), p, kids)
      decreases kids, 1
    {
      if IsFile(fs.vol, p) {
        var unlinked := fs.Unlink(p);
        return unlinked;
      }
      ghost var v0 := fs.vol;
      var listed := false;
      var i := 0;
      while i < |kids|
        invariant i <= |kids|
        invariant SweepAll(fs.vol, p, kids[i..]) == SweepAll(v0, p, kids)
        invariant listed == AnyListed(kids[..i])
      {
        assert kids[i..][1..] == kids[i + 1..];
        assert kids[..i + 1][..i] == kids[..i];
        if !Hidden(kids[i].name) {
          var removed := RemoveTree(fs, Child(p, kids[i].name), kids[i].kids);
          listed := true;
        }
        i := i + 1;
      }
      assert kids[..i] == kids;
      var removed := fs.Rmdir(p);
      ok := listed == removed;
    }
  }
}

=== FILE: zip_errors.dfy ===
/**
 * The libzip error codes `ZipArchive::open` returns, and the two message tables the
 * library keeps for them: the full table of the current version and the nine-entry
 * table of the older ones.
 */
module ZipErrors {
  import opened Php

  const ER_OK := 0
  const ER_MULTIDISK := 1
  const ER_RENAME := 2
  const ER_CLOSE := 3
  const ER_SEEK := 4
  const ER_READ := 5
  const ER_WRITE := 6
  const ER_CRC := 7
  const ER_ZIPCLOSED := 8
  const ER_NOENT := 9
  const ER_EXISTS := 10
  const ER_OPEN := 11
  const ER_TMPOPEN := 12
  const ER_ZLIB := 13
  const ER_MEMORY := 14
  const ER_CHANGED := 15
  const ER_COMPNOTSUPP := 16
  const ER_EOF := 17
  const ER_INVAL := 18
  const ER_NOZIP := 19
  const ER_INTERNAL := 20
  const ER_INCONS := 21
  const ER_REMOVE := 22
  const ER_DELETED := 23

  /** The `$zipError` table of the current `Zip` class. */
  const CurrentMessages: map<int, string> := map[
    ER_CHANGED := "Entry has been changed",
    ER_CLOSE := "Closing zip archive failed",
    ER_COMPNOTSUPP := "Compression method not supported",
    ER_CRC := "CRC error",
    ER_DELETED := "Entry has been deleted",
    ER_EOF := "Premature EOF",
    ER_EXISTS := "File already exists",
    ER_INCONS := "Zip archive inconsistent",
    ER_INTERNAL := "Internal error",
    ER_INVAL := "Invalid argument",
    ER_MEMORY := "Malloc failure",
    ER_MULTIDISK := "Multi-disk zip archives not supported",
    ER_NOENT := "No such file",
    ER_NOZIP := "Not a zip archive",
    ER_OPEN := "Can't open file",
    ER_READ := "Read error",
    ER_REMOVE := "Can't remove file",
    ER_RENAME := "Renaming temporary file failed",
    ER_SEEK := "Seek error",
    ER_TMPOPEN := "Failure to create temporary file",
    ER_WRITE := "Write error",
    ER_ZIPCLOSED := "Containing zip archive was closed",
    ER_ZLIB := "Zlib error"
  ]

  /** The `$zipError` table of the older `Zip` classes. */
  const EarlyMessages: map<int, string> := map[
    ER_EXISTS := "File already exists",
    ER_INCONS := "Zip archive inconsistent",
    ER_INVAL := "Invalid argument",
    ER_MEMORY := "Malloc failure",
    ER_NOENT := "No such file",
    ER_NOZIP := "Not a zip archive",
    ER_OPEN := "Can't open file",
    ER_READ := "Read error",
    ER_SEEK := "Seek error"
  ]

  const UnknownErrorPrefix := "Error do not exists in this class, check manual for error: "

  /** The message of the exception thrown for a code the table does not explain. */
  function UnknownCodeMessage(code: int): string
  {
    UnknownErrorPrefix + IntToString(code)
  }

  /** The message `getZipError(false)` throws: `false` concatenates as the empty string. */
  const FalseErrorMessage := UnknownErrorPrefix

  /** `empty($error) === false && array_key_exists($error, $this->zipError)` */
  predicate Explained(table: map<int, string>, code: int)
  {
    code != 0 && code in table
  }

  /** The full table covers every libzip code except ER_OK. */
  lemma CurrentMessagesCoverLibzip(code: int)
    ensures Explained(CurrentMessages, code) <==> ER_MULTIDISK <= code <= ER_DELETED
  {
  }

  /** Different codes of the full table have different messages. */
  lemma CurrentMessagesDistinct(a: int, b: int)
    requires a in CurrentMessages && b in CurrentMessages && a != b
    ensures CurrentMessages[a] != CurrentMessages[b]
  {
  }

  /** The older table is the full table cut down to nine codes. */
  lemma EarlyMessagesAgree(code: int)
    requires code in EarlyMessages
    ensures code in CurrentMessages && EarlyMessages[code] == CurrentMessages[code]
  {
    assert code in {ER_EXISTS, ER_INCONS, ER_INVAL, ER_MEMORY, ER_NOENT, ER_NOZIP, ER_OPEN, ER_READ, ER_SEEK};
  }

  /**
   * `getZipError` of the older classes: the message of a known non-zero code is returned,
   * anything else throws `UnexpectedValueException`.
   */
  function EarlyZipError(code: int): (r: Result<string>)
    ensures r.Ok? <==> Explained(EarlyMessages, code)
    ensures r.Ok? ==> r.value == EarlyMessages[code] && r.value in CurrentMessages.Values
    ensures r.Throw? ==> r.exception == UnexpectedValue(UnknownCodeMessage(code))
  {
    if Explained(EarlyMessages, code) then
      EarlyMessagesAgree(code);
      Ok(EarlyMessages[code])
    else Throw(UnexpectedValue(UnknownCodeMessage(code)))
  }
}
